=== FILE: README.md ===
# Side Quest: a Dafny model of the session, access and state core

Side Quest is a Next.js client for a subscription-and-rewards service, with a
customer area and an admin area. This project models the small pieces of it
that decide things, as pure functions over immutable data:

- **The session cookie store** (`Storage`, `CookieLemmas`). `document.cookie`
  is modelled as a list of cookies. It has a rendering `name1=value1; name2=value2`
  in the shape of section 5.4 of RFC 6265. The model covers `setCookie` and
  `removeCookie` as expiry-stamped writes and the ad-hoc `getCookie` parser
  over that text. On top of them sit the token and role helpers of
  `AuthService` and `AdminAuthService`.
- **Access decisions.** These are:
  - the edge `middleware` and its `matcher` (`Middleware`);
  - the admin layout (`AdminLayout`);
  - the page guards (`AdminGuard`, `AdminUsers.Guard`);
  - the login and sign-up redirects (`LoginPage`, `SignupPage`);
  - the tab routing of the customer layout (`AuthenticatedLayout`);
  - `handleAuthError` (`AuthUtils`).
- **The HTTP client policy** of `app/utils/api.ts` (`Api`). This covers:
  - header construction;
  - classifying one attempt into a result or an `ApiError`;
  - the retry recursion with its doubling delay;
  - the `api.*` wrappers.

  Each request runs against a server given as a function from (request,
  attempt number) to an abstract attempt outcome.
- **The six Redux slices**, each a `State × Action → State` function:
  `AuthSlice`, `AdminSlice`, `SubscriptionSlice`, `PlansSlice`,
  `NavigationSlice` and `UserSlice`.
- **Validators and page logic.**
  - The shared auth form's validators (`AuthForm`).
  - The plans service (`PlansService`).
  - Five admin pages: `AdminDashboard`, `AdminRedeem`, `AdminProfile`,
    `AdminMembers` and `AdminUsers`. `AdminCommon` holds the search and the
    sign-up error message that two of them share.

Shared vocabulary lives in `Wrappers` (`Option`, `Result`), `Values` (JSON
values, JavaScript truthiness, `||` and object spread), `Text` (JavaScript's
`trim`, `split`, `startsWith`, ASCII case mapping, `toString` of integers),
`Lists` (`findIndex`, replace-first, `filter`, count, sum), `Config` and
`Roles`.

Time, the cookie store and web storage are fields of a `Browser` value:

- whether `window` exists;
- the cookie list;
- `localStorage` and `sessionStorage` as sets of keys;
- the clock in milliseconds.

Server replies, the Square card tokenizer's answer and `Date.now()` are
parameters.

Three behaviours of the code are worth stating up front:

- Every method shares one retry path, so a POST, PUT, PATCH or DELETE that
  meets a 5xx is sent again (`Api.RetryIndependentOfMethod`,
  `Api.ServerErrorRetried`).
- After clearing the session on a 401, `apiRequest` still throws
  `Authentication failed` (`Api.UnauthorizedNotRetried`).
- `handleAuthError` sends non-admin visitors to `/signup` and keeps the role
  cookie (`AuthUtils.HandleAuthError`, `AuthUtils.RoleSurvivesAuthError`).

A cookie write is applied as the browser parses it (section 5.2 of RFC 6265):
the value ends at the first `;`, and its leading and trailing spaces and tabs
are dropped. So `setCookie("x", " abc")` reads back `abc`.

## Model

| member | source | states |
|---|---|---|
| Storage.StripLeadingSpaces | app/utils/storage.ts:18 | the stripped segment is never longer than the segment and never starts with a space |
| Storage.StripIsSuffix | app/utils/storage.ts:18 | stripping only drops characters from the front: the result is a suffix of the segment |
| Storage.GetCookie | app/utils/storage.ts:12-23 | without a window the result is null. With one, it is null exactly when no `;`-separated segment starts with `name=` once its leading spaces are gone. Otherwise it is the rest of the first such segment, and it never contains `;` |
| Storage.SetCookieWrite | app/utils/storage.ts:4-8 | the write carries the name and value. It expires `days` days after now, so it lies in the future exactly when `days` is positive; the default seven days is 604 800 000 ms |
| Storage.RemoveCookieWrite | app/utils/storage.ts:25-28 | the write has an empty value and expired at the epoch |
| Storage.Apply | app/utils/storage.ts:8 | a write expiring in the future stores its value as the browser parses it (cut at the first `;`, spaces and tabs trimmed), which is the value itself exactly when that is valid; any other write deletes its name. Every other name reads as before, and a well-formed store stays well-formed |
| Storage.SetCookie | app/utils/storage.ts:4-10 | with a window and positive `days` the parsed value is stored (the value itself when it holds no `;` and is not padded with spaces or tabs), and with non-positive `days` the name is gone. Other cookies are untouched, web storage is untouched, and without a window nothing changes |
| Storage.StoredValueFixesValid | app/utils/storage.ts:8 | the browser keeps a written value unchanged exactly when it holds no `;` and neither starts nor ends with a space or a tab |
| Storage.StoredValueCutsAtSemicolon | app/utils/storage.ts:8 | whatever follows the first `;` of the value becomes attribute text and never reaches the stored value |
| Storage.StoredValueTrims | app/utils/storage.ts:8 | spaces and tabs around a valid value are dropped |
| Storage.StoredValueExamples | app/utils/storage.ts:8 | `a;b` is stored as `a`, ` abc` as `abc`, and a tab-led `x y ` followed by `;expires=0` as `x y` |
| Storage.RemoveCookie | app/utils/storage.ts:25-29 | once the clock is past the epoch the cookie is gone. Every other cookie is kept, and without a window nothing changes |
| CookieLemmas.KeyMatchesExactly | app/utils/storage.ts:14-19 | for keys without `=`, a segment `k=v` starts with `name=` exactly when `k` is `name`, so a key that is a proper prefix of another never matches it |
| CookieLemmas.TokenLookupSkipsRoleCookie | app/utils/storage.ts:66-68 | looking up `side-quest` in a text holding only `side-quest_role=…` finds nothing |
| CookieLemmas.TokenFoundAfterRoleCookie | app/utils/storage.ts:14-19 | with the role cookie listed first, the token listed after it is still found |
| CookieLemmas.SpaceBeforeEqualsHides | app/utils/storage.ts:18-19 | a segment `name =v` does not match `name` |
| CookieLemmas.TabBeforeNameHides | app/utils/storage.ts:18-19 | a tab before the name is not stripped, so the segment does not match |
| CookieLemmas.LeadingSpacesSkipped | app/utils/storage.ts:18-19 | any number of spaces before `name=v` is skipped and `v` is returned |
| CookieLemmas.RenderRoundTrip | app/utils/storage.ts:15-19 | for a store with one cookie per name, whose names are non-empty, do not start with a space and hold no `=` or `;`, and whose values are as the browser's parse leaves them (no `;`, no leading or trailing space or tab), parsing its `k1=v1; k2=v2; …` text returns, for every name without `=`, exactly the stored value or null |
| CookieLemmas.ReadCookieIsLookup | app/utils/storage.ts:12-23 | what a page reads through `getCookie` is what the store holds |
| CookieLemmas.SetThenRead | app/utils/storage.ts:4-23 | a cookie set for a positive number of days reads back through `getCookie` as the browser parsed it; it reads back unchanged exactly when the value holds no `;` and is not padded with spaces or tabs. The store stays well-formed |
| CookieLemmas.RemoveThenRead | app/utils/storage.ts:25-29 | a removed cookie no longer reads back and every other cookie reads as before |
| Text.JoinSplit | app/utils/storage.ts:15 | joining the pieces of `split(';')` with `;` gives the cookie text back |
| Text.SplitJoin | app/utils/storage.ts:15 | splitting pieces joined by a separator they do not contain recovers the pieces |
| Text.TrimEmptyIffBlank | app/components/AuthForm.tsx:48-52 | `trim()` is empty exactly when every character is JavaScript white space |
| Text.IntToStringInjective | app/store/slices/subscriptionSlice.ts:127-129 | two integers print alike exactly when they are equal |
| AuthService.WithBusinessId | app/services/authService.ts:15-18 | the payload has the caller's keys plus `business_id`, which holds the configured business. Every other key keeps the caller's value |
| AuthService.SignupRequest | app/services/authService.ts:14-19 | a POST to the sign-up endpoint of the caller's fields with the business id, on the default retry budget |
| AuthService.LoginRequest | app/services/authService.ts:21-26 | a POST to the login endpoint of the caller's fields with the business id, on the default retry budget |
| AuthService.BusinessIdOverridden | app/services/authService.ts:15-18 | whatever `business_id` the caller supplies, the payload is the same |
| AuthService.SetAuthToken | app/services/authService.ts:34-40 | the token cookie holds the token as the browser parses it (the token itself when valid) and every other cookie, the role included, is untouched. `pwa-install-dismissed` leaves localStorage, and sessionStorage is untouched |
| AuthService.SetRole | app/services/authService.ts:42-44 | a seven-day role cookie: with a window the store holds the role as the browser parses it (the role itself when valid), no other cookie and no web storage changes, a well-formed store stays well-formed, and without a window nothing changes |
| AuthService.RemoveRole | app/services/authService.ts:50-52 | the role cookie is gone and nothing else changes |
| AuthService.RemoveAuthToken | app/services/authService.ts:58-61 | both the token and the role cookie are gone. Other cookies and web storage are untouched |
| AuthService.Logout | app/services/authService.ts:28-31 | logging out sends nothing: with a window and a clock past 1970 neither the token nor the role cookie is left, every other cookie and both web storages stay, and without a window nothing changes |
| AuthService.GetRole | app/services/authService.ts:46-48 | null without a window; for a well-formed store, exactly the stored `side-quest_role` value |
| AuthService.GetAuthToken | app/services/authService.ts:54-56 | null without a window; for a well-formed store, exactly the stored `side-quest` value |
| AuthService.IsAuthenticated | app/services/authService.ts:63-65 | never without a window; for a well-formed store, exactly when a non-empty `side-quest` cookie is stored |
| AuthService.IsAuthenticatedIffToken | app/services/authService.ts:63-65 | signed in exactly when the store holds a non-empty `side-quest` cookie and a window exists |
| AuthService.SetAuthTokenSignsIn | app/services/authService.ts:34-40 | storing a token signs in exactly when what the browser keeps of it is non-empty (for a valid token, when the token is non-empty), and the role that reads back is unchanged |
| AuthService.LogoutSignsOut | app/services/authService.ts:28-31 | after logout neither token nor role reads back |
| AdminAuthService.SetAuthToken | app/services/adminAuthService.ts:70-76 | the admin side's `setAuthToken` is the client's: same cookie name, same lifetime, same storage flag, so one session is shared |
| AdminAuthService.SetRole | app/services/adminAuthService.ts:78-80 | the admin side's `setRole` is the client's |
| AdminAuthService.GetRole | app/services/adminAuthService.ts:82-84 | the admin side reads the role the client side stored |
| AdminAuthService.GetAuthToken | app/services/adminAuthService.ts:90-92 | the admin side reads the token the client side stored |
| AdminAuthService.RemoveRole | app/services/adminAuthService.ts:86-88 | the admin side's `removeRole` is the client's |
| AdminAuthService.RemoveAuthToken | app/services/adminAuthService.ts:94-97 | the admin side's `removeAuthToken` is the client's: token and role both go |
| AdminAuthService.GetAuthHeaders | app/services/adminAuthService.ts:104-115 | the admin header builder gives the same headers as the client's |
| AdminAuthService.FinalHeaders | app/services/adminAuthService.ts:123-129 | the caller's headers win on a conflict, and the auth headers fill the other keys |
| AdminAuthService.ApiRequest | app/services/adminAuthService.ts:118-148 | a failed fetch and an unparsable body throw. A 401 with a window redirects to `/login` and returns the body. Another failure throws the body's message or `API request failed`. Without a redirect the browser is untouched |
| AdminAuthService.IsAuthenticated | app/services/adminAuthService.ts:99-101 | the admin side's `isAuthenticated` is the client's |
| AdminAuthService.HasAdminRole | app/services/adminAuthService.ts:151-154 | false without a window; for a well-formed store, true exactly when the stored role is `admin`, `super_admin` or `owner` |
| AdminAuthService.HasAdminRoleIffAdminCookie | app/services/adminAuthService.ts:151-154 | `hasAdminRole` holds exactly when the role cookie reads back as `admin`, `super_admin` or `owner` |
| AdminAuthService.UnauthorizedKeepsRole | app/services/adminAuthService.ts:138-143 | a 401 on the admin side signs the visitor out but keeps the role cookie |
| AuthUtils.HandleAuthError | app/utils/authUtils.ts:3-29 | not handled exactly when no 401 is reported. Without a window the redirect throws. A handled error redirects to `/login` for admins and to `/signup` otherwise, removes the token cookie and the `authToken` web-storage keys, and leaves everything else |
| AuthUtils.IsAuthError | app/utils/authUtils.ts:5-6 | a 401 in the status, response status or status code, or `401` at any position of the message, counts; with no message, only a 401 status field does |
| AuthUtils.HandledIffUnauthorized | app/utils/authUtils.ts:5-6 | the error is handled exactly when its status, response status or status code is 401 or its message contains `401`, and the token then no longer reads back |
| AuthUtils.RoleSurvivesAuthError | app/utils/authUtils.ts:9-16 | a handled 401 leaves the role cookie reading as before |
| AuthUtils.MessageWith401Handled | app/utils/authUtils.ts:5 | a 401 reported only inside the message text is handled |
| Api.GetAuthHeaders | app/utils/api.ts:61-72 | the content type is always JSON. `Authorization` is present exactly when the token cookie reads back non-empty, and is then `Bearer <token>`. There are no other keys |
| Api.FinalHeaders | app/utils/api.ts:112-115 | the caller's headers win on a conflict, the auth headers fill the rest, and the keys are the union |
| Api.RetryBudget | app/utils/api.ts:107 | the retry budget is the caller's `retryAttempts`, or 3 when the caller gives none |
| Api.BuildRequest | app/utils/api.ts:117-125 | the request has the caller's method, body and endpoint. A JSON content type is always sent, the caller's headers win, and a bearer header is sent exactly when a non-empty token reads back or the caller supplies one, carrying the token unless overridden |
| Api.Classify | app/utils/api.ts:117-188 | a reply resolves exactly when it is OK and parses. A parsed 401 clears the session and fails with `Authentication failed`, without a toast. Another non-OK parsed reply fails with the body's message or `API request failed`, its status and code. An abort gives the 408 timeout, and a network failure or unparsable body gives status 0. Only a parsed 5xx is retryable. Every other failure shows exactly one error toast |
| Api.RetryFrom | app/utils/api.ts:84-100 | at least one and at most budget + 1 attempts. The waits are `delay`, `2·delay`, `4·delay`, …, one fewer than the attempts. Every attempt but the last was retryable, the outcome is the last attempt's, and the run stops early only on an outcome that is not retryable |
| Api.ClearSession | app/utils/api.ts:134-147 | with a window and a clock past the epoch, the token and role cookies are gone and their keys leave localStorage. Other cookies and sessionStorage are untouched, and without a window nothing changes |
| Api.ApiRequest | app/utils/api.ts:103-191 | the request runs at least once and at most budget + 1 times. The waits between runs are 1000 ms, then doubling. A run is repeated only after a retryable (parsed 5xx) attempt, and a retryable outcome means the budget was spent. The outcome is the last attempt's. The page goes to `/login` exactly in a window when the last attempt took the 401 branch; the token and role cookies are then gone and both keys leave localStorage. Without a redirect the browser is untouched |
| Api.AuthorizationIffToken | app/utils/api.ts:61-72 | with a well-formed store, the bearer header is sent exactly when a non-empty token cookie is stored and a window exists |
| Api.ContentTypeAlwaysSent | app/utils/api.ts:112-115 | a content type is always sent, and the caller's value wins when given |
| Api.RetryIndependentOfMethod | app/utils/api.ts:194-231 | for a server that answers every method alike, any two methods give the same run, so mutations are retried like reads |
| Api.ServerErrorRetried | app/utils/api.ts:92-96 | a parsed 5xx on the first attempt of any method, with budget left, is retried after 1000 ms |
| Api.UnauthorizedNotRetried | app/utils/api.ts:134-151 | a 401 ends the run after one attempt with `Authentication failed`, and in a window the session is cleared and the page goes to `/login` |
| Api.TimeoutAndNetworkNotRetried | app/utils/api.ts:178-186 | a timeout or a network failure ends the run after one attempt and changes nothing |
| Api.DefaultScheduleOnPersistentFailure | app/utils/api.ts:84-100 | with the default budget, a server that keeps answering 5xx sees four attempts, waits of 1000, 2000 and 4000 ms, and its last server error is the outcome |
| Middleware.Middleware | middleware.ts:4-48 | on `/login` and `/signup` a token redirects admins to `/admin/dashboard` and others to `/plans`, and no token passes. `/admin…` passes only with a token and an admin role, else `/login`. `/redeem…`, `/profile`, `/plans`, `/home` and `/schedule` need a token. Everything else passes |
| Middleware.Effective | middleware.ts:50-59 | over every path, a redirect only comes from a matched path and only to `/login`, `/admin/dashboard` or `/plans`. `/login`, `/signup`, `/home` and `/schedule` always pass |
| Middleware.RedirectTargets | middleware.ts:4-48 | every redirect goes to `/login`, `/admin/dashboard` or `/plans` |
| Middleware.NoTokenNoAccess | middleware.ts:26-43 | with no token or an empty one, every protected path redirects to `/login` |
| Middleware.UnmatchedBranchesNeverRun | middleware.ts:50-59 | `/login`, `/signup`, `/home` and `/schedule` are never matched, so their branches never run |
| Middleware.AdminPrefixLooserThanMatcher | middleware.ts:26 | `/administrator` starts with `/admin` but is not matched, so its guard never runs |
| AdminLayout.Effect | app/admin/layout.tsx:18-32 | the check always ends loading. It authorizes once token and admin role are both present and never revokes. It pushes `/login` exactly when the check fails off `/login` |
| AdminLayout.Render | app/admin/layout.tsx:34-61 | loader while loading. On `/login` the children render regardless. Otherwise admin content when authorized and nothing when not |
| AdminLayout.AuthorizedIffSomeCheckPassed | app/admin/layout.tsx:18-32 | after any run of checks the layout is authorized exactly when it was already or some check saw both token and admin role |
| AdminLayout.FirstRenderAfterMount | app/admin/layout.tsx:18-61 | after the first check, admin content shows exactly for a token with an admin role off `/login`, and before it a loader shows |
| AdminGuard.Guard | app/admin/profile/page.tsx:64-74 | proceeds exactly with a token and an admin role. With no token the page goes to `/login` with nothing changed. With a token and another role the session is dropped first |
| AdminGuard.GuardAgreesWithMiddleware | app/admin/dashboard/page.tsx:28-38 | on every `/admin` path the page guard lets a visitor through exactly when the middleware does |
| AdminGuard.RejectedRoleSignsOut | app/admin/redeem/page.tsx:37-47 | a visitor refused for the role leaves with neither token nor role |
| AuthenticatedLayout.TabForPath | app/components/AuthenticatedLayout.tsx:39-47 | `/plans` selects plans, `/redeem` schedule and `/profile` profile; every other path keeps the tab |
| AuthenticatedLayout.RouteForTab | app/components/AuthenticatedLayout.tsx:68-77 | the route is `/admin/profile` exactly for the profile tab of an admin role |
| AuthenticatedLayout.UserRole | app/components/AuthenticatedLayout.tsx:73 | the role is present exactly when a user is loaded, and is that user's |
| AuthenticatedLayout.HandleTabChange | app/components/AuthenticatedLayout.tsx:66-79 | the tab becomes active and the tab's route for the user's role is pushed |
| AuthenticatedLayout.IsPublic | app/components/AuthenticatedLayout.tsx:53 | `/`, `/signup` and `/login` are exempt from the layout's redirect, and the middleware guards none of them |
| AuthenticatedLayout.Effects | app/components/AuthenticatedLayout.tsx:24-56 | on a render in which the effects run: the check is dispatched exactly when no user is loaded and none was dispatched yet. The profile fetch happens exactly when authenticated without a user. The tab follows the path. The redirect happens exactly when checked, not loading, not authenticated and off `/`, `/signup` and `/login` |
| AuthenticatedLayout.Render | app/components/AuthenticatedLayout.tsx:58-64 | loader exactly while loading, and pages with tabs exactly when authenticated and not loading |
| AuthenticatedLayout.TabRouteRoundTrip | app/components/AuthenticatedLayout.tsx:39-79 | a tab's route selects that tab again, except the admin profile route, which selects none. A path's tab routes back to that path for a non-admin |
| AuthenticatedLayout.RedirectOnlyWhenBlank | app/components/AuthenticatedLayout.tsx:49-64 | a redirect to `/login` happens only while nothing renders, never while the pages show, and never before the check |
| AuthenticatedLayout.CheckDispatches | app/components/AuthenticatedLayout.tsx:24-30 | at most one check per mount, none once checked, and only on a render with no user |
| AuthenticatedLayout.CheckDispatchedOnce | app/components/AuthenticatedLayout.tsx:24-30 | the check goes out exactly once, on the first render without a user |
| AuthenticatedLayout.NoCheckWithUserLoaded | app/components/AuthenticatedLayout.tsx:26 | with a user loaded on every render, no check goes out |
| LoginPage.PostAuthRedirect | app/login/page.tsx:26-53 | a token cookie sends admin roles to `/admin/dashboard` and others to `/home`. Without one, an authenticated store user is sent by the same rule, and otherwise nobody moves |
| LoginPage.HandleInputChange | app/login/page.tsx:60-65 | the edited field takes the value and the others keep theirs |
| LoginPage.AsObject | app/login/page.tsx:57 | the form becomes a JSON object with the same keys and string values |
| LoginPage.Submit | app/login/page.tsx:55-58 | the login request carries the form's fields unchanged, apart from the business id |
| SignupPage.PostAuthRedirect | app/signup/page.tsx:26-53 | the same rule as the login page: cookie first, then the store user, by role |
| SignupPage.SubmitDisabled | app/signup/page.tsx:186 | the button is enabled exactly when not loading and the password has at least 8 characters |
| SignupPage.HandleInputChange | app/signup/page.tsx:60-65 | the sign-up form edits exactly as the login form does |
| SignupPage.Submit | app/signup/page.tsx:55-58 | the sign-up request carries the form's fields unchanged, apart from the business id |
| SignupPage.SameRuleAsLogin | app/signup/page.tsx:26-53 | the two pages redirect every visitor alike |
| SignupPage.NonAdminLandingDiverges | app/signup/page.tsx:31-39 | a signed-in non-admin lands on `/home` from the pages, where the middleware would say `/plans`. Its branch never runs on these paths |
| SignupPage.AdminLandingAgrees | app/signup/page.tsx:33-36 | admins land on `/admin/dashboard` from the pages and the middleware alike |
| SignupPage.StoreIgnoredWithToken | app/login/page.tsx:31-41 | with a token cookie the store is not consulted |
| AuthForm.ValidateEmailIsPattern | app/components/AuthForm.tsx:36-39 | the check accepts exactly the strings of `^[^\s@]+@[^\s@]+\.[^\s@]+$` |
| AuthForm.EmailExamples | app/components/AuthForm.tsx:37 | `local@host.tld` is accepted, and a missing local part or a missing dot after `@` is refused |
| AuthForm.ValidateForm | app/components/AuthForm.tsx:45-66 | the name is required only on sign-up, after trimming. The e-mail is required after trimming, then matched untrimmed. The password is required, then needs 8 characters with a letter. Each error carries its message |
| AuthForm.HandleSubmit | app/components/AuthForm.tsx:68-78 | the errors are the validation's. A submission goes out exactly when there are none, with the e-mail and password, and the name only on sign-up |
| AuthForm.HandleInputChange | app/components/AuthForm.tsx:80-86 | the field takes the value and loses its error; the other fields and errors stay |
| AuthForm.SubmitIffValid | app/components/AuthForm.tsx:65-77 | a submission goes out exactly when the name (on sign-up), the e-mail and the password all pass |
| AuthForm.PasswordRuleStricterThanSignupPage | app/components/AuthForm.tsx:41-43 | every form-valid password passes the sign-up page's gate, but `12345678` passes the gate and fails the form |
| AuthForm.LeadingSpaceRejected | app/components/AuthForm.tsx:52-55 | an address with a leading space is not blank but fails the pattern |
| AuthSlice.IdOrZero | app/store/slices/authSlice.ts:203 | `id \|\| 0`: a missing or zero id is 0 and any other id is kept |
| AuthSlice.UserFromResponse | app/store/slices/authSlice.ts:202-209 | name and e-mail fall back from `user.*` to the top level to `''`, the id falls back to 0, and the role is the role cookie or `customer` |
| AuthSlice.NameFallback | app/store/slices/authSlice.ts:204 | an empty nested name yields to the top-level one, and with neither the name is `''` |
| AuthSlice.SignedOut | app/store/slices/authSlice.ts:254-267 | not authenticated, no user, no token, no error, not loading |
| AuthSlice.Reduce | app/store/slices/authSlice.ts:172-281 | login and sign-up pending clear the error and other pendings only set loading. Fulfilled login and sign-up sign in with the response's token and user. Rejections record the message and keep the session. Logout signs out either way. Check-auth fulfilled sets the flag only, and rejected drops user and token. `clearAuth`, `setToken`, `clearError` and `updateUser` touch only their fields |
| AuthSlice.CheckAuthStatus | app/store/slices/authSlice.ts:139-166 | succeeds exactly when the token cookie is non-empty, with a placeholder profile whose role is the role cookie or `customer`; otherwise it fails with `No token found` |
| AuthSlice.CheckAuthActions | app/store/slices/authSlice.ts:139-166 | one dispatch starts with the pending action and ends with at least one more |
| AuthSlice.CheckAuthOutcome | app/store/slices/authSlice.ts:269-281 | after one check the store is signed in exactly when the token cookie is non-empty, with the placeholder profile and the old token, and otherwise has neither user nor token |
| AuthSlice.LogoutThunk | app/store/slices/authSlice.ts:127-137 | the thunk always fulfils, and afterwards the browser is signed out with no role, other cookies kept; without a window nothing changes |
| AuthSlice.LogoutOutcomeIrrelevant | app/store/slices/authSlice.ts:254-267 | logout leaves the same signed-out state whether it fulfils or rejects |
| AuthSlice.TokenImpliesAuthenticatedInvariant | app/store/slices/authSlice.ts:172-281 | a token in the store always comes with the signed-in flag, across any run of actions |
| AdminSlice.Reduce | app/store/slices/adminSlice.ts:99-196 | pending sets loading and clears the error, with lists unchanged. Rejected records the message. Fetches replace their own list wholesale. Keyed updates keep the length and touch only their list. Create only clears loading. `clearAdminError` and `clearAdminData` clear what they name |
| AdminSlice.UpdateSubscriptionKeyed | app/store/slices/adminSlice.ts:143-150 | the updated subscription lands on the first entry with its id, entries with other ids stay, and with no such entry the list is unchanged |
| AdminSlice.UpdateRedeemItemKeyed | app/store/slices/adminSlice.ts:185-192 | the same, keyed on `order_id`, where two missing order ids count as equal: the first matching entry becomes the update, entries with another order id stay, and with no match the list is unchanged |
| AdminSlice.UpdateSubscriptionIdempotent | app/store/slices/adminSlice.ts:143-150 | applying the same update twice equals applying it once |
| AdminSlice.SharedLoadingFlag | app/store/slices/adminSlice.ts:113-196 | completing any operation clears the one loading flag, even while another is pending |
| AdminSlice.ClearAdminDataResets | app/store/slices/adminSlice.ts:103-108 | clearing the data gives the initial lists and error, with loading kept |
| SubscriptionSlice.CancelInList | app/store/slices/subscriptionSlice.ts:127-132 | the length is kept. Only an entry whose id prints as the payload can change, and only into its cancelled copy. The first such entry is cancelled, and with none the list is unchanged |
| SubscriptionSlice.Reduce | app/store/slices/subscriptionSlice.ts:74-164 | pending clears the error and rejected records it, with data kept. A fetched list replaces the cache. Fetch-by-id sets only the current subscription. Cancel and update act on the first matching entry and on a matching current subscription. Clear empties everything but loading |
| SubscriptionSlice.CancelMarksFirstWithId | app/store/slices/subscriptionSlice.ts:124-137 | cancelling by a printed id marks exactly the first entry with that id and no other |
| SubscriptionSlice.CancelUnknownIdIsNoOp | app/store/slices/subscriptionSlice.ts:127-132 | a payload that is no listed id's printed form, such as `07`, cancels nothing in the list |
| SubscriptionSlice.FetchKeepsChosenCurrent | app/store/slices/subscriptionSlice.ts:94-101 | a fetched list never displaces a current subscription already chosen |
| SubscriptionSlice.CancelIdempotent | app/store/slices/subscriptionSlice.ts:124-137 | cancelling twice equals cancelling once |
| PlansService.GetPlanById | app/services/plansService.ts:46-53 | the plan found is the first with that object id. `Plan not found` is returned exactly when no plan has it |
| PlansService.GetPlanVariations | app/services/plansService.ts:56-59 | exactly the variations of that plan, all from the response |
| PlansService.SubscribeToPlan | app/services/plansService.ts:62-72 | a POST of exactly the variation, the card and the business id, with the success toast |
| PlansService.VariationsOfConcatenation | app/services/plansService.ts:58 | the lookup keeps the response's order: a response in two parts gives the two parts' answers in turn |
| PlansService.VariationsOfSinglePlan | app/services/plansService.ts:58 | when every variation belongs to the plan, all are returned unchanged |
| PlansService.PlanLookupFirstWins | app/services/plansService.ts:48 | a later plan with the same id is never returned in place of the first |
| PlansSlice.Reduce | app/store/slices/plansSlice.ts:75-145 | pending clears the error and rejected records it, with data kept. A fetched response sets both lists from the same response. Fetch-by-id sets only the current plan and fetch-variations only the variations. Subscribe only clears loading. The clears reset what they name |
| PlansSlice.FetchPlanByIdOutcome | app/store/slices/plansSlice.ts:35-45 | the thunk fulfils with the service's plan, or rejects with `Plan not found` |
| PlansSlice.PlanByIdAgreesWithCache | app/store/slices/plansSlice.ts:99-120 | after fetching the plans and then a plan by id, the current plan is a cached plan with that id, or the error is `Plan not found` and the current plan is unchanged |
| PlansSlice.ClearsForget | app/store/slices/plansSlice.ts:76-90 | clearing the current plan touches nothing else, and clearing the plans after it is clearing the plans |
| NavigationSlice.Reduce | app/store/slices/navigationSlice.ts:15-35 | each action changes only its own field, toggle flips the sidebar, and reset gives the initial state |
| NavigationSlice.ToggleInvolution | app/store/slices/navigationSlice.ts:22-24 | toggling twice changes nothing |
| NavigationSlice.OpenCloseIdempotent | app/store/slices/navigationSlice.ts:25-30 | open and close are idempotent, and a toggle equals the one of them that applies |
| NavigationSlice.ResetForgetsHistory | app/store/slices/navigationSlice.ts:31-35 | after a reset, whatever came before is forgotten |
| NavigationSlice.ReduceAllAppend | app/store/slices/navigationSlice.ts:15-35 | running two sequences of actions is running the first, then the second |
| NavigationSlice.SidebarOnlyBySidebarActions | app/store/slices/navigationSlice.ts:16-21 | page and tab actions never touch the sidebar |
| UserSlice.MergeStats | app/store/slices/userSlice.ts:72-74 | every supplied stat is overwritten and the rest kept |
| UserSlice.MergePreferences | app/store/slices/userSlice.ts:75-78 | every supplied preference is overwritten and the rest kept |
| UserSlice.Reduce | app/store/slices/userSlice.ts:63-105 | `setTheme` changes only the theme and the toggle only notifications. The patches merge. Pending clears the error and rejected records it. A profile update only clears loading, and fetched stats replace the stats |
| UserSlice.FetchUserStats | app/store/slices/userSlice.ts:42-51 | the thunk always fulfils with 12 quests, 10 completed, 85 % |
| UserSlice.ToggleNotificationsInvolution | app/store/slices/userSlice.ts:68-71 | toggling notifications twice changes nothing |
| UserSlice.MergeLaws | app/store/slices/userSlice.ts:72-78 | an empty patch is the identity and a patch of the current values changes nothing. Two stats patches compose, the later field winning, and a preferences patch is idempotent |
| UserSlice.StatsAreFixed | app/store/slices/userSlice.ts:98-105 | fetching stats lands on the same numbers whatever was there, and a profile update leaves preferences and stats alone |
| AdminCommon.FilterByEmail | app/admin/members/page.tsx:414-416 | an empty search keeps the list. Otherwise the result holds only listed entries whose lower-cased e-mail contains the lower-cased search, and every such entry |
| AdminCommon.SearchIgnoresCase | app/admin/users/page.tsx:74 | the match does not depend on the letter case of either side |
| AdminCommon.EmptySearchMatchesAll | app/admin/users/page.tsx:73-75 | the short cut for an empty search gives what the filter would |
| AdminCommon.SearchKeepsOrder | app/admin/users/page.tsx:74 | searching a list in two parts gives the first part's matches, then the second's |
| AdminCommon.SignupErrorMessage | app/admin/members/page.tsx:1000-1006 | `ERROR_CODE_ACCESS_DENIED` gives the already-registered message. Otherwise the result is the body's non-empty message or `Failed to create user` |
| AdminCommon.AccessDeniedWins | app/admin/members/page.tsx:1002-1003 | with the access-denied code the body's message is ignored |
| AdminDashboard.TotalAmount | app/admin/dashboard/page.tsx:49-51 | the total is the sum of the amounts, a missing one counting 0 |
| AdminDashboard.SubscriptionStats | app/admin/dashboard/page.tsx:47-52 | the subscriber count is the number of cached subscriptions and the amount is their total |
| AdminDashboard.Render | app/admin/dashboard/page.tsx:56-66 | a loader exactly while either loading flag is set, otherwise the error view exactly when an error is set, showing it |
| AdminDashboard.TotalOfConcatenation | app/admin/dashboard/page.tsx:49-51 | the total of two parts is the sum of their totals, and a subscription without an amount adds nothing |
| AdminDashboard.TotalNonNegative | app/admin/dashboard/page.tsx:49-51 | with no negative amounts the total is never negative |
| AdminDashboard.StatsFollowFetch | app/admin/dashboard/page.tsx:41-58 | after a fetch the statistics are those of the fetched list, and while it is pending the loader shows |
| AdminRedeem.Statistics | app/admin/redeem/page.tsx:144-176 | the total is the list length, and the pending and approved counts are those of the requests with that status |
| AdminRedeem.CountsBounded | app/admin/redeem/page.tsx:144-176 | pending plus approved never exceeds the total |
| AdminRedeem.ButtonsFor | app/admin/redeem/page.tsx:232-262 | the buttons exist exactly for a pending request and are disabled exactly while that request is processed |
| AdminRedeem.StatusLabel | app/admin/redeem/page.tsx:203 | the label has the status's length, its first character upper-cased and the rest unchanged |
| AdminRedeem.LabelsOfStatuses | app/admin/redeem/page.tsx:203 | the three statuses show as `Pending`, `Approved` and `Rejected` |
| AdminRedeem.Reload | app/admin/redeem/page.tsx:52-63 | a reply replaces the list, and a failure keeps it and shows one error toast |
| AdminRedeem.HandleDecision | app/admin/redeem/page.tsx:65-93 | the update for that id with the decided status goes first. On success the list reloads and the last toast is the success message. On failure nothing more is sent, the list is kept and one error toast shows. Processing always ends cleared |
| AdminRedeem.SuccessToastDespiteFailedReload | app/admin/redeem/page.tsx:69-72 | a failed reload after a successful update still ends with the success toast, after the reload's error toast |
| AdminProfile.Prefill | app/admin/profile/page.tsx:48-57 | the form takes the profile's name and e-mail, or `''`, and empty passwords |
| AdminProfile.HandleInputChange | app/admin/profile/page.tsx:107-112 | the named field takes the value and the others keep theirs |
| AdminProfile.Cancel | app/admin/profile/page.tsx:187-195 | cancel gives the loaded profile's prefilled form, or empty fields when none loaded |
| AdminProfile.UpdatePayload | app/admin/profile/page.tsx:126-137 | the body always has the business id, name and e-mail. The role and user id are present exactly when the profile has them, and the password exactly when non-empty. There are no other keys |
| AdminProfile.HandleSubmit | app/admin/profile/page.tsx:118-137 | nothing is sent, with `Passwords do not match`, exactly when a non-empty password differs from its confirmation. Otherwise the payload is sent |
| AdminProfile.OnUpdated | app/admin/profile/page.tsx:156-177 | a reply with a name or e-mail is kept, with the form refreshed from it and the passwords cleared. Otherwise the profile is refetched, and a failed refetch keeps the page as it was |
| AdminProfile.CancelRestoresLoadedProfile | app/admin/profile/page.tsx:187-195 | cancelling gives the loaded form, which submits the loaded name and e-mail without a password |
| AdminProfile.EmptyPasswordNeverBlocks | app/admin/profile/page.tsx:119 | an empty password never blocks, whatever the confirmation, and no password is sent |
| AdminProfile.RoleCarriedOver | app/admin/profile/page.tsx:131 | every update sends the existing role back |
| AdminProfile.PasswordsClearedAfterUpdate | app/admin/profile/page.tsx:159-177 | whenever a profile is known after the update the passwords are cleared. With no usable reply and a failed refetch, the typed form stays |
| AdminUsers.Guard | app/admin/users/page.tsx:51-55 | the page proceeds exactly with a token, whatever the role, and a refusal changes nothing |
| AdminUsers.MissingRoleCheckCoveredByMiddleware | app/admin/users/page.tsx:51-55 | a signed-in customer passes this guard but not the other admin pages'. Behind the middleware both guards pass |
| AdminUsers.FilteredUsers | app/admin/users/page.tsx:73-75 | an empty search keeps every user. Otherwise exactly the users whose e-mail contains the search, ignoring case |
| AdminUsers.CreateUserBody | app/admin/users/page.tsx:82-87 | the sign-up body has exactly the name, e-mail, password and business id |
| AdminUsers.CreateUserError | app/admin/users/page.tsx:100-106 | the access-denied code gives the already-registered message, otherwise the body's message or `Failed to create user` |
| AdminUsers.StoreSession | app/admin/users/page.tsx:132-133 | the token and role cookies hold the given values as the browser parses them, and nothing else changes |
| AdminUsers.StoreSessionReadsBack | app/admin/users/page.tsx:132-133 | both cookies read back through `getCookie` as the browser parsed them, and the store stays well-formed |
| AdminUsers.AutoLoginAsWritten | app/admin/users/page.tsx:128-141 | after a login reply, the token cookie holds the printed `token` field and the role cookie the printed role, each as the browser parses it |
| AdminUsers.AutoLoginCorrected | app/admin/users/page.tsx:128-141 | after a login reply, the token cookie holds the printed `authToken` field and the role cookie the printed role, each as the browser parses it |
| AdminUsers.AutoLoginStoresUndefined | app/admin/users/page.tsx:132 | for a reply shaped as login replies are, the stored token reads back as `undefined`, not the issued token, yet the browser counts as signed in |
| AdminUsers.AutoLoginCorrectedStoresIssuedToken | app/admin/users/page.tsx:132 | corrected, the issued token reads back, and the browser is signed in exactly when it is non-empty |
| AdminUsers.AutoLoginCookiesLiveOneDay | app/admin/users/page.tsx:132-133 | the auto-login cookies live one day where `setCookie`'s live seven |
| AdminUsers.StartEdit | app/admin/users/page.tsx:164-172 | the edit form starts from the chosen user's name, e-mail and role |
| AdminUsers.UpdateRequest | app/admin/users/page.tsx:174-190 | nothing is sent without a chosen user. Otherwise the path names the user's id, and the body has exactly that id, the edited name, e-mail and role, and the business id |
| AdminUsers.UntouchedEditSendsUserBack | app/admin/users/page.tsx:164-190 | saving an untouched form sends the user's own values, and two different users never share a path |
| AdminMembers.FilteredSubscriptions | app/admin/members/page.tsx:413-416 | an empty search keeps every subscription. Otherwise exactly those whose e-mail contains the search, ignoring case |
| AdminMembers.SearchKeepsOrder | app/admin/members/page.tsx:414-416 | the search keeps the list's order across a split |
| AdminMembers.LoadUsers | app/admin/members/page.tsx:490-525 | a page is appended or replaces the list. There is more exactly after a page of 5. A failure keeps the list and records its message or `Failed to load users`. Loading ends cleared |
| AdminMembers.SearchUsers | app/admin/members/page.tsx:527-531 | a search asks for page 0 with the typed e-mail and replaces the list |
| AdminMembers.LoadMore | app/admin/members/page.tsx:533-539 | does nothing without more, while loading or with a search typed. Otherwise it asks for the next page and moves the page number on even when the load fails |
| AdminMembers.LoadMoreCorrected | app/admin/members/page.tsx:533-539 | the same request, but the page number only moves on once its page arrived |
| AdminMembers.FailedPageSkipped | app/admin/members/page.tsx:536-538 | as written, after a failed load-more the next one asks for the page after the failed one |
| AdminMembers.FailedPageRetried | app/admin/members/page.tsx:536-538 | corrected, the next load-more asks for the failed page again, and on success both versions agree |
| AdminMembers.LoadMoreAccumulates | app/admin/members/page.tsx:512-518 | when each click waits for its reply and full pages arrive, load-more accumulates every page in order, one page number per page, and the last page decides whether there is more |
| AdminMembers.ShortPageEndsPaging | app/admin/members/page.tsx:514 | after a short page, load-more does nothing whatever the server would say |
| AdminMembers.UpdateSubscription | app/admin/members/page.tsx:614-638 | nothing without a selection. A subscription of another business is refused with its message. Otherwise the body has exactly the status, object id, e-mail, business id, credit and amount |
| AdminMembers.EditStaysInBusiness | app/admin/members/page.tsx:619-622 | whether a request goes out does not depend on the form, and one that does names the subscription's own business |
| AdminMembers.AmountFor | app/admin/members/page.tsx:766-767 | the amount of the first variation with that id when it has one, else 0 |
| AdminMembers.AmountFromVariation | app/admin/members/page.tsx:835-836 | a non-zero amount comes from a variation with that id, and an unknown id costs 0 |
| AdminMembers.CardFlow | app/admin/members/page.tsx:714-821 | an uninitialised payment system, a failed tokenization or a missing user stop before any request. Otherwise the card is added first, and a failure stops there with its message. The flow ends without error exactly when both calls succeed, and then reloads |
| AdminMembers.CardBeforeSubscription | app/admin/members/page.tsx:757-776 | the subscription is created only second, after the card was added for the same user, with the returned card id and the variation's amount |
| AdminMembers.WithoutCardFlow | app/admin/members/page.tsx:823-882 | nothing is sent without a user. Otherwise exactly one creation request goes out. A failure shows its message, and a success still ends in the reload's error |
| AdminMembers.WithoutCardFlowCorrected | app/admin/members/page.tsx:823-882 | corrected, the flow ends without error exactly when the creation succeeds, and then reloads |
| AdminMembers.CreatedSubscriptionReportedAsError | app/admin/members/page.tsx:878 | as written every run ends in an error, even one that created the subscription. Corrected, those runs end clean, and both send the same requests up to the reload |
| AdminMembers.FlowsChargeAlike | app/admin/members/page.tsx:766-767 | the card flow and the flow without a card charge the same amount for the same variation |

## Left out

- The `window.fetch` 401 interceptor of `app/utils/api.ts:7-31`, the unused `createTimeoutPromise`, and real time.
  - Timers and the AbortController appear only as an "aborted" attempt outcome and as delay values.
  - Toast durations are not modelled.
- Real network I/O.
  - Replies are parameters.
  - The request URL (base URL and query string) is reduced to the endpoint.
  - `encodeURIComponent` in the members page's user query is not modelled.
- The Square SDK's `tokenize`, which appears as the `Tokenized` parameter. `PWAInstall` is out too, apart from its localStorage flag.
- Floating point and dates.
  - The dollar display and locale formatting are out.
  - `Date.now()` appears as a parameter.
  - The members page's edit body leaves out `start_date`, `end_date` and `cancellation_data`, which are date parsing or pass-through values.
- Character counting and case.
  - Lengths count characters rather than UTF-16 code units.
  - `toLowerCase`/`toUpperCase` are modelled on ASCII letters only.
- The cookie attributes `path`, `SameSite`, `secure` and `samesite` are out. The browser keeps one cookie per name, at path `/`.
- Config: only the built-in defaults of `app/config/api.ts` are modelled, not the environment overrides.
- The `api.get`, `api.post`, `api.put`, `api.delete` and `api.patch` wrappers (app/utils/api.ts:194-231) are modelled as `Api.ApiGet` … `Api.ApiPatch` but carry no property of their own. Each one only forces the method before calling `apiRequest`; post, put and patch also set the body to the data. Their behaviour is `Api.ApiRequest`'s, and `Api.RetryIndependentOfMethod` states that the forced method does not change the run.
- AdminProfile.UpdatePayload: a profile whose `id` or `role` is JSON `null` is modelled like one that lacks the field, so the key is left out. The page would send it as `null`.
- Api.RetryBudget: a caller that passes `retryAttempts: undefined` explicitly is modelled as the default budget of 3. The spread would give `undefined || 0`, which is 0.
- AdminAuthService.ApiRequest: `handleAuthError`'s redirect is modelled as ending the call. The fall-through `return result` after it is reported as the success outcome.
- The thunks' network calls are out: `fetchUserProfile`, the login thunk's `/auth/me` role fetch, and the admin services' endpoints.
  - Their fulfilled and rejected actions are modelled as reducer inputs.
  - `AdminAuthService.login` is the client's login payload sent through the admin request function, and has no separate member.
- The members page's create-user-and-subscribe flows are out, apart from the shared sign-up error message. Their success paths end in the same uninitialised `loadSubscriptions` call as the no-card flow.
- AuthSlice.CheckAuthActions: its own contract only fixes the first action. The whole sequence is stated through `AuthSlice.CheckAuthOutcome`.
- AuthenticatedLayout.Effects: each effect is modelled as running on every render. React reruns an effect only when its dependency list changes (lines 24-56). So after a rejected profile fetch, with `isAuthenticated` still true and no user, the model reports another fetch where React dispatches none. The contract describes a render on which the effects run.
- Storage.Apply: only the value goes through the browser's parse. The name is stored as written, where the browser would also trim spaces and tabs around it, and would drop a write whose name is empty. A name holding `=` or `;` would change how the whole write parses. The application writes only the constant names `side-quest` and `side-quest_role`, which the parse leaves alone.
- Storage.Apply: text after a `;` in a value becomes cookie attributes in the browser, so a value such as `x;max-age=0` could change the expiry. The model always takes the expiry the page itself writes.
- AdminMembers.LoadMore: every handler is modelled as running to completion before the next event. The append path of `loadUsers` never sets `isLoadingUsers` (app/admin/members/page.tsx:492-494), so the "Load More Users" button (lines 1688-1692) stays enabled while a page is in flight. A second click then asks for the following page at the same time, the two pages are appended in reply order (line 513), and `userHasMore` is whatever the last reply said. `AdminMembers.LoadMoreAccumulates` covers clicks that each wait for their reply.
- Presentational components, Redux store wiring and persistence, thin service wrappers, and `scripts/setup.js`: none of them decides anything the model states.

## Findings

| source | as written | input that shows it | evidently intended | confidence | as-written member | corrected member |
|---|---|---|---|---|---|---|
| app/admin/users/page.tsx:132 | the auto-login stores `${loginResult.token}` in the token cookie | a login reply `{authToken: "abc", role: "customer"}`: the cookie becomes `undefined`, which `isAuthenticated` accepts as signed in (`AdminUsers.AutoLoginStoresUndefined`) | store `loginResult.authToken`, the field every login reply carries | high; not executed | AdminUsers.AutoLoginAsWritten | AdminUsers.AutoLoginCorrected |
| app/admin/members/page.tsx:533-539 | load-more moves the page number on before its page has loaded | a failed load-more from page 0 asks for page 1; the next asks for page 2, so page 1 is never shown (`AdminMembers.FailedPageSkipped`) | move the page number on only once the page arrived | medium; not executed | AdminMembers.LoadMore | AdminMembers.LoadMoreCorrected |
| app/admin/members/page.tsx:878 | after a successful creation the flow awaits `loadSubscriptions`, which is declared after the component's `return` (line 1920) and so is never initialised | any successful no-card creation: the call throws, and the page shows `Cannot access 'loadSubscriptions' before initialization` as the error (`AdminMembers.CreatedSubscriptionReportedAsError`) | reload the list, as the card flow does with `fetchAllUserSubscriptions` | high; not executed | AdminMembers.WithoutCardFlow | AdminMembers.WithoutCardFlowCorrected |

=== FILE: adminauthservice.dfy ===
/** `AdminAuthService` of `app/services/adminAuthService.ts`: the admin
    side's copy of the session helpers, its header builder and its own
    request function, which reports a 401 to `handleAuthError` instead of
    throwing. */
module AdminAuthService {
  import opened Wrappers
  import opened Values
  import opened Storage
  import opened CookieLemmas
  import opened Roles
  import Api
  import AuthService
  import AuthUtils

  // The local `setCookie`, `getCookie` and `removeCookie` of the file are
  // character-for-character the ones of `app/utils/storage.ts`, so the model
  // uses `Storage.SetCookie`, `Storage.ReadCookie` and `Storage.RemoveCookie`
  // for them.  The cookie names below are written as literals there.

  function SetAuthToken(b: Browser, token: string): (r: Browser)
    ensures r == AuthService.SetAuthToken(b, token)
  {
    var c := SetCookie(b, "side-quest", token, 7);
    if b.hasWindow then c.(local := c.local - {"pwa-install-dismissed"}) else c
  }

  function SetRole(b: Browser, role: string): (r: Browser)
    ensures r == AuthService.SetRole(b, role)
  {
    SetCookie(b, "side-quest_role", role, 7)
  }

  function GetRole(b: Browser): (r: Option<string>)
    ensures r == AuthService.GetRole(b)
  {
    ReadCookie(b, "side-quest_role")
  }

  function GetAuthToken(b: Browser): (r: Option<string>)
    ensures r == AuthService.GetAuthToken(b)
  {
    ReadCookie(b, "side-quest")
  }

  function RemoveRole(b: Browser): (r: Browser)
    ensures r == AuthService.RemoveRole(b)
  {
    RemoveCookie(b, "side-quest_role")
  }

  function RemoveAuthToken(b: Browser): (r: Browser)
    ensures r == AuthService.RemoveAuthToken(b)
  {
    RemoveRole(RemoveCookie(b, "side-quest"))
  }

  /** `isAuthenticated()`, the same test as the client's. */
  function IsAuthenticated(b: Browser): (r: bool)
    ensures r == AuthService.IsAuthenticated(b)
  {
    TruthyStr(GetAuthToken(b))
  }

  /** `hasAdminRole()`: the role cookie is one of the admin roles; for a
      well-formed store, the stored role is. */
  function HasAdminRole(b: Browser): (r: bool)
    ensures !b.hasWindow ==> !r
    ensures WellFormed(b.jar) ==> (r <==> b.hasWindow && IsAdminRole(Lookup(b.jar, USER_ROLE)))
  {
    var role := GetRole(b);
    role == Some("admin") || role == Some("super_admin") || role == Some("owner")
  }

  /** `getAuthHeaders()`, the same builder as the client's. */
  function GetAuthHeaders(b: Browser): (h: Headers)
    ensures h == Api.GetAuthHeaders(b)
  {
    var token := GetAuthToken(b);
    var headers := map["Content-Type" := "application/json"];
    if TruthyStr(token) then headers["Authorization" := "Bearer " + token.value] else headers
  }

  /** `{ ...getAuthHeaders(), ...options.headers }`; no default content type
      is re-applied over the auth headers here. */
  function FinalHeaders(b: Browser, headers: Option<Headers>): (h: Headers)
    ensures headers.Some? ==> forall k :: k in headers.value ==> k in h && h[k] == headers.value[k]
    ensures forall k :: k in GetAuthHeaders(b) && (headers.None? || k !in headers.value) ==>
      k in h && h[k] == GetAuthHeaders(b)[k]
  {
    Spread(GetAuthHeaders(b), headers.GetOr(map[]))
  }

  /** What the single `fetch` of `apiRequest` saw. */
  datatype Reply = Reply(status: int, body: Api.Body) | FetchFailed

  /** What `apiRequest` throws. */
  datatype Thrown =
    | ErrorMessage(message: string)   // `new Error(result.message || ...)`
    | FetchError                      // `fetch` itself rejected
    | SyntaxError                     // `response.json()` failed
    | TypeError                       // `null.message`
    | ReferenceError                  // `window` in `handleAuthError` without a window

  datatype AdminResult = AdminResult(outcome: Result<Api.Body, Thrown>, after: Browser, redirect: Option<string>)

  /** `apiRequest(endpoint, options)` given the reply.  A 401 is handed to
      `handleAuthError(..., true)` and the parsed body is returned. */
  function ApiRequest(b: Browser, reply: Reply): (r: AdminResult)
    ensures reply.FetchFailed? ==> r.outcome == Failure(FetchError)
    ensures reply.Reply? && reply.body.Unparsable? ==> r.outcome == Failure(SyntaxError)
    ensures r.redirect.Some? <==>
      reply.Reply? && reply.status == 401 && !reply.body.Unparsable? && b.hasWindow
    ensures r.redirect.Some? ==> r.redirect == Some("/login") && r.outcome == Success(reply.body)
    ensures r.outcome.Success? <==>
      reply.Reply? && !reply.body.Unparsable? && (Api.IsOk(reply.status) || (reply.status == 401 && b.hasWindow))
    ensures reply.Reply? && !Api.IsOk(reply.status) && reply.status != 401 && reply.body.Json? ==>
      r.outcome == Failure(ErrorMessage(OrElse(reply.body.message, "API request failed")))
    ensures r.redirect.None? ==> r.after == b
  {
    match reply
    case FetchFailed => AdminResult(Failure(FetchError), b, None)
    case Reply(status, body) =>
      if body.Unparsable? then AdminResult(Failure(SyntaxError), b, None)
      else if Api.IsOk(status) then AdminResult(Success(body), b, None)
      else if status == 401 then
        match AuthUtils.HandleAuthError(b, AuthUtils.ErrorInfo(Some(401), None, None, None), true)
        case Handled(after, target) => AdminResult(Success(body), after, Some(target))
        case _ => AdminResult(Failure(ReferenceError), b, None)
      else if body.JsonNull? then AdminResult(Failure(TypeError), b, None)
      else AdminResult(Failure(ErrorMessage(OrElse(body.message, "API request failed"))), b, None)
  }

  // ---------------------------------------------------------------------
  // Properties

  /** `hasAdminRole` is the shared admin-role test on the role cookie. */
  lemma HasAdminRoleIffAdminCookie(b: Browser)
    requires WellFormed(b.jar)
    ensures HasAdminRole(b) <==> b.hasWindow && IsAdminRole(Lookup(b.jar, USER_ROLE))
  {
    if b.hasWindow {
      ReadCookieIsLookup(b, USER_ROLE);
    }
  }

  /** A 401 on the admin side signs the visitor out (the token no longer
      reads back) but, unlike the client's 401 branch, keeps the role. */
  lemma UnauthorizedKeepsRole(b: Browser, body: Api.Body)
    requires b.hasWindow && b.clockMs > EPOCH_MS && WellFormed(b.jar) && !body.Unparsable?
    ensures var r := ApiRequest(b, Reply(401, body));
      !IsAuthenticated(r.after) && GetRole(r.after) == GetRole(b)
  {
    var r := ApiRequest(b, Reply(401, body));
    AuthUtils.HandledIffUnauthorized(b, AuthUtils.ErrorInfo(Some(401), None, None, None), true);
    AuthUtils.RoleSurvivesAuthError(b, AuthUtils.ErrorInfo(Some(401), None, None, None), true);
  }
}

=== FILE: admincommon.dfy ===
/** The guard the admin profile, dashboard and redeem pages run on mount
    (`app/admin/dashboard/page.tsx` and its two siblings spell it out
    identically). */
module AdminGuard {
  import opened Wrappers
  import opened Values
  import opened Roles
  import opened Storage
  import opened Text
  import AdminAuthService
  import AuthService
  import Middleware

  datatype GuardResult = Proceed | SendToLogin(after: Browser)

  /** No token: off to `/login`. A token with a role that is not an admin
      role: the session is dropped, then off to `/login`. */
  function Guard(b: Browser): (r: GuardResult)
    ensures !AdminAuthService.IsAuthenticated(b) ==> r == SendToLogin(b)
    ensures AdminAuthService.IsAuthenticated(b) && !AdminAuthService.HasAdminRole(b) ==>
      r == SendToLogin(AdminAuthService.RemoveAuthToken(b))
    ensures r.Proceed? <==> AdminAuthService.IsAuthenticated(b) && AdminAuthService.HasAdminRole(b)
  {
    if !AdminAuthService.IsAuthenticated(b) then SendToLogin(b)
    else if !AdminAuthService.HasAdminRole(b) then SendToLogin(AdminAuthService.RemoveAuthToken(b))
    else Proceed
  }

  /** The page guard and the middleware agree on every admin path: both let
      the visitor through exactly when the cookies hold a token and an
      admin role. */
  lemma GuardAgreesWithMiddleware(b: Browser, pathname: string)
    requires StartsWith(pathname, "/admin")
    ensures Guard(b).Proceed? <==>
      Middleware.Middleware(pathname, AuthService.GetAuthToken(b), AuthService.GetRole(b)) == Middleware.Next
  {
    if Middleware.IsAuthPage(pathname) {
      NotPrefixAt(pathname, "/admin", 1);
    }
  }

  /** A visitor turned away for the role is signed out, role and all. */
  lemma RejectedRoleSignsOut(b: Browser)
    requires b.hasWindow && b.clockMs > EPOCH_MS && WellFormed(b.jar)
    requires AdminAuthService.IsAuthenticated(b) && !AdminAuthService.HasAdminRole(b)
    ensures Guard(b).SendToLogin?
    ensures !AdminAuthService.IsAuthenticated(Guard(b).after)
    ensures AdminAuthService.GetRole(Guard(b).after) == None
  {
    AuthService.LogoutSignsOut(b);
  }
}

/** Rules two admin pages share: the case-insensitive e-mail search of the
    members and users pages, and the message a failed sign-up shows. */
module AdminCommon {
  import opened Wrappers
  import opened Text
  import opened Lists

  /** `email.toLowerCase().includes(search.toLowerCase())`. */
  predicate MatchesSearch(email: string, search: string) {
    Contains(ToLower(email), ToLower(search))
  }

  /** `search ? xs.filter(x => matches) : xs`. */
  function FilterByEmail<T>(xs: seq<T>, emailOf: T -> string, search: string): (r: seq<T>)
    ensures search == "" ==> r == xs
    ensures forall j :: 0 <= j < |r| ==> r[j] in xs && MatchesSearch(emailOf(r[j]), search)
    ensures forall j :: 0 <= j < |xs| && MatchesSearch(emailOf(xs[j]), search) ==> xs[j] in r
  {
    if search != "" then Filter(xs, (x: T) => MatchesSearch(emailOf(x), search))
    else
      assert forall j :: 0 <= j < |xs| ==> MatchesSearch(emailOf(xs[j]), "") by {
        forall j | 0 <= j < |xs| ensures MatchesSearch(emailOf(xs[j]), "") {
          EmptySearchMatches(emailOf(xs[j]));
        }
      }
      xs
  }

  lemma EmptySearchMatches(email: string)
    ensures MatchesSearch(email, "")
  {
    assert OccursAt(ToLower(email), "", 0);
  }

  lemma LowerCharIdempotent(c: char)
    ensures LowerChar(LowerChar(c)) == LowerChar(c)
  {
  }

  lemma ToLowerIdempotent(s: string)
    ensures ToLower(ToLower(s)) == ToLower(s)
  {
    forall i | 0 <= i < |s| ensures ToLower(ToLower(s))[i] == ToLower(s)[i] {
      LowerCharIdempotent(s[i]);
    }
  }

  /** The search ignores ASCII case on both sides. */
  lemma SearchIgnoresCase(email: string, search: string)
    ensures MatchesSearch(email, search) <==> MatchesSearch(ToLower(email), ToLower(search))
  {
    ToLowerIdempotent(email);
    ToLowerIdempotent(search);
  }

  /** The empty search would match everything anyway, so the short cut for
      it does not change the result. */
  lemma EmptySearchMatchesAll<T>(xs: seq<T>, emailOf: T -> string)
    ensures FilterByEmail(xs, emailOf, "") == Filter(xs, (x: T) => MatchesSearch(emailOf(x), ""))
  {
    forall j | 0 <= j < |xs| ensures MatchesSearch(emailOf(xs[j]), "") {
      EmptySearchMatches(emailOf(xs[j]));
    }
    FilterAll(xs, (x: T) => MatchesSearch(emailOf(x), ""));
  }

  /** The search keeps the list's order: searching a list made of two
      parts gives the matches of the first part, then those of the second. */
  lemma SearchKeepsOrder<T>(a: seq<T>, b: seq<T>, emailOf: T -> string, search: string)
    ensures FilterByEmail(a + b, emailOf, search) == FilterByEmail(a, emailOf, search) + FilterByEmail(b, emailOf, search)
  {
    if search != "" {
      FilterAppend(a, b, (x: T) => MatchesSearch(emailOf(x), search));
    }
  }

  const ACCESS_DENIED := "ERROR_CODE_ACCESS_DENIED"
  const ALREADY_REGISTERED := "This email is already registered. Please use a different email address."
  const CREATE_USER_FAILED := "Failed to create user"

  /** The error a failed sign-up raises, from the body's `code` and
      `message`. */
  function SignupErrorMessage(code: Option<string>, message: Option<string>): (r: string)
    ensures code == Some(ACCESS_DENIED) ==> r == ALREADY_REGISTERED
    ensures code != Some(ACCESS_DENIED) && message.Some? && message.value != "" ==> r == message.value
    ensures code != Some(ACCESS_DENIED) && (message.None? || message.value == "") ==> r == CREATE_USER_FAILED
  {
    if code == Some(ACCESS_DENIED) then ALREADY_REGISTERED
    else if message.Some? && message.value != "" then message.value
    else CREATE_USER_FAILED
  }

  /** The access-denied code wins over any message the body carries. */
  lemma AccessDeniedWins(m1: Option<string>, m2: Option<string>)
    ensures SignupErrorMessage(Some(ACCESS_DENIED), m1) == SignupErrorMessage(Some(ACCESS_DENIED), m2)
    ensures SignupErrorMessage(None, Some(ALREADY_REGISTERED)) == SignupErrorMessage(Some(ACCESS_DENIED), m1)
  {
  }
}

=== FILE: admindashboard.dfy ===
/** `app/admin/dashboard/page.tsx`: the subscription statistics and what
    the page shows. */
module AdminDashboard {
  import opened Wrappers
  import opened Lists
  import AdminSlice

  /** `subscription_amount || 0`. */
  function AmountOrZero(x: AdminSlice.Subscription): int {
    if x.subscriptionAmount.Some? then x.subscriptionAmount.value else 0
  }

  datatype Stats = Stats(totalUsers: nat, totalAmount: int)

  /** The `reduce` over the cached subscriptions, one step at a time. */
  method TotalAmount(subs: seq<AdminSlice.Subscription>) returns (total: int)
    ensures total == Sum(subs, AmountOrZero)
  {
    total := 0;
    var i := 0;
    while i < |subs|
      invariant 0 <= i <= |subs|
      invariant total == Sum(subs[..i], AmountOrZero)
    {
      assert subs[..i + 1][..i] == subs[..i];
      total := total + AmountOrZero(subs[i]);
      i := i + 1;
    }
    assert subs[..|subs|] == subs;
  }

  /** `subscriptionStats`. */
  method SubscriptionStats(subs: seq<AdminSlice.Subscription>) returns (stats: Stats)
    ensures stats.totalUsers == |subs|
    ensures stats.totalAmount == Sum(subs, AmountOrZero)
  {
    var total := TotalAmount(subs);
    stats := Stats(|subs|, total);
  }

  datatype View = CardLoader | ErrorView(error: string) | Content

  /** The page's own loading flag, then the store's, then its error. */
  function Render(loading: bool, admin: AdminSlice.State): (v: View)
    ensures v == CardLoader <==> loading || admin.loading
    ensures v.ErrorView? <==> !loading && !admin.loading && admin.error.Some? && admin.error.value != ""
    ensures v.ErrorView? ==> v.error == admin.error.value
  {
    if loading || admin.loading then CardLoader
    else if admin.error.Some? && admin.error.value != "" then ErrorView(admin.error.value)
    else Content
  }

  // ---------------------------------------------------------------------
  // Properties

  /** The total of a list made of two parts is the sum of their totals; a
      newly cached subscription adds its amount, or nothing if it has none. */
  lemma TotalOfConcatenation(a: seq<AdminSlice.Subscription>, b: seq<AdminSlice.Subscription>, x: AdminSlice.Subscription)
    ensures Sum(a + b, AmountOrZero) == Sum(a, AmountOrZero) + Sum(b, AmountOrZero)
    ensures x.subscriptionAmount.None? ==> Sum(a + [x], AmountOrZero) == Sum(a, AmountOrZero)
  {
    SumAppend(a, b, AmountOrZero);
    SumAppend(a, [x], AmountOrZero);
  }

  /** With no negative amounts the total is never negative. */
  lemma TotalNonNegative(subs: seq<AdminSlice.Subscription>)
    requires forall j :: 0 <= j < |subs| ==> subs[j].subscriptionAmount.None? || subs[j].subscriptionAmount.value >= 0
    ensures Sum(subs, AmountOrZero) >= 0
  {
    SumNonNegative(subs, AmountOrZero);
  }

  /** Fetching the subscriptions replaces the list, so the statistics are
      those of the fetched list and the old cache no longer counts. */
  lemma StatsFollowFetch(s: AdminSlice.State, subs: seq<AdminSlice.Subscription>)
    ensures var r := AdminSlice.Reduce(s, AdminSlice.Fulfilled(AdminSlice.Subscriptions(subs)));
      |r.userSubscriptions| == |subs| && Sum(r.userSubscriptions, AmountOrZero) == Sum(subs, AmountOrZero)
    ensures Render(false, AdminSlice.Reduce(s, AdminSlice.Pending(AdminSlice.FetchAllUserSubscriptions))) == CardLoader
  {
  }
}

=== FILE: adminlayout.dfy ===
/** The access check of `app/admin/layout.tsx`.  Its effect runs after the
    first render and again whenever the pathname changes; it reads the
    session through `AdminAuthService`. */
module AdminLayout {
  import opened Wrappers

  datatype State = State(isLoading: bool, isAuthenticated: bool)

  const INITIAL := State(true, false)

  /** What the effect saw: the pathname and the two cookie checks. */
  datatype Check = Check(pathname: string, hasToken: bool, hasRole: bool)

  datatype View = Loader | LoginChildren | AdminChildren | Nothing

  /** One run of the effect: the new state and the `router.push` it made. */
  function Effect(s: State, c: Check): (r: (State, Option<string>))
    ensures !r.0.isLoading
    ensures r.0.isAuthenticated <==> s.isAuthenticated || (c.hasToken && c.hasRole)
    ensures r.1.Some? <==> !(c.hasToken && c.hasRole) && c.pathname != "/login"
    ensures r.1.Some? ==> r.1.value == "/login"
  {
    if c.hasToken && c.hasRole then (State(false, true), None)
    else (s.(isLoading := false), if c.pathname != "/login" then Some("/login") else None)
  }

  /** The render branches. */
  function Render(s: State, pathname: string): (v: View)
    ensures v == Loader <==> s.isLoading
    ensures v == LoginChildren <==> !s.isLoading && pathname == "/login"
    ensures v == AdminChildren <==> !s.isLoading && pathname != "/login" && s.isAuthenticated
    ensures v == Nothing <==> !s.isLoading && pathname != "/login" && !s.isAuthenticated
  {
    if s.isLoading then Loader
    else if pathname == "/login" then LoginChildren
    else if s.isAuthenticated then AdminChildren
    else Nothing
  }

  /** The state after the effect has run on each of `checks` in turn. */
  function RunEffects(s: State, checks: seq<Check>): State
    decreases |checks|
  {
    if |checks| == 0 then s else RunEffects(Effect(s, checks[0]).0, checks[1..])
  }

  /** Authorization is sticky: after a mount and any later pathname
      changes, the layout counts as authorized exactly when some run of the
      effect saw a token and an admin role, even if the cookies are gone by
      now. */
  lemma {:induction false} AuthorizedIffSomeCheckPassed(s: State, checks: seq<Check>)
    requires |checks| > 0 || !s.isLoading
    ensures !RunEffects(s, checks).isLoading
    ensures RunEffects(s, checks).isAuthenticated <==>
      s.isAuthenticated || exists i :: 0 <= i < |checks| && checks[i].hasToken && checks[i].hasRole
    decreases |checks|
  {
    if |checks| > 0 {
      var t := Effect(s, checks[0]).0;
      AuthorizedIffSomeCheckPassed(t, checks[1..]);
      if RunEffects(s, checks).isAuthenticated && !s.isAuthenticated && !(checks[0].hasToken && checks[0].hasRole) {
        var i :| 0 <= i < |checks[1..]| && checks[1..][i].hasToken && checks[1..][i].hasRole;
        assert checks[i + 1] == checks[1..][i];
      }
      if !s.isAuthenticated && !(checks[0].hasToken && checks[0].hasRole) {
        forall i | 1 <= i < |checks| && checks[i].hasToken && checks[i].hasRole
          ensures exists j :: 0 <= j < |checks[1..]| && checks[1..][j].hasToken && checks[1..][j].hasRole
        {
          assert checks[1..][i - 1] == checks[i];
        }
      }
    }
  }

  /** Admin content is shown after the first check exactly when the visitor
      has a token and an admin role, and never on `/login` itself. */
  lemma FirstRenderAfterMount(c: Check)
    ensures var s := Effect(INITIAL, c).0;
      Render(s, c.pathname) == AdminChildren <==> c.hasToken && c.hasRole && c.pathname != "/login"
    ensures Render(INITIAL, c.pathname) == Loader
  {
  }
}

=== FILE: adminmembers.dfy ===
/** `app/admin/members/page.tsx`: the subscription search, the paged user
    picker, the subscription edit and the two ways of subscribing a user. */
module AdminMembers {
  import opened Wrappers
  import opened Values
  import opened Lists
  import AdminCommon
  import AdminSlice
  import Config

  // ---------------------------------------------------------------------
  // Subscription search

  function EmailOf(x: AdminSlice.Subscription): string {
    x.email
  }

  /** `filteredSubscriptions`. */
  function FilteredSubscriptions(subs: seq<AdminSlice.Subscription>, search: string): (r: seq<AdminSlice.Subscription>)
    ensures search == "" ==> r == subs
    ensures forall j :: 0 <= j < |r| ==> r[j] in subs && AdminCommon.MatchesSearch(r[j].email, search)
    ensures forall j :: 0 <= j < |subs| && AdminCommon.MatchesSearch(subs[j].email, search) ==> subs[j] in r
  {
    AdminCommon.FilterByEmail(subs, EmailOf, search)
  }

  /** The search keeps the list's order: searching a list made of two
      parts gives the matches of the first part, then those of the second. */
  lemma SearchKeepsOrder(a: seq<AdminSlice.Subscription>, b: seq<AdminSlice.Subscription>, search: string)
    ensures FilteredSubscriptions(a + b, search) == FilteredSubscriptions(a, search) + FilteredSubscriptions(b, search)
  {
    AdminCommon.SearchKeepsOrder(a, b, EmailOf, search);
  }

  // ---------------------------------------------------------------------
  // The paged user picker

  /** Users come five to a page; a full page means there may be more. */
  const PAGE_SIZE := 5

  const LOAD_USERS_FAILED := "Failed to load users"

  datatype Paging = Paging(
    users: seq<AdminSlice.AdminUser>,
    page: nat,
    hasMore: bool,
    loadingUsers: bool,
    error: Option<string>)

  /** A request for one page, by number and e-mail filter. */
  datatype UsersQuery = UsersQuery(page: nat, email: string)

  /** `loadUsers` once its reply is in: a page is appended or replaces the
      list; a failure records its message and keeps the list. Either way
      the loading flag ends cleared. */
  function LoadUsers(st: Paging, append: bool, reply: Result<seq<AdminSlice.AdminUser>, string>): (r: Paging)
    ensures !r.loadingUsers && r.page == st.page
    ensures reply.Success? && append ==> r.users == st.users + reply.value
    ensures reply.Success? && !append ==> r.users == reply.value
    ensures reply.Success? ==> (r.hasMore <==> |reply.value| == PAGE_SIZE) && r.error == st.error
    ensures reply.Failure? ==> r.users == st.users && r.hasMore == st.hasMore
    ensures reply.Failure? ==> r.error == Some(if reply.error != "" then reply.error else LOAD_USERS_FAILED)
  {
    match reply
    case Success(data) =>
      st.(users := if append then st.users + data else data, hasMore := |data| == PAGE_SIZE, loadingUsers := false)
    case Failure(message) =>
      st.(error := Some(if message != "" then message else LOAD_USERS_FAILED), loadingUsers := false)
  }

  /** `handleUserSearch` and `handleUserClearSearch`: back to page 0 with
      the list replaced. */
  function SearchUsers(st: Paging, search: string, reply: Result<seq<AdminSlice.AdminUser>, string>): (r: (Paging, UsersQuery))
    ensures r.1 == UsersQuery(0, search)
    ensures r.0.page == 0
    ensures reply.Success? ==> r.0.users == reply.value && (r.0.hasMore <==> |reply.value| == PAGE_SIZE)
    ensures reply.Failure? ==> r.0.hasMore
  {
    (LoadUsers(st.(page := 0, hasMore := true), false, reply), UsersQuery(0, search))
  }

  /** `handleUserLoadMore` as written: nothing happens when there is no
      more, while a replacing load is running, or while a search is typed;
      otherwise the page number moves on first and the next page is
      appended. */
  function LoadMore(st: Paging, searchEmail: string, reply: Result<seq<AdminSlice.AdminUser>, string>): (r: (Paging, Option<UsersQuery>))
    ensures r.1.None? <==> !st.hasMore || st.loadingUsers || searchEmail != ""
    ensures r.1.None? ==> r.0 == st
    ensures r.1.Some? ==> r.1.value == UsersQuery(st.page + 1, "") && r.0.page == st.page + 1
    ensures r.1.Some? && reply.Success? ==> r.0.users == st.users + reply.value
    ensures r.1.Some? && reply.Success? ==> (r.0.hasMore <==> |reply.value| == PAGE_SIZE)
    ensures r.1.Some? && reply.Failure? ==> r.0.users == st.users && r.0.hasMore
    ensures r.1.Some? ==> !r.0.loadingUsers
  {
    if !st.hasMore || st.loadingUsers || searchEmail != "" then (st, None)
    else
      var next := st.page + 1;
      (LoadUsers(st.(page := next), true, reply), Some(UsersQuery(next, "")))
  }

  /** `handleUserLoadMore` as evidently intended: the page number only
      moves on once its page has arrived. */
  function LoadMoreCorrected(st: Paging, searchEmail: string, reply: Result<seq<AdminSlice.AdminUser>, string>): (r: (Paging, Option<UsersQuery>))
    ensures r.1.None? <==> !st.hasMore || st.loadingUsers || searchEmail != ""
    ensures r.1.None? ==> r.0 == st
    ensures r.1.Some? ==> r.1.value == UsersQuery(st.page + 1, "")
    ensures r.1.Some? ==> r.0.page == if reply.Success? then st.page + 1 else st.page
    ensures r.1.Some? && reply.Success? ==> r.0.users == st.users + reply.value
    ensures r.1.Some? && reply.Success? ==> (r.0.hasMore <==> |reply.value| == PAGE_SIZE)
    ensures r.1.Some? && reply.Failure? ==> r.0.users == st.users && r.0.hasMore
    ensures r.1.Some? ==> !r.0.loadingUsers
  {
    if !st.hasMore || st.loadingUsers || searchEmail != "" then (st, None)
    else
      var loaded := LoadUsers(st, true, reply);
      (if reply.Success? then loaded.(page := st.page + 1) else loaded, Some(UsersQuery(st.page + 1, "")))
  }

  /** The discrepancy: a page whose load fails is never asked for again,
      because the next load-more asks for the page after it. */
  lemma FailedPageSkipped(st: Paging, message: string, next: Result<seq<AdminSlice.AdminUser>, string>)
    requires st.hasMore && !st.loadingUsers
    ensures var (after, q1) := LoadMore(st, "", Failure(message));
      && q1 == Some(UsersQuery(st.page + 1, ""))
      && LoadMore(after, "", next).1 == Some(UsersQuery(st.page + 2, ""))
  {
  }

  /** Corrected, the next load-more asks for the failed page again, and on
      success both versions agree. */
  lemma FailedPageRetried(st: Paging, message: string, next: Result<seq<AdminSlice.AdminUser>, string>, data: seq<AdminSlice.AdminUser>)
    requires st.hasMore && !st.loadingUsers
    ensures var (after, q1) := LoadMoreCorrected(st, "", Failure(message));
      && q1 == Some(UsersQuery(st.page + 1, ""))
      && LoadMoreCorrected(after, "", next).1 == q1
    ensures LoadMoreCorrected(st, "", Success(data)) == LoadMore(st, "", Success(data))
  {
  }

  /** Every page of the list, in order. */
  function Concat(pages: seq<seq<AdminSlice.AdminUser>>): seq<AdminSlice.AdminUser>
    decreases |pages|
  {
    if |pages| == 0 then [] else pages[0] + Concat(pages[1..])
  }

  /** Pressing load-more once per reply, with no search typed (the
      corrected load-more, which agrees with the page's on every reply that
      arrives). */
  function LoadMoreAll(st: Paging, replies: seq<seq<AdminSlice.AdminUser>>): Paging
    decreases |replies|
  {
    if |replies| == 0 then st else LoadMoreAll(LoadMoreCorrected(st, "", Success(replies[0])).0, replies[1..])
  }

  /** Clicked once per reply, each click waiting for its page, and while
      full pages keep arriving, load-more accumulates every page in
      order and the page number counts them; the last page decides whether
      there is more. */
  lemma {:induction false} LoadMoreAccumulates(st: Paging, replies: seq<seq<AdminSlice.AdminUser>>)
    requires st.hasMore && !st.loadingUsers
    requires forall i :: 0 <= i < |replies| - 1 ==> |replies[i]| == PAGE_SIZE
    ensures LoadMoreAll(st, replies).users == st.users + Concat(replies)
    ensures LoadMoreAll(st, replies).page == st.page + |replies|
    ensures |replies| > 0 ==> (LoadMoreAll(st, replies).hasMore <==> |replies[|replies| - 1]| == PAGE_SIZE)
    decreases |replies|
  {
    if |replies| > 0 {
      var next := LoadMoreCorrected(st, "", Success(replies[0])).0;
      if |replies| > 1 {
        assert |replies[0]| == PAGE_SIZE;
        assert forall i :: 0 <= i < |replies[1..]| - 1 ==> |replies[1..][i]| == PAGE_SIZE by {
          forall i | 0 <= i < |replies[1..]| - 1 ensures |replies[1..][i]| == PAGE_SIZE {
            assert replies[1..][i] == replies[i + 1];
          }
        }
        LoadMoreAccumulates(next, replies[1..]);
        assert replies[1..][|replies[1..]| - 1] == replies[|replies| - 1];
      } else {
        assert replies[1..] == [];
        assert LoadMoreAll(next, replies[1..]) == next;
      }
      assert st.users + Concat(replies) == (st.users + replies[0]) + Concat(replies[1..]);
    }
  }

  /** After a short page, load-more does nothing whatever the server
      would say. */
  lemma ShortPageEndsPaging(st: Paging, data: seq<AdminSlice.AdminUser>, later: Result<seq<AdminSlice.AdminUser>, string>)
    requires st.hasMore && !st.loadingUsers && |data| < PAGE_SIZE
    ensures var after := LoadMore(st, "", Success(data)).0;
      LoadMore(after, "", later) == (after, None)
  {
  }

  // ---------------------------------------------------------------------
  // Editing a subscription

  /** `UserSubscription`, with the fields the edit sends back. */
  datatype MemberSubscription = MemberSubscription(
    objectId: string,
    email: string,
    businessId: string,
    subscriptionAmount: int)

  datatype EditForm = EditForm(status: string, availableCredit: int)

  const OTHER_BUSINESS := "You can only edit subscriptions from your own business."

  datatype EditOutcome = NothingSelected | Refused(message: string) | Send(body: Object)

  /** `handleUpdateSubscription` up to the request: a subscription of
      another business is refused before anything is sent. */
  function UpdateSubscription(selected: Option<MemberSubscription>, f: EditForm): (r: EditOutcome)
    ensures r.NothingSelected? <==> selected.None?
    ensures r.Refused? <==> selected.Some? && selected.value.businessId != Config.BUSINESS_ID
    ensures r.Refused? ==> r.message == OTHER_BUSINESS
    ensures r.Send? ==> r.body.Keys == {"status", "object_id", "email", "business_id", "available_credit", "subscription_amount"}
    ensures r.Send? ==> r.body["status"] == VStr(f.status) && r.body["available_credit"] == VInt(f.availableCredit)
    ensures r.Send? ==> r.body["object_id"] == VStr(selected.value.objectId) && r.body["email"] == VStr(selected.value.email)
    ensures r.Send? ==> r.body["subscription_amount"] == VInt(selected.value.subscriptionAmount)
    ensures r.Send? ==> r.body["business_id"] == VStr(Config.BUSINESS_ID)
  {
    match selected
    case None => NothingSelected
    case Some(s) =>
      if s.businessId != Config.BUSINESS_ID then Refused(OTHER_BUSINESS)
      else Send(map["status" := VStr(f.status), "object_id" := VStr(s.objectId), "email" := VStr(s.email),
                    "business_id" := VStr(Config.BUSINESS_ID), "available_credit" := VInt(f.availableCredit),
                    "subscription_amount" := VInt(s.subscriptionAmount)])
  }

  /** Whatever the form holds, a request goes out exactly for this
      business's subscriptions, and its business id is the subscription's
      own. */
  lemma EditStaysInBusiness(selected: Option<MemberSubscription>, f: EditForm, g: EditForm)
    ensures UpdateSubscription(selected, f).Send? <==> UpdateSubscription(selected, g).Send?
    ensures UpdateSubscription(selected, f).Send? ==>
      UpdateSubscription(selected, f).body["business_id"] == VStr(selected.value.businessId)
  {
  }

  // ---------------------------------------------------------------------
  // Subscribing a user

  /** A plan variation as the page reads it; `amount` is `None` when the
      variation has none. */
  datatype Variation = Variation(objectId: string, amount: Option<int>)

  function HasObjectId(planVariationId: string): Variation -> bool {
    (v: Variation) => v.objectId == planVariationId
  }

  /** `selectedVariation && selectedVariation.amount ? amount : 0` on the
      first variation with that object id. */
  function AmountFor(variations: seq<Variation>, planVariationId: string): (amount: int)
    ensures var i := FindIndex(variations, HasObjectId(planVariationId));
      amount == if i.Some? && variations[i.value].amount.Some? then variations[i.value].amount.value else 0
  {
    var i := FindIndex(variations, HasObjectId(planVariationId));
    if i.Some? && variations[i.value].amount.Some? && variations[i.value].amount.value != 0 then
      variations[i.value].amount.value
    else 0
  }

  /** A non-zero amount is the amount of a variation with that object id,
      and an id no variation has costs nothing. */
  lemma AmountFromVariation(variations: seq<Variation>, planVariationId: string)
    ensures AmountFor(variations, planVariationId) != 0 ==>
      exists j :: 0 <= j < |variations| && variations[j].objectId == planVariationId
        && variations[j].amount == Some(AmountFor(variations, planVariationId))
    ensures (forall j :: 0 <= j < |variations| ==> variations[j].objectId != planVariationId) ==>
      AmountFor(variations, planVariationId) == 0
  {
    var i := FindIndex(variations, HasObjectId(planVariationId));
    if i.Some? {
      assert HasObjectId(planVariationId)(variations[i.value]);
    }
  }

  /** What the card widget's `tokenize` gave. */
  datatype Tokenized = TokenOk(token: string) | TokenNotOk

  /** The requests the flows send, in order. */
  datatype Call =
    | AddCard(sourceId: string, userId: int)
    | CreateSubscription(planVariationId: string, cardId: Option<string>, userId: int, amount: int)
    | CreateWithoutCard(planVariationId: string, userId: int, amount: int)
    | ReloadSubscriptions

  datatype Flow = Flow(calls: seq<Call>, error: Option<string>)

  const NOT_INITIALIZED := "Payment system not initialized"
  const TOKENIZE_FAILED := "Card tokenization failed"
  const ADD_CARD_FAILED := "Failed to add card"
  const CREATE_FAILED := "Failed to create subscription"
  const SELECT_USER_FIRST := "Please select a user first"
  /** What reading `selectedUser.id` of `null` throws. */
  const NULL_USER_READ := "Cannot read properties of null (reading 'id')"

  /** The card flow: tokenize, add the card, then create the subscription
      with the returned `card_id`. `addCard` carries the returned card id
      or the error body's message; `create` likewise. */
  function CardFlow(ready: bool, user: Option<int>, planVariationId: string, variations: seq<Variation>,
                    tokenized: Tokenized, addCard: Result<Option<string>, Option<string>>,
                    create: Result<(), Option<string>>): (r: Flow)
    ensures !ready ==> r == Flow([], Some(NOT_INITIALIZED))
    ensures ready && tokenized.TokenNotOk? ==> r == Flow([], Some(TOKENIZE_FAILED))
    ensures ready && tokenized.TokenOk? && user.None? ==> r == Flow([], Some(NULL_USER_READ))
    ensures ready && tokenized.TokenOk? && user.Some? ==> |r.calls| >= 1 && r.calls[0] == AddCard(tokenized.token, user.value)
    ensures ready && tokenized.TokenOk? && user.Some? && addCard.Failure? ==>
      r == Flow([AddCard(tokenized.token, user.value)], Some(OrElse(addCard.error, ADD_CARD_FAILED)))
    ensures r.error.None? <==> ready && tokenized.TokenOk? && user.Some? && addCard.Success? && create.Success?
    ensures r.error.None? ==> r.calls[|r.calls| - 1] == ReloadSubscriptions
  {
    if !ready then Flow([], Some(NOT_INITIALIZED))
    else match tokenized
      case TokenNotOk => Flow([], Some(TOKENIZE_FAILED))
      case TokenOk(token) =>
        match user
        case None => Flow([], Some(NULL_USER_READ))
        case Some(uid) =>
          var add := AddCard(token, uid);
          match addCard
          case Failure(message) => Flow([add], Some(OrElse(message, ADD_CARD_FAILED)))
          case Success(cardId) =>
            var created := CreateSubscription(planVariationId, cardId, uid, AmountFor(variations, planVariationId));
            match create
            case Failure(message) => Flow([add, created], Some(OrElse(message, CREATE_FAILED)))
            case Success(_) => Flow([add, created, ReloadSubscriptions], None)
  }

  /** The subscription is only created after the card was added, for the
      same user, with the card id that call returned and the variation's
      amount. */
  lemma CardBeforeSubscription(ready: bool, user: Option<int>, planVariationId: string, variations: seq<Variation>,
                               tokenized: Tokenized, addCard: Result<Option<string>, Option<string>>,
                               create: Result<(), Option<string>>, k: nat)
    requires k < |CardFlow(ready, user, planVariationId, variations, tokenized, addCard, create).calls|
    requires CardFlow(ready, user, planVariationId, variations, tokenized, addCard, create).calls[k].CreateSubscription?
    ensures var calls := CardFlow(ready, user, planVariationId, variations, tokenized, addCard, create).calls;
      && k == 1 && addCard.Success? && user.Some? && tokenized.TokenOk?
      && calls[0] == AddCard(tokenized.token, user.value)
      && calls[1] == CreateSubscription(planVariationId, addCard.value, user.value, AmountFor(variations, planVariationId))
  {
  }

  /** What awaiting `loadSubscriptions` throws: the helper is declared after
      the component's `return`, so its binding is never initialised. */
  const RELOAD_UNINITIALISED := "Cannot access 'loadSubscriptions' before initialization"

  /** The flow without a card as written: nothing is sent until a user is
      chosen, and after a successful creation the reload throws, so the
      flow still ends in an error. */
  function WithoutCardFlow(user: Option<int>, planVariationId: string, variations: seq<Variation>,
                           create: Result<(), Option<string>>): (r: Flow)
    ensures user.None? <==> r == Flow([], Some(SELECT_USER_FIRST))
    ensures user.Some? ==> r.calls == [CreateWithoutCard(planVariationId, user.value, AmountFor(variations, planVariationId))]
    ensures user.Some? && create.Failure? ==> r.error == Some(OrElse(create.error, CREATE_FAILED))
    ensures user.Some? && create.Success? ==> r.error == Some(RELOAD_UNINITIALISED)
  {
    match user
    case None => Flow([], Some(SELECT_USER_FIRST))
    case Some(uid) =>
      var created := CreateWithoutCard(planVariationId, uid, AmountFor(variations, planVariationId));
      match create
      case Failure(message) => Flow([created], Some(OrElse(message, CREATE_FAILED)))
      case Success(_) => Flow([created], Some(RELOAD_UNINITIALISED))
  }

  /** The flow without a card as evidently intended: after a successful
      creation the list is reloaded, as the card flow does. */
  function WithoutCardFlowCorrected(user: Option<int>, planVariationId: string, variations: seq<Variation>,
                                    create: Result<(), Option<string>>): (r: Flow)
    ensures user.None? <==> r == Flow([], Some(SELECT_USER_FIRST))
    ensures user.Some? ==> |r.calls| >= 1 && r.calls[0] == CreateWithoutCard(planVariationId, user.value, AmountFor(variations, planVariationId))
    ensures user.Some? && create.Failure? ==> r.calls == r.calls[..1] && r.error == Some(OrElse(create.error, CREATE_FAILED))
    ensures r.error.None? <==> user.Some? && create.Success?
    ensures r.error.None? ==> r.calls == r.calls[..1] + [ReloadSubscriptions]
  {
    match user
    case None => Flow([], Some(SELECT_USER_FIRST))
    case Some(uid) =>
      var created := CreateWithoutCard(planVariationId, uid, AmountFor(variations, planVariationId));
      match create
      case Failure(message) => Flow([created], Some(OrElse(message, CREATE_FAILED)))
      case Success(_) => Flow([created, ReloadSubscriptions], None)
  }

  /** The discrepancy: as written, no run of the flow ends without an error,
      even when the subscription was created; corrected, exactly the runs
      that created it do, and both send the same creation request. */
  lemma CreatedSubscriptionReportedAsError(user: Option<int>, planVariationId: string, variations: seq<Variation>,
                                           create: Result<(), Option<string>>)
    ensures WithoutCardFlow(user, planVariationId, variations, create).error.Some?
    ensures user.Some? && create.Success? ==>
      WithoutCardFlowCorrected(user, planVariationId, variations, create).error.None?
    ensures WithoutCardFlow(user, planVariationId, variations, create).calls
         == WithoutCardFlowCorrected(user, planVariationId, variations, create).calls[..|WithoutCardFlow(user, planVariationId, variations, create).calls|]
  {
  }

  /** Both flows charge the same amount for the same variation. */
  lemma FlowsChargeAlike(uid: int, planVariationId: string, variations: seq<Variation>, token: string, cardId: Option<string>,
                         create: Result<(), Option<string>>)
    ensures CardFlow(true, Some(uid), planVariationId, variations, TokenOk(token), Success(cardId), create).calls[1].amount
         == WithoutCardFlowCorrected(Some(uid), planVariationId, variations, create).calls[0].amount
  {
  }
}

=== FILE: adminprofile.dfy ===
/** `app/admin/profile/page.tsx`: the edit form of the signed-in admin, the
    update request it sends and the form state afterwards. */
module AdminProfile {
  import opened Wrappers
  import opened Values
  import Config

  /** What `/auth/me` returned; a field the reply lacks is `None`. */
  datatype Profile = Profile(id: Option<int>, name: Option<string>, email: Option<string>, role: Option<string>)

  datatype Form = Form(name: string, email: string, password: string, confirmPassword: string)

  datatype Field = Name | Email | Password | ConfirmPassword

  const PASSWORDS_DIFFER := "Passwords do not match"

  /** The form filled from a freshly loaded profile. */
  function Prefill(p: Profile): (f: Form)
    ensures f.name == OrElse(p.name, "") && f.email == OrElse(p.email, "")
    ensures f.password == "" && f.confirmPassword == ""
  {
    Form(OrElse(p.name, ""), OrElse(p.email, ""), "", "")
  }

  /** `handleInputChange`: one field takes the typed value. */
  function HandleInputChange(f: Form, field: Field, value: string): (r: Form)
    ensures field == Name ==> r == f.(name := value)
    ensures field == Email ==> r == f.(email := value)
    ensures field == Password ==> r == f.(password := value)
    ensures field == ConfirmPassword ==> r == f.(confirmPassword := value)
  {
    match field
    case Name => f.(name := value)
    case Email => f.(email := value)
    case Password => f.(password := value)
    case ConfirmPassword => f.(confirmPassword := value)
  }

  /** `handleCancel`: back to the loaded profile (or to empty fields when
      none has loaded), whatever was typed. */
  function Cancel(profile: Option<Profile>): (f: Form)
    ensures profile.Some? ==> f == Prefill(profile.value)
    ensures profile.None? ==> f == Form("", "", "", "")
  {
    match profile
    case Some(p) => Prefill(p)
    case None => Form("", "", "", "")
  }

  /** Adds `key` to the body when the value is defined; `JSON.stringify`
      drops keys whose value is `undefined`. */
  function WithOptional(body: Object, key: string, v: Option<Value>): (r: Object)
    ensures v.Some? ==> r == body[key := v.value]
    ensures v.None? ==> r == body
  {
    if v.Some? then body[key := v.value] else body
  }

  function IdValue(id: Option<int>): Option<Value> {
    if id.Some? then Some(VInt(id.value)) else None
  }

  function StrValue(s: Option<string>): Option<Value> {
    if s.Some? then Some(VStr(s.value)) else None
  }

  /** The body of the `PATCH /auth/user/update` request. */
  function UpdatePayload(profile: Option<Profile>, f: Form): (body: Object)
    ensures "business_id" in body && body["business_id"] == VStr(Config.BUSINESS_ID)
    ensures "name" in body && body["name"] == VStr(f.name)
    ensures "email" in body && body["email"] == VStr(f.email)
    ensures ("role" in body) <==> profile.Some? && profile.value.role.Some?
    ensures "role" in body ==> body["role"] == VStr(profile.value.role.value)
    ensures ("user_id" in body) <==> profile.Some? && profile.value.id.Some?
    ensures "user_id" in body ==> body["user_id"] == VInt(profile.value.id.value)
    ensures ("password" in body) <==> f.password != ""
    ensures "password" in body ==> body["password"] == VStr(f.password)
    ensures body.Keys <= {"business_id", "user_id", "name", "email", "role", "password"}
  {
    var id := if profile.Some? then profile.value.id else None;
    var role := if profile.Some? then profile.value.role else None;
    var base := map["business_id" := VStr(Config.BUSINESS_ID), "name" := VStr(f.name), "email" := VStr(f.email)];
    var withIds := WithOptional(WithOptional(base, "user_id", IdValue(id)), "role", StrValue(role));
    if f.password != "" then withIds["password" := VStr(f.password)] else withIds
  }

  /** `handleSubmit` up to the request: a non-empty password that differs
      from its confirmation stops it with an error and nothing is sent. */
  function HandleSubmit(profile: Option<Profile>, f: Form): (r: Result<Object, string>)
    ensures r.Failure? <==> f.password != "" && f.password != f.confirmPassword
    ensures r.Failure? ==> r.error == PASSWORDS_DIFFER
    ensures r.Success? ==> r.value == UpdatePayload(profile, f)
  {
    if f.password != "" && f.password != f.confirmPassword then Failure(PASSWORDS_DIFFER)
    else Success(UpdatePayload(profile, f))
  }

  /** What the page holds after a successful update. */
  datatype AfterUpdate = AfterUpdate(profile: Option<Profile>, form: Form, refetched: bool)

  /** The reply is used when it is an object with a name or an e-mail;
      otherwise the profile is fetched again (`refetch`, `None` when that
      fetch fails, which only shows a toast). */
  function OnUpdated(profile: Option<Profile>, prev: Form, reply: Option<Profile>, refetch: Option<Profile>): (r: AfterUpdate)
    ensures !r.refetched <==> reply.Some? && (TruthyStr(reply.value.name) || TruthyStr(reply.value.email))
    ensures !r.refetched ==> r.profile == reply
    ensures !r.refetched ==> r.form == Form(OrElse(reply.value.name, prev.name), OrElse(reply.value.email, prev.email), "", "")
    ensures r.refetched && refetch.Some? ==> r.profile == refetch && r.form == Prefill(refetch.value)
    ensures r.refetched && refetch.None? ==> r.profile == profile && r.form == prev
  {
    if reply.Some? && (TruthyStr(reply.value.name) || TruthyStr(reply.value.email)) then
      var p := reply.value;
      AfterUpdate(reply, prev.(name := OrElse(p.name, prev.name), email := OrElse(p.email, prev.email),
                               password := "", confirmPassword := ""), false)
    else if refetch.Some? then AfterUpdate(refetch, Prefill(refetch.value), true)
    else AfterUpdate(profile, prev, true)
  }

  // ---------------------------------------------------------------------
  // Properties

  /** Whatever was typed, cancelling gives the same form as loading the
      profile afresh, and submitting that form unchanged sends the loaded
      name and e-mail without a password. */
  lemma CancelRestoresLoadedProfile(p: Profile, typed: Form)
    ensures Cancel(Some(p)) == Prefill(p)
    ensures HandleSubmit(Some(p), Cancel(Some(p))).Success?
    ensures var body := HandleSubmit(Some(p), Cancel(Some(p))).value;
      body["name"] == VStr(OrElse(p.name, "")) && body["email"] == VStr(OrElse(p.email, "")) && "password" !in body
  {
  }

  /** Leaving the password empty never blocks the submission, whatever the
      confirmation holds, and no password is sent. */
  lemma EmptyPasswordNeverBlocks(profile: Option<Profile>, f: Form)
    requires f.password == ""
    ensures HandleSubmit(profile, f).Success?
    ensures "password" !in HandleSubmit(profile, f).value
  {
  }

  /** The existing role is sent back with every update, so editing the
      profile never changes the role. */
  lemma RoleCarriedOver(p: Profile, f: Form)
    requires p.role.Some? && !(f.password != "" && f.password != f.confirmPassword)
    ensures HandleSubmit(Some(p), f).value["role"] == VStr(p.role.value)
  {
  }

  /** Whenever the page ends with a known profile after an update, the two
      password fields are empty; only a reply without data whose refetch
      also fails keeps what was typed. */
  lemma PasswordsClearedAfterUpdate(profile: Option<Profile>, prev: Form, reply: Option<Profile>, refetch: Option<Profile>)
    ensures var r := OnUpdated(profile, prev, reply, refetch);
      (!r.refetched || refetch.Some?) ==> r.form.password == "" && r.form.confirmPassword == ""
    ensures var r := OnUpdated(profile, prev, None, None); r.form == prev
  {
  }
}

=== FILE: adminredeem.dfy ===
/** `app/admin/redeem/page.tsx`: the redemption statistics, the
    approve/reject buttons and the approve/reject flow. */
module AdminRedeem {
  import opened Wrappers
  import opened Text
  import opened Lists

  /** `RedemptionRequest`, with the fields the page decides on. */
  datatype Request = Request(id: string, status: string)

  const PENDING := "pending"
  const APPROVED := "approved"
  const REJECTED := "rejected"

  function HasStatus(status: string): Request -> bool {
    (r: Request) => r.status == status
  }

  datatype Counts = Counts(pending: nat, approved: nat, total: nat)

  function Statistics(requests: seq<Request>): (c: Counts)
    ensures c.total == |requests|
    ensures c.pending == |Filter(requests, HasStatus(PENDING))|
    ensures c.approved == |Filter(requests, HasStatus(APPROVED))|
  {
    Counts(Count(requests, HasStatus(PENDING)), Count(requests, HasStatus(APPROVED)), |requests|)
  }

  /** The pending and approved counts never add up to more than the
      total: no request has both statuses. */
  lemma CountsBounded(requests: seq<Request>)
    ensures Statistics(requests).pending + Statistics(requests).approved <= Statistics(requests).total
  {
    CountDisjoint(requests, HasStatus(PENDING), HasStatus(APPROVED));
  }

  /** The two buttons of one request: absent unless it is pending, and
      disabled while that request is being processed. */
  datatype Buttons = NoButtons | ApproveReject(disabled: bool)

  function ButtonsFor(request: Request, processingId: Option<string>): (r: Buttons)
    ensures r.ApproveReject? <==> request.status == PENDING
    ensures r.ApproveReject? ==> (r.disabled <==> processingId == Some(request.id))
  {
    if request.status == PENDING then ApproveReject(processingId == Some(request.id)) else NoButtons
  }

  /** The label: the status with its first character upper-cased. */
  function StatusLabel(status: string): (shown: string)
    ensures |shown| == |status|
    ensures |status| > 0 ==> shown[0] == UpperChar(status[0]) && shown[1..] == status[1..]
  {
    if |status| == 0 then "" else [UpperChar(status[0])] + status[1..]
  }

  lemma LabelsOfStatuses()
    ensures StatusLabel(PENDING) == "Pending"
    ensures StatusLabel(APPROVED) == "Approved"
    ensures StatusLabel(REJECTED) == "Rejected"
  {
    assert StatusLabel(PENDING) == [UpperChar('p')] + "ending";
    assert StatusLabel(APPROVED) == [UpperChar('a')] + "pproved";
    assert StatusLabel(REJECTED) == [UpperChar('r')] + "ejected";
  }

  // ---------------------------------------------------------------------
  // Approve and reject

  datatype Decision = Approve | Reject

  function DecisionStatus(d: Decision): string {
    match d
    case Approve => APPROVED
    case Reject => REJECTED
  }

  /** The calls the flow makes. */
  datatype Call = UpdateRedeemItem(id: string, status: string) | FetchRedeemItems

  datatype Toast = SuccessToast(message: string) | ErrorToast(message: string)

  /** The state the page is left in. */
  datatype FlowResult = FlowResult(
    calls: seq<Call>,
    requests: seq<Request>,
    processingId: Option<string>,
    toasts: seq<Toast>)

  /** `fetchRedemptionRequests`: a reply replaces the list; a failure keeps
      it and shows an error toast, and nothing is thrown. */
  function Reload(requests: seq<Request>, reply: Result<seq<Request>, string>): (r: (seq<Request>, seq<Toast>))
    ensures reply.Success? ==> r == (reply.value, [])
    ensures reply.Failure? ==> r.0 == requests && |r.1| == 1 && r.1[0].ErrorToast?
  {
    match reply
    case Success(list) => (list, [])
    case Failure(message) => (requests, [ErrorToast(if message != "" then message else "Failed to load redemption requests")])
  }

  /** `handleApprove` / `handleReject`, given the reply to the update and
      to the reload. */
  function HandleDecision(requests: seq<Request>, id: string, d: Decision,
                          update: Result<(), string>, reload: Result<seq<Request>, string>): (r: FlowResult)
    ensures |r.calls| >= 1 && r.calls[0] == UpdateRedeemItem(id, DecisionStatus(d))
    ensures update.Success? ==> r.calls == [UpdateRedeemItem(id, DecisionStatus(d)), FetchRedeemItems]
    ensures update.Failure? ==> r.calls == [UpdateRedeemItem(id, DecisionStatus(d))] && r.requests == requests
    ensures r.processingId.None?
    ensures update.Success? ==> |r.toasts| >= 1 && r.toasts[|r.toasts| - 1] == SuccessToast(
      if d == Approve then "Redemption request approved" else "Redemption request rejected")
    ensures update.Failure? ==> |r.toasts| == 1 && r.toasts[0].ErrorToast?
  {
    var call := UpdateRedeemItem(id, DecisionStatus(d));
    match update
    case Failure(message) =>
      var fallback := if d == Approve then "Failed to approve request" else "Failed to reject request";
      FlowResult([call], requests, None, [ErrorToast(if message != "" then message else fallback)])
    case Success(_) =>
      var (list, reloadToasts) := Reload(requests, reload);
      FlowResult([call, FetchRedeemItems], list, None,
                 reloadToasts + [SuccessToast(if d == Approve then "Redemption request approved" else "Redemption request rejected")])
  }

  /** The reload swallows its own failure, so a successful update is
      reported as a success even when the list could not be refreshed. */
  lemma SuccessToastDespiteFailedReload(requests: seq<Request>, id: string, d: Decision, message: string)
    ensures var r := HandleDecision(requests, id, d, Success(()), Failure(message));
      && r.requests == requests && |r.toasts| == 2 && r.toasts[0].ErrorToast? && r.toasts[1].SuccessToast?
  {
  }
}

=== FILE: adminslice.dfy ===
/** The reducer of `app/store/slices/adminSlice.ts`: three cached lists,
    one loading flag and one error shared by every admin operation. */
module AdminSlice {
  import opened Wrappers
  import opened Lists

  /** `AdminUser`, with the fields the admin pages read. */
  datatype AdminUser = AdminUser(id: int, name: string, email: string, role: string, businessId: string)

  /** `AdminUserSubscription`, with the fields the admin pages read; a
      missing `subscription_amount` is `None`. */
  datatype Subscription = Subscription(
    id: int,
    status: string,
    email: string,
    businessId: string,
    userId: string,
    planVariationId: string,
    subscriptionAmount: Option<int>)

  /** A redeem item is untyped in the source; only `order_id` is read, and
      an item without one has `None` there. */
  datatype RedeemItem = RedeemItem(orderId: Option<string>, status: string)

  datatype State = State(
    users: seq<AdminUser>,
    userSubscriptions: seq<Subscription>,
    redeemItems: seq<RedeemItem>,
    loading: bool,
    error: Option<string>)

  const INITIAL := State([], [], [], false, None)

  /** The six thunks; they share one life cycle. */
  datatype Op =
    | FetchAllUsers | FetchAllUserSubscriptions | UpdateUserSubscription
    | CreateUserSubscription | GetAllRedeemItems | UpdateRedeemItem

  /** What a fulfilled thunk carries. */
  datatype Payload =
    | Users(users: seq<AdminUser>)
    | Subscriptions(subscriptions: seq<Subscription>)
    | UpdatedSubscription(subscription: Subscription)
    | Created
    | RedeemItems(items: seq<RedeemItem>)
    | UpdatedRedeemItem(item: RedeemItem)

  datatype Action =
    | ClearAdminError
    | ClearAdminData
    | Pending(op: Op)
    | Fulfilled(payload: Payload)
    | Rejected(op: Op, message: string)

  function SameId(x: Subscription): Subscription -> bool {
    (y: Subscription) => y.id == x.id
  }

  function SameOrderId(x: RedeemItem): RedeemItem -> bool {
    (y: RedeemItem) => y.orderId == x.orderId
  }

  /** The three lists, together. */
  predicate SameLists(a: State, b: State) {
    a.users == b.users && a.userSubscriptions == b.userSubscriptions && a.redeemItems == b.redeemItems
  }

  function Reduce(s: State, a: Action): (r: State)
    ensures a.ClearAdminError? ==> r == s.(error := None)
    ensures a.ClearAdminData? ==>
      r.users == [] && r.userSubscriptions == [] && r.redeemItems == [] && r.error.None? && r.loading == s.loading
    ensures a.Pending? ==> r.loading && r.error.None? && SameLists(r, s)
    ensures a.Rejected? ==> !r.loading && r.error == Some(a.message) && SameLists(r, s)
    ensures a.Fulfilled? ==> !r.loading && r.error == s.error
    // Fetches replace their list wholesale and leave the others.
    ensures a.Fulfilled? && a.payload.Users? ==> r == s.(loading := false, users := a.payload.users)
    ensures a.Fulfilled? && a.payload.Subscriptions? ==>
      r == s.(loading := false, userSubscriptions := a.payload.subscriptions)
    ensures a.Fulfilled? && a.payload.RedeemItems? ==> r == s.(loading := false, redeemItems := a.payload.items)
    ensures a.Fulfilled? && a.payload.Created? ==> r == s.(loading := false)
    // Keyed updates keep the length and touch only their own list.
    ensures a.Fulfilled? && a.payload.UpdatedSubscription? ==>
      && |r.userSubscriptions| == |s.userSubscriptions|
      && r.users == s.users && r.redeemItems == s.redeemItems
    ensures a.Fulfilled? && a.payload.UpdatedRedeemItem? ==>
      && |r.redeemItems| == |s.redeemItems|
      && r.users == s.users && r.userSubscriptions == s.userSubscriptions
  {
    match a
    case ClearAdminError => s.(error := None)
    case ClearAdminData => s.(users := [], userSubscriptions := [], redeemItems := [], error := None)
    case Pending(_) => s.(loading := true, error := None)
    case Rejected(_, message) => s.(loading := false, error := Some(message))
    case Fulfilled(payload) =>
      match payload
      case Users(users) => s.(loading := false, users := users)
      case Subscriptions(subscriptions) => s.(loading := false, userSubscriptions := subscriptions)
      case UpdatedSubscription(x) =>
        s.(loading := false, userSubscriptions := ReplaceFirst(s.userSubscriptions, SameId(x), x))
      case Created => s.(loading := false)
      case RedeemItems(items) => s.(loading := false, redeemItems := items)
      case UpdatedRedeemItem(x) =>
        s.(loading := false, redeemItems := ReplaceFirst(s.redeemItems, SameOrderId(x), x))
  }

  // ---------------------------------------------------------------------
  // Properties

  /** Position `j` holds the first entry with this id. */
  predicate FirstWithId(xs: seq<Subscription>, j: int, id: int) {
    0 <= j < |xs| && xs[j].id == id && forall k :: 0 <= k < j ==> xs[k].id != id
  }

  predicate FirstWithOrderId(xs: seq<RedeemItem>, j: int, orderId: Option<string>) {
    0 <= j < |xs| && xs[j].orderId == orderId && forall k :: 0 <= k < j ==> xs[k].orderId != orderId
  }

  /** An updated subscription lands on the first entry with its id; with no
      such entry the list is unchanged. */
  lemma UpdateSubscriptionKeyed(s: State, x: Subscription)
    ensures var r := Reduce(s, Fulfilled(UpdatedSubscription(x)));
      (forall j :: 0 <= j < |s.userSubscriptions| ==> s.userSubscriptions[j].id != x.id) ==>
        r.userSubscriptions == s.userSubscriptions
    ensures var r := Reduce(s, Fulfilled(UpdatedSubscription(x)));
      forall j :: FirstWithId(s.userSubscriptions, j, x.id) ==> r.userSubscriptions[j] == x
    ensures var r := Reduce(s, Fulfilled(UpdatedSubscription(x)));
      forall j :: 0 <= j < |s.userSubscriptions| && s.userSubscriptions[j].id != x.id ==> r.userSubscriptions[j] == s.userSubscriptions[j]
  {
    var r := Reduce(s, Fulfilled(UpdatedSubscription(x)));
    assert forall j :: 0 <= j < |s.userSubscriptions| ==> (SameId(x)(s.userSubscriptions[j]) <==> s.userSubscriptions[j].id == x.id);
  }

  /** The same for redeem items, keyed on `order_id`; two items that both
      lack one count as equal, as `undefined === undefined` does. */
  lemma UpdateRedeemItemKeyed(s: State, x: RedeemItem)
    ensures var r := Reduce(s, Fulfilled(UpdatedRedeemItem(x)));
      (forall j :: 0 <= j < |s.redeemItems| ==> s.redeemItems[j].orderId != x.orderId) ==>
        r.redeemItems == s.redeemItems
    ensures var r := Reduce(s, Fulfilled(UpdatedRedeemItem(x)));
      forall j :: FirstWithOrderId(s.redeemItems, j, x.orderId) ==> r.redeemItems[j] == x
    ensures var r := Reduce(s, Fulfilled(UpdatedRedeemItem(x)));
      forall j :: 0 <= j < |s.redeemItems| && s.redeemItems[j].orderId != x.orderId ==> r.redeemItems[j] == s.redeemItems[j]
  {
    assert forall j :: 0 <= j < |s.redeemItems| ==> (SameOrderId(x)(s.redeemItems[j]) <==> s.redeemItems[j].orderId == x.orderId);
  }

  /** Repeating a successful update changes nothing more. */
  lemma UpdateSubscriptionIdempotent(s: State, x: Subscription)
    ensures Reduce(Reduce(s, Fulfilled(UpdatedSubscription(x))), Fulfilled(UpdatedSubscription(x)))
         == Reduce(s, Fulfilled(UpdatedSubscription(x)))
  {
    ReplaceFirstIdempotent(s.userSubscriptions, SameId(x), x);
  }

  /** The loading flag is shared: any completion of any operation clears
      it, even while another operation is still pending. */
  lemma SharedLoadingFlag(s: State, started: Op, finished: Op, p: Payload, message: string)
    ensures Reduce(s, Pending(started)).loading
    ensures !Reduce(Reduce(s, Pending(started)), Fulfilled(p)).loading
    ensures !Reduce(Reduce(s, Pending(started)), Rejected(finished, message)).loading
  {
  }

  /** Clearing the data returns to the initial lists and error. */
  lemma ClearAdminDataResets(s: State)
    ensures Reduce(s, ClearAdminData) == INITIAL.(loading := s.loading)
  {
  }
}

=== FILE: adminusers.dfy ===
/** `app/admin/users/page.tsx`: its guard, the user search, the error of a
    failed sign-up, the edit request and the auto-login after creating a
    user. */
module AdminUsers {
  import opened Wrappers
  import opened Values
  import opened Storage
  import opened CookieLemmas
  import opened Text
  import AdminAuthService
  import AuthService
  import AdminGuard
  import AdminCommon
  import AdminSlice
  import Middleware
  import Config

  // ---------------------------------------------------------------------
  // Guard

  /** This page only asks for a token; it does not check the role. */
  function Guard(b: Browser): (r: AdminGuard.GuardResult)
    ensures r.Proceed? <==> AdminAuthService.IsAuthenticated(b)
    ensures r.SendToLogin? ==> r.after == b
  {
    if AdminAuthService.IsAuthenticated(b) then AdminGuard.Proceed else AdminGuard.SendToLogin(b)
  }

  /** On its own the guard lets a signed-in customer in where the other
      admin pages turn them away; the middleware in front of `/admin/users`
      closes the gap, so behind it the two guards agree. */
  lemma MissingRoleCheckCoveredByMiddleware(b: Browser)
    ensures AdminAuthService.IsAuthenticated(b) && !AdminAuthService.HasAdminRole(b) ==>
      Guard(b).Proceed? && AdminGuard.Guard(b).SendToLogin?
    ensures Middleware.Effective("/admin/users", AuthService.GetAuthToken(b), AuthService.GetRole(b)) == Middleware.Next ==>
      Guard(b).Proceed? && AdminGuard.Guard(b).Proceed?
  {
    assert Middleware.Matched("/admin/users") by {
      assert "/admin/users"[..7] == "/admin/";
    }
    assert StartsWith("/admin/users", "/admin") by {
      assert "/admin/users"[..6] == "/admin";
    }
    AdminGuard.GuardAgreesWithMiddleware(b, "/admin/users");
  }

  // ---------------------------------------------------------------------
  // Search

  function EmailOf(u: AdminSlice.AdminUser): string {
    u.email
  }

  /** `filteredUsers`: the cached users whose e-mail contains the search,
      ignoring case; all of them for an empty search. */
  function FilteredUsers(users: seq<AdminSlice.AdminUser>, search: string): (r: seq<AdminSlice.AdminUser>)
    ensures search == "" ==> r == users
    ensures forall j :: 0 <= j < |r| ==> r[j] in users && AdminCommon.MatchesSearch(r[j].email, search)
    ensures forall j :: 0 <= j < |users| && AdminCommon.MatchesSearch(users[j].email, search) ==> users[j] in r
  {
    AdminCommon.FilterByEmail(users, EmailOf, search)
  }

  // ---------------------------------------------------------------------
  // Creating a user

  /** The body of the `POST /auth/signup` request. */
  function CreateUserBody(name: string, email: string, password: string): (body: Object)
    ensures body.Keys == {"name", "email", "password", "business_id"}
    ensures body["name"] == VStr(name) && body["email"] == VStr(email) && body["password"] == VStr(password)
    ensures body["business_id"] == VStr(Config.BUSINESS_ID)
  {
    map["name" := VStr(name), "email" := VStr(email), "password" := VStr(password),
        "business_id" := VStr(Config.BUSINESS_ID)]
  }

  /** The error toast of a failed sign-up. */
  function CreateUserError(code: Option<string>, message: Option<string>): (r: string)
    ensures code == Some(AdminCommon.ACCESS_DENIED) ==> r == AdminCommon.ALREADY_REGISTERED
    ensures code != Some(AdminCommon.ACCESS_DENIED) ==> r == OrElse(message, AdminCommon.CREATE_USER_FAILED)
  {
    AdminCommon.SignupErrorMessage(code, message)
  }

  /** The login reply, with both the field the page reads (`token`) and the
      one login replies carry (`authToken`); a missing field is `None`. */
  datatype LoginReply = LoginReply(authToken: Option<string>, token: Option<string>, role: Option<string>)

  /** `${x}` in a template string: a missing value prints as `undefined`. */
  function Interpolate(x: Option<string>): (r: string)
    ensures x.Some? ==> r == x.value
    ensures x.None? ==> r == "undefined"
  {
    if x.Some? then x.value else "undefined"
  }

  /** `max-age=86400`: one day, not the seven of `setCookie`. */
  const AUTO_LOGIN_MAX_AGE_MS := 86400 * 1000

  /** The two cookies the page writes after a successful login, valued as
      the browser parses them. */
  function StoreSession(b: Browser, token: string, role: string): (r: Browser)
    ensures b.hasWindow ==> Lookup(r.jar, AUTH_TOKEN) == Some(StoredValue(token))
    ensures b.hasWindow ==> Lookup(r.jar, USER_ROLE) == Some(StoredValue(role))
    ensures forall n :: n != AUTH_TOKEN && n != USER_ROLE ==> Lookup(r.jar, n) == Lookup(b.jar, n)
    ensures r.local == b.local && r.session == b.session && r.clockMs == b.clockMs && r.hasWindow == b.hasWindow
  {
    var expires := b.clockMs + AUTO_LOGIN_MAX_AGE_MS;
    Write(Write(b, CookieWrite(AUTH_TOKEN, token, expires)), CookieWrite(USER_ROLE, role, expires))
  }

  /** The auto-login as the page writes it: the token cookie takes the
      reply's `token` field. `None` is a login reply that was not ok, which
      leaves the cookies alone. */
  function AutoLoginAsWritten(b: Browser, reply: Option<LoginReply>): (r: Browser)
    ensures reply.None? ==> r == b
    ensures reply.Some? && b.hasWindow ==> Lookup(r.jar, AUTH_TOKEN) == Some(StoredValue(Interpolate(reply.value.token)))
    ensures reply.Some? && b.hasWindow ==> Lookup(r.jar, USER_ROLE) == Some(StoredValue(Interpolate(reply.value.role)))
  {
    if reply.None? then b
    else StoreSession(b, Interpolate(reply.value.token), Interpolate(reply.value.role))
  }

  /** The auto-login as evidently intended: the token cookie takes the
      `authToken` every login reply carries. */
  function AutoLoginCorrected(b: Browser, reply: Option<LoginReply>): (r: Browser)
    ensures reply.None? ==> r == b
    ensures reply.Some? && b.hasWindow ==> Lookup(r.jar, AUTH_TOKEN) == Some(StoredValue(Interpolate(reply.value.authToken)))
    ensures reply.Some? && b.hasWindow ==> Lookup(r.jar, USER_ROLE) == Some(StoredValue(Interpolate(reply.value.role)))
  {
    if reply.None? then b
    else StoreSession(b, Interpolate(reply.value.authToken), Interpolate(reply.value.role))
  }

  /** The session cookies read back through `getCookie`, as the browser
      parsed them. */
  lemma StoreSessionReadsBack(b: Browser, token: string, role: string)
    requires b.hasWindow && WellFormed(b.jar)
    ensures WellFormed(StoreSession(b, token, role).jar)
    ensures AuthService.GetAuthToken(StoreSession(b, token, role)) == Some(StoredValue(token))
    ensures AuthService.GetRole(StoreSession(b, token, role)) == Some(StoredValue(role))
  {
    var expires := b.clockMs + AUTO_LOGIN_MAX_AGE_MS;
    var b1 := Write(b, CookieWrite(AUTH_TOKEN, token, expires));
    SessionNamesValid();
    assert WellFormed(b1.jar);
    var r := Write(b1, CookieWrite(USER_ROLE, role, expires));
    assert WellFormed(r.jar);
    assert r == StoreSession(b, token, role);
    ReadCookieIsLookup(r, AUTH_TOKEN);
    ReadCookieIsLookup(r, USER_ROLE);
  }

  /** The text a missing field interpolates to is kept as written. */
  lemma UndefinedIsValid()
    ensures ValidValue("undefined")
  {
    var u := "undefined";
    assert forall i :: 0 <= i < |u| ==> u[i] != ';';
  }

  /** The discrepancy: for a reply shaped as login replies are (an
      `authToken`, no `token`), the page stores the text `undefined` as the
      token, and the browser then counts as signed in with a token the
      server never issued. */
  lemma AutoLoginStoresUndefined(b: Browser, authToken: string, role: string)
    requires b.hasWindow && WellFormed(b.jar)
    requires authToken != "undefined"
    ensures var after := AutoLoginAsWritten(b, Some(LoginReply(Some(authToken), None, Some(role))));
      && AuthService.GetAuthToken(after) == Some("undefined")
      && AuthService.GetAuthToken(after) != Some(authToken)
      && AuthService.IsAuthenticated(after)
  {
    var after := AutoLoginAsWritten(b, Some(LoginReply(Some(authToken), None, Some(role))));
    assert after == StoreSession(b, "undefined", role);
    StoreSessionReadsBack(b, "undefined", role);
    UndefinedIsValid();
    StoredValueFixesValid("undefined");
  }

  /** Corrected, the stored token is the one the server issued, and the
      browser is signed in exactly when that token is non-empty. */
  lemma AutoLoginCorrectedStoresIssuedToken(b: Browser, authToken: string, token: Option<string>, role: string)
    requires b.hasWindow && WellFormed(b.jar) && ValidValue(authToken) && ValidValue(role)
    ensures var after := AutoLoginCorrected(b, Some(LoginReply(Some(authToken), token, Some(role))));
      && AuthService.GetAuthToken(after) == Some(authToken)
      && AuthService.GetRole(after) == Some(role)
      && (AuthService.IsAuthenticated(after) <==> authToken != "")
  {
    StoreSessionReadsBack(b, authToken, role);
    StoredValueFixesValid(authToken);
    StoredValueFixesValid(role);
  }

  /** Either way the cookies live one day, where the rest of the
      application writes seven-day ones. */
  lemma AutoLoginCookiesLiveOneDay(b: Browser, token: string)
    ensures AUTO_LOGIN_MAX_AGE_MS == MS_PER_DAY
    ensures SetCookieWrite(AUTH_TOKEN, token, DEFAULT_DAYS, b.clockMs).expiresMs == b.clockMs + DEFAULT_DAYS * AUTO_LOGIN_MAX_AGE_MS
  {
  }

  // ---------------------------------------------------------------------
  // Editing a user

  datatype EditForm = EditForm(name: string, email: string, role: string)

  /** `handleEditUser`: the form starts from the chosen user. */
  function StartEdit(u: AdminSlice.AdminUser): (f: EditForm)
    ensures f.name == u.name && f.email == u.email && f.role == u.role
  {
    EditForm(u.name, u.email, u.role)
  }

  /** `handleUpdateUser`: nothing without a chosen user; otherwise a
      `PATCH /admin/user/<id>` whose body names that user, the edited
      fields and this business. */
  function UpdateRequest(selected: Option<AdminSlice.AdminUser>, f: EditForm): (r: Option<(string, Object)>)
    ensures r.None? <==> selected.None?
    ensures r.Some? ==> r.value.0 == "/admin/user/" + IntToString(selected.value.id)
    ensures r.Some? ==> r.value.1.Keys == {"user_id", "name", "email", "business_id", "role"}
    ensures r.Some? ==> r.value.1["user_id"] == VInt(selected.value.id) && r.value.1["business_id"] == VStr(Config.BUSINESS_ID)
    ensures r.Some? ==> r.value.1["name"] == VStr(f.name) && r.value.1["email"] == VStr(f.email) && r.value.1["role"] == VStr(f.role)
  {
    match selected
    case None => None
    case Some(u) =>
      Some(("/admin/user/" + IntToString(u.id),
            map["user_id" := VInt(u.id), "name" := VStr(f.name), "email" := VStr(f.email),
                "business_id" := VStr(Config.BUSINESS_ID), "role" := VStr(f.role)]))
  }

  /** Saving an untouched edit form sends the user's own values back, and
      the path and the body name the same user. */
  lemma UntouchedEditSendsUserBack(u: AdminSlice.AdminUser)
    ensures var r := UpdateRequest(Some(u), StartEdit(u));
      && r.Some?
      && r.value.1["name"] == VStr(u.name) && r.value.1["email"] == VStr(u.email) && r.value.1["role"] == VStr(u.role)
      && r.value.1["user_id"] == VInt(u.id)
    ensures forall v: AdminSlice.AdminUser, f: EditForm :: v.id != u.id ==>
      UpdateRequest(Some(v), f).value.0 != UpdateRequest(Some(u), StartEdit(u)).value.0
  {
    forall v: AdminSlice.AdminUser, f: EditForm | v.id != u.id
      ensures UpdateRequest(Some(v), f).value.0 != UpdateRequest(Some(u), StartEdit(u)).value.0
    {
      IntToStringInjective(v.id, u.id);
      var p := "/admin/user/";
      assert IntToString(v.id) == (p + IntToString(v.id))[|p|..];
      assert IntToString(u.id) == (p + IntToString(u.id))[|p|..];
    }
  }
}

=== FILE: api.dfy ===
/** The HTTP client of `app/utils/api.ts`: authorization headers, the
    classification of one attempt into a result or an `ApiError`, the retry
    policy with doubling delay, and the `api.*` method wrappers.  The network
    is a parameter: a function from the request and the attempt number to
    what that attempt observed. */
module Api {
  import opened Wrappers
  import opened Text
  import opened Values
  import opened Storage
  import opened CookieLemmas
  import Config

  datatype Method = GET | POST | PUT | DELETE | PATCH

  /** What `response.json()` yields: a parse failure, JSON `null`, or any
      other JSON value, of which the core reads `message` and `code` (both
      absent unless the value is an object carrying strings there). */
  datatype Body = Unparsable | JsonNull | Json(message: Option<string>, code: Option<string>)

  /** What one call of `fetch` ended in. */
  datatype Attempt =
    | Responded(status: int, body: Body)
    | Aborted          // the AbortController fired after `TIMEOUT_MS`
    | NetworkFailure   // `fetch` rejected for any other reason

  datatype ApiError = ApiError(message: string, status: int, code: Option<string>)

  datatype Outcome = Resolved(body: Body) | Rejected(error: ApiError)

  datatype Toast = ErrorToast(text: string) | SuccessToast(text: string)

  /** One run of `requestFn`: its outcome, the toasts it showed, and whether
      it took the 401 branch that clears the session. */
  datatype AttemptResult = AttemptResult(outcome: Outcome, toasts: seq<Toast>, clearsSession: bool)

  const DEFAULT_HEADERS: Headers := map["Content-Type" := "application/json"]
  const FIRST_DELAY_MS := 1000

  const NETWORK_ERROR := ApiError("Network error", 0, None)
  const TIMEOUT_ERROR := ApiError("Request timeout", 408, None)
  const AUTH_FAILED := ApiError("Authentication failed", Config.HTTP_UNAUTHORIZED, None)

  /** `response.ok`. */
  predicate IsOk(status: int) {
    200 <= status <= 299
  }

  /** Status at least 500 on an `ApiError`: the only failures retried. */
  predicate Retryable(o: Outcome) {
    o.Rejected? && o.error.status >= 500
  }

  // ---------------------------------------------------------------------
  // Headers

  /** `getAuthHeaders()`: JSON content type, plus a bearer token when the
      token cookie is non-empty. */
  function GetAuthHeaders(b: Browser): (h: Headers)
    ensures "Content-Type" in h && h["Content-Type"] == "application/json"
    ensures "Authorization" in h <==> TruthyStr(ReadCookie(b, AUTH_TOKEN))
    ensures "Authorization" in h ==> h["Authorization"] == "Bearer " + ReadCookie(b, AUTH_TOKEN).value
    ensures h.Keys <= {"Content-Type", "Authorization"}
  {
    var token := ReadCookie(b, AUTH_TOKEN);
    if TruthyStr(token) then DEFAULT_HEADERS["Authorization" := "Bearer " + token.value]
    else DEFAULT_HEADERS
  }

  /** Options of `apiRequest`, with `None` for a key the caller left out. */
  datatype Options = Options(
    verb: Method,
    headers: Option<Headers>,
    body: Option<Object>,
    retryAttempts: Option<int>,
    showSuccessToast: bool,
    successMessage: Option<string>)

  /** `{}`: `fetch` defaults to GET. */
  const NO_OPTIONS := Options(GET, None, None, None, false, None)

  /** What `fetch` is called with. */
  datatype Request = Request(verb: Method, endpoint: string, headers: Headers, body: Option<Object>)

  /** `{ ...getAuthHeaders(), ...config.headers }`, where `config.headers` is
      the caller's headers if given and the default JSON content type
      otherwise. */
  function FinalHeaders(b: Browser, options: Options): (h: Headers)
    ensures options.headers.Some? ==>
      forall k :: k in options.headers.value ==> k in h && h[k] == options.headers.value[k]
    ensures forall k :: k in GetAuthHeaders(b) && (options.headers.None? || k !in options.headers.value) ==>
      k in h && h[k] == GetAuthHeaders(b)[k]
    ensures h.Keys == GetAuthHeaders(b).Keys + options.headers.GetOr(map[]).Keys
  {
    Spread(GetAuthHeaders(b), options.headers.GetOr(DEFAULT_HEADERS))
  }

  /** `config.retryAttempts || 0` with `config = { ...defaultConfig, ...options }`. */
  function RetryBudget(options: Options): (n: int)
    ensures options.retryAttempts.None? ==> n == Config.RETRY_ATTEMPTS
    ensures options.retryAttempts.Some? ==> n == options.retryAttempts.value
  {
    match options.retryAttempts
    case None => Config.RETRY_ATTEMPTS
    case Some(n) => n
  }

  function BuildRequest(b: Browser, endpoint: string, options: Options): (r: Request)
    ensures r.verb == options.verb && r.body == options.body && r.endpoint == endpoint
    ensures r.headers == FinalHeaders(b, options)
    // The headers sent: a content type always, the caller's headers winning,
    // and the bearer token exactly when one reads back or the caller gives one.
    ensures "Content-Type" in r.headers
    ensures options.headers.Some? ==>
      forall k :: k in options.headers.value ==> r.headers[k] == options.headers.value[k]
    ensures "Authorization" in r.headers <==>
      TruthyStr(ReadCookie(b, AUTH_TOKEN)) || (options.headers.Some? && "Authorization" in options.headers.value)
    ensures TruthyStr(ReadCookie(b, AUTH_TOKEN)) && (options.headers.None? || "Authorization" !in options.headers.value) ==>
      r.headers["Authorization"] == "Bearer " + ReadCookie(b, AUTH_TOKEN).value
  {
    Request(options.verb, endpoint, FinalHeaders(b, options), options.body)
  }

  // ---------------------------------------------------------------------
  // One attempt: the body of `requestFn`

  /** `requestFn` for an attempt that observed `a`.  The body is parsed
      before the status is looked at, so an unparsable body is a network
      error whatever the status; a non-OK status other than 401 reads
      `result.message`, which fails on a JSON `null`. */
  function Classify(a: Attempt, showSuccessToast: bool, successMessage: Option<string>): (r: AttemptResult)
    ensures r.outcome.Resolved? <==> a.Responded? && IsOk(a.status) && !a.body.Unparsable?
    ensures r.outcome.Resolved? ==> r.outcome.body == a.body
    ensures r.clearsSession <==> a.Responded? && a.status == 401 && !a.body.Unparsable?
    ensures r.clearsSession ==> r.outcome == Rejected(AUTH_FAILED) && r.toasts == []
    ensures Retryable(r.outcome) <==> a.Responded? && a.status >= 500 && a.body.Json?
    ensures a.Aborted? ==> r.outcome == Rejected(TIMEOUT_ERROR)
    ensures a.NetworkFailure? || (a.Responded? && a.body.Unparsable?) ==> r.outcome == Rejected(NETWORK_ERROR)
    ensures a.Responded? && !IsOk(a.status) && a.status != 401 && a.body.Json? ==>
      r.outcome == Rejected(ApiError(OrElse(a.body.message, "API request failed"), a.status, a.body.code))
      && r.toasts == [ErrorToast(r.outcome.error.message)]
    ensures r.outcome.Rejected? && !r.clearsSession ==> |r.toasts| == 1 && r.toasts[0].ErrorToast?
    ensures r.outcome.Resolved? ==>
      r.toasts == if showSuccessToast then [SuccessToast(OrElse(successMessage, "Operation completed successfully!"))] else []
  {
    match a
    case Aborted =>
      AttemptResult(Rejected(TIMEOUT_ERROR), [ErrorToast("Request timeout. Please try again.")], false)
    case NetworkFailure =>
      AttemptResult(Rejected(NETWORK_ERROR), [ErrorToast("Network error. Please check your connection.")], false)
    case Responded(status, body) =>
      if body.Unparsable? then
        AttemptResult(Rejected(NETWORK_ERROR), [ErrorToast("Network error. Please check your connection.")], false)
      else if !IsOk(status) then
        if status == Config.HTTP_UNAUTHORIZED then
          AttemptResult(Rejected(AUTH_FAILED), [], true)
        else if body.JsonNull? then
          // `null.message` throws a TypeError, caught as a network error
          AttemptResult(Rejected(NETWORK_ERROR), [ErrorToast("Network error. Please check your connection.")], false)
        else
          var message := OrElse(body.message, "API request failed");
          AttemptResult(Rejected(ApiError(message, status, body.code)), [ErrorToast(message)], false)
      else if showSuccessToast then
        AttemptResult(Resolved(body), [SuccessToast(OrElse(successMessage, "Operation completed successfully!"))], false)
      else
        AttemptResult(Resolved(body), [], false)
  }

  // ---------------------------------------------------------------------
  // retryRequest

  function Pow2(k: nat): (r: nat)
    ensures r >= 1
  {
    if k == 0 then 1 else 2 * Pow2(k - 1)
  }

  /** The toast shown before a retry. */
  function RetryToast(left: int): Toast {
    ErrorToast("Request failed. Retrying... (" + IntToString(left) + " attempts left)")
  }

  /** Everything a call of `retryRequest` did: its final outcome, how many
      times it ran the request, the waits between runs, every toast, and
      whether the final run cleared the session. */
  datatype Run = Run(outcome: Outcome, attempts: nat, waits: seq<int>, toasts: seq<Toast>, clearsSession: bool)

  /** `retryRequest(requestFn, left, delay)` where the `j`-th run of
      `requestFn` from here is `attempt(n + j)`. */
  function RetryFrom(attempt: nat -> AttemptResult, n: nat, left: int, delay: int): (r: Run)
    ensures 1 <= r.attempts <= (if left > 0 then left else 0) + 1
    ensures |r.waits| == r.attempts - 1
    ensures forall j :: 0 <= j < |r.waits| ==> r.waits[j] == delay * Pow2(j)
    ensures forall k :: n <= k < n + r.attempts - 1 ==> Retryable(attempt(k).outcome)
    ensures r.outcome == attempt(n + r.attempts - 1).outcome
    ensures r.clearsSession == attempt(n + r.attempts - 1).clearsSession
    ensures !Retryable(r.outcome) || r.attempts == (if left > 0 then left else 0) + 1
    decreases if left > 0 then left else 0
  {
    var first := attempt(n);
    if left > 0 && Retryable(first.outcome) then
      var rest := RetryFrom(attempt, n + 1, left - 1, delay * 2);
      var waits := [delay] + rest.waits;
      DoublingWaits(delay, rest.waits, waits);
      Run(rest.outcome, rest.attempts + 1, waits,
          first.toasts + [RetryToast(left)] + rest.toasts, rest.clearsSession)
    else
      Run(first.outcome, 1, [], first.toasts, first.clearsSession)
  }

  /** The default schedule when every attempt is retryable. */
  lemma DefaultScheduleOf(a: nat -> AttemptResult)
    requires forall k: nat :: Retryable(a(k).outcome)
    ensures var r := RetryFrom(a, 0, Config.RETRY_ATTEMPTS, FIRST_DELAY_MS);
      r.attempts == 4 && r.waits == [1000, 2000, 4000] && Retryable(r.outcome)
  {
    RetryExhausted(a, 0, Config.RETRY_ATTEMPTS, FIRST_DELAY_MS);
    var r := RetryFrom(a, 0, Config.RETRY_ATTEMPTS, FIRST_DELAY_MS);
    assert Pow2(1) == 2 && Pow2(2) == 4;
    assert |r.waits| == 3 && r.waits[0] == 1000 && r.waits[1] == 2000 && r.waits[2] == 4000;
  }

  /** When every attempt from `n` on is retryable, the whole budget is used. */
  lemma RetryExhausted(attempt: nat -> AttemptResult, n: nat, left: int, delay: int)
    requires forall k: nat :: n <= k ==> Retryable(attempt(k).outcome)
    ensures RetryFrom(attempt, n, left, delay).attempts == (if left > 0 then left else 0) + 1
  {
    var r := RetryFrom(attempt, n, left, delay);
    assert Retryable(attempt(n + r.attempts - 1).outcome);
  }

  /** Waiting `delay` and then the doubled schedule of `delay * 2` is the
      doubled schedule of `delay`. */
  lemma DoublingWaits(delay: int, rest: seq<int>, waits: seq<int>)
    requires forall j :: 0 <= j < |rest| ==> rest[j] == delay * 2 * Pow2(j)
    requires waits == [delay] + rest
    ensures forall j :: 0 <= j < |waits| ==> waits[j] == delay * Pow2(j)
  {
    forall j | 1 <= j < |waits| ensures waits[j] == delay * Pow2(j) {
      assert waits[j] == rest[j - 1];
      assert Pow2(j) == 2 * Pow2(j - 1);
      assert delay * 2 * Pow2(j - 1) == delay * (2 * Pow2(j - 1));
    }
  }

  // ---------------------------------------------------------------------
  // apiRequest and the method wrappers

  /** What a call of `apiRequest` leaves behind: the run, the browser after
      the 401 branch (if it ran), and where the page was sent. */
  datatype ApiResult = ApiResult(run: Run, after: Browser, redirect: Option<string>)

  /** The 401 branch: both session cookies expire, both keys leave
      localStorage, and the page goes to `/login`. */
  function ClearSession(b: Browser): (r: Browser)
    ensures b.hasWindow && b.clockMs > EPOCH_MS ==>
      Lookup(r.jar, AUTH_TOKEN) == None && Lookup(r.jar, USER_ROLE) == None
    ensures forall n :: n != AUTH_TOKEN && n != USER_ROLE ==> Lookup(r.jar, n) == Lookup(b.jar, n)
    ensures b.hasWindow ==> r.local == b.local - {AUTH_TOKEN, USER_ROLE}
    ensures r.session == b.session
    ensures !b.hasWindow ==> r == b
  {
    var c := Write(Write(b, RemoveCookieWrite(AUTH_TOKEN)), RemoveCookieWrite(USER_ROLE));
    if b.hasWindow then c.(local := c.local - {AUTH_TOKEN, USER_ROLE}) else c
  }

  /** The `k`-th run of `requestFn` inside `apiRequest(endpoint, options)`. */
  function AttemptAt(b: Browser, endpoint: string, options: Options,
                     server: (Request, nat) -> Attempt, k: nat): AttemptResult
  {
    Classify(server(BuildRequest(b, endpoint, options), k), options.showSuccessToast, options.successMessage)
  }

  /** `apiRequest(endpoint, options)` against `server`. */
  function ApiRequest(b: Browser, endpoint: string, options: Options,
                      server: (Request, nat) -> Attempt): (r: ApiResult)
    ensures var req := BuildRequest(b, endpoint, options);
      r.run == RetryFrom((n: nat) => Classify(server(req, n), options.showSuccessToast, options.successMessage),
                         0, RetryBudget(options), FIRST_DELAY_MS)
    // The schedule: at most the budget's retries, waits of 1000 ms doubling,
    // a retry only after a retryable attempt, and the last attempt's outcome.
    ensures 1 <= r.run.attempts <= (if RetryBudget(options) > 0 then RetryBudget(options) else 0) + 1
    ensures |r.run.waits| == r.run.attempts - 1
    ensures forall j :: 0 <= j < |r.run.waits| ==> r.run.waits[j] == FIRST_DELAY_MS * Pow2(j)
    ensures forall k :: 0 <= k < r.run.attempts - 1 ==> Retryable(AttemptAt(b, endpoint, options, server, k).outcome)
    ensures r.run.outcome == AttemptAt(b, endpoint, options, server, r.run.attempts - 1).outcome
    ensures !Retryable(r.run.outcome) ||
      r.run.attempts == (if RetryBudget(options) > 0 then RetryBudget(options) else 0) + 1
    // The 401 branch: only in a window, only when the last attempt took it.
    ensures r.redirect.Some? <==> b.hasWindow && AttemptAt(b, endpoint, options, server, r.run.attempts - 1).clearsSession
    ensures r.redirect.Some? <==> r.run.clearsSession && b.hasWindow
    ensures r.redirect.Some? ==> r.redirect.value == "/login" && r.after == ClearSession(b)
    ensures r.redirect.Some? && b.clockMs > EPOCH_MS ==>
      Lookup(r.after.jar, AUTH_TOKEN) == None && Lookup(r.after.jar, USER_ROLE) == None
    ensures r.redirect.Some? ==> r.after.local == b.local - {AUTH_TOKEN, USER_ROLE}
    ensures r.redirect.None? ==> r.after == b
  {
    var req := BuildRequest(b, endpoint, options);
    var run := RetryFrom((n: nat) => Classify(server(req, n), options.showSuccessToast, options.successMessage),
                         0, RetryBudget(options), FIRST_DELAY_MS);
    RunFollowsAttempts(b, endpoint, options, server);
    if run.clearsSession && b.hasWindow then ApiResult(run, ClearSession(b), Some("/login"))
    else ApiResult(run, b, None)
  }

  /** The run of `apiRequest` retold attempt by attempt: every attempt
      before the last was retryable, and the last one gives the outcome
      and decides the 401 branch. */
  lemma RunFollowsAttempts(b: Browser, endpoint: string, options: Options, server: (Request, nat) -> Attempt)
    ensures var req := BuildRequest(b, endpoint, options);
      var run := RetryFrom((n: nat) => Classify(server(req, n), options.showSuccessToast, options.successMessage),
                           0, RetryBudget(options), FIRST_DELAY_MS);
      && (forall k :: 0 <= k < run.attempts - 1 ==> Retryable(AttemptAt(b, endpoint, options, server, k).outcome))
      && run.outcome == AttemptAt(b, endpoint, options, server, run.attempts - 1).outcome
      && run.clearsSession == AttemptAt(b, endpoint, options, server, run.attempts - 1).clearsSession
  {
    var req := BuildRequest(b, endpoint, options);
    var a := (n: nat) => Classify(server(req, n), options.showSuccessToast, options.successMessage);
    var run := RetryFrom(a, 0, RetryBudget(options), FIRST_DELAY_MS);
    forall k | 0 <= k < run.attempts - 1
      ensures Retryable(AttemptAt(b, endpoint, options, server, k).outcome)
    {
      assert Retryable(a(k).outcome);
    }
  }

  /** `api.get(endpoint, config)`: the caller's options with the method
      forced. */
  function ApiGet(config: Options): (o: Options)
    ensures o.verb == GET && o == config.(verb := GET)
  {
    config.(verb := GET)
  }

  function ApiDelete(config: Options): (o: Options)
    ensures o.verb == DELETE && o == config.(verb := DELETE)
  {
    config.(verb := DELETE)
  }

  /** `api.post(endpoint, data, config)`: the method forced and the body
      replaced by the data, absent when there is none. */
  function ApiPost(data: Option<Object>, config: Options): (o: Options)
    ensures o == config.(verb := POST, body := data)
  {
    config.(verb := POST, body := data)
  }

  function ApiPut(data: Option<Object>, config: Options): (o: Options)
    ensures o == config.(verb := PUT, body := data)
  {
    config.(verb := PUT, body := data)
  }

  function ApiPatch(data: Option<Object>, config: Options): (o: Options)
    ensures o == config.(verb := PATCH, body := data)
  {
    config.(verb := PATCH, body := data)
  }

  // ---------------------------------------------------------------------
  // Properties of the client

  /** With a well-formed cookie store, the bearer header is present exactly
      when the token cookie holds a non-empty value, and never during
      server rendering. */
  lemma AuthorizationIffToken(b: Browser)
    requires WellFormed(b.jar)
    ensures "Authorization" in GetAuthHeaders(b) <==>
      b.hasWindow && Lookup(b.jar, AUTH_TOKEN).Some? && Lookup(b.jar, AUTH_TOKEN).value != ""
  {
    if b.hasWindow {
      ReadCookieIsLookup(b, AUTH_TOKEN);
    }
  }

  /** Whatever headers the caller passes, the request still carries a
      content type, and the caller's value wins when it passes one. */
  lemma ContentTypeAlwaysSent(b: Browser, options: Options)
    ensures "Content-Type" in FinalHeaders(b, options)
    ensures options.headers.Some? && "Content-Type" in options.headers.value ==>
      FinalHeaders(b, options)["Content-Type"] == options.headers.value["Content-Type"]
    ensures options.headers.None? ==> FinalHeaders(b, options) == GetAuthHeaders(b)
  {
    if options.headers.None? {
      var h := FinalHeaders(b, options);
      assert h.Keys == GetAuthHeaders(b).Keys;
    }
  }

  /** Two request functions that agree on every attempt give the same run. */
  lemma {:induction false} RetryFromExt(a1: nat -> AttemptResult, a2: nat -> AttemptResult,
                                        n: nat, left: int, delay: int)
    requires forall k :: a1(k) == a2(k)
    ensures RetryFrom(a1, n, left, delay) == RetryFrom(a2, n, left, delay)
    decreases if left > 0 then left else 0
  {
    if left > 0 && Retryable(a1(n).outcome) {
      RetryFromExt(a1, a2, n + 1, left - 1, delay * 2);
    }
  }

  /** The retry path is the same for every HTTP method: when the server's
      answers do not depend on the method, GET, POST, PUT, PATCH and DELETE
      requests run identically, so a mutation is retried on a 5xx just like
      a read. */
  lemma RetryIndependentOfMethod(b: Browser, endpoint: string, options: Options,
                                 server: (Request, nat) -> Attempt, m1: Method, m2: Method)
    requires forall req, k :: server(req, k) == server(req.(verb := GET), k)
    ensures ApiRequest(b, endpoint, options.(verb := m1), server).run
         == ApiRequest(b, endpoint, options.(verb := m2), server).run
  {
    var o1 := options.(verb := m1);
    var o2 := options.(verb := m2);
    var r1 := BuildRequest(b, endpoint, o1);
    var r2 := BuildRequest(b, endpoint, o2);
    assert r1.(verb := GET) == r2.(verb := GET);
    var a1 := (n: nat) => Classify(server(r1, n), o1.showSuccessToast, o1.successMessage);
    var a2 := (n: nat) => Classify(server(r2, n), o2.showSuccessToast, o2.successMessage);
    forall k: nat ensures a1(k) == a2(k) {
      assert server(r1, k) == server(r1.(verb := GET), k);
      assert server(r2, k) == server(r2.(verb := GET), k);
    }
    RetryFromExt(a1, a2, 0, RetryBudget(options), FIRST_DELAY_MS);
  }

  /** A server error on the first attempt of any method, with a retry
      budget left, is retried after 1000 ms. */
  lemma ServerErrorRetried(b: Browser, endpoint: string, options: Options,
                           server: (Request, nat) -> Attempt, m: Method)
    requires RetryBudget(options) > 0
    requires var req := BuildRequest(b, endpoint, options.(verb := m));
      server(req, 0).Responded? && server(req, 0).status >= 500 && server(req, 0).body.Json?
    ensures var r := ApiRequest(b, endpoint, options.(verb := m), server).run;
      r.attempts >= 2 && r.waits[0] == FIRST_DELAY_MS
  {
  }

  /** A 401 is never retried: the run ends in `Authentication failed` after
      one attempt, and in a browser the session is cleared and the page
      sent to `/login`. */
  lemma UnauthorizedNotRetried(b: Browser, endpoint: string, options: Options,
                               server: (Request, nat) -> Attempt)
    requires var req := BuildRequest(b, endpoint, options);
      server(req, 0).Responded? && server(req, 0).status == 401 && !server(req, 0).body.Unparsable?
    ensures var r := ApiRequest(b, endpoint, options, server);
      && r.run.attempts == 1 && r.run.outcome == Rejected(AUTH_FAILED)
      && (b.hasWindow <==> r.redirect == Some("/login"))
      && (b.hasWindow && b.clockMs > EPOCH_MS ==>
            Lookup(r.after.jar, AUTH_TOKEN) == None && Lookup(r.after.jar, USER_ROLE) == None)
  {
  }

  /** A timeout and a network failure are not retried either. */
  lemma TimeoutAndNetworkNotRetried(b: Browser, endpoint: string, options: Options,
                                    server: (Request, nat) -> Attempt)
    requires var req := BuildRequest(b, endpoint, options);
      server(req, 0).Aborted? || server(req, 0).NetworkFailure?
    ensures var r := ApiRequest(b, endpoint, options, server);
      && r.run.attempts == 1 && r.after == b
      && r.run.outcome == Rejected(if server(BuildRequest(b, endpoint, options), 0).Aborted?
                                   then TIMEOUT_ERROR else NETWORK_ERROR)
  {
  }

  /** With the default budget, a server that keeps failing with 5xx is
      called four times, after waits of 1000, 2000 and 4000 ms, and the last
      error is what the caller sees. */
  lemma DefaultScheduleOnPersistentFailure(b: Browser, endpoint: string, options: Options,
                                           server: (Request, nat) -> Attempt)
    requires options.retryAttempts.None?
    requires var req := BuildRequest(b, endpoint, options);
      forall k :: server(req, k).Responded? && server(req, k).status >= 500 && server(req, k).body.Json?
    ensures var r := ApiRequest(b, endpoint, options, server).run;
      && r.attempts == Config.RETRY_ATTEMPTS + 1
      && r.waits == [1000, 2000, 4000]
      && Retryable(r.outcome)
  {
    var req := BuildRequest(b, endpoint, options);
    var a := (n: nat) => Classify(server(req, n), options.showSuccessToast, options.successMessage);
    forall k: nat ensures Retryable(a(k).outcome) {
      assert server(req, k).Responded? && server(req, k).status >= 500 && server(req, k).body.Json?;
    }
    DefaultScheduleOf(a);
  }
}

=== FILE: authenticatedlayout.dfy ===
/** The decisions of `app/components/AuthenticatedLayout.tsx`, the wrapper
    of the client pages: which thunks its effects dispatch, the tab the
    pathname selects, when it sends the visitor to `/login`, what it
    renders, and where a tab button leads. */
module AuthenticatedLayout {
  import opened Wrappers
  import opened Roles
  import opened NavigationSlice
  import AuthSlice
  import Middleware

  /** The pathname to tab map of the tab effect; other paths keep the tab. */
  function TabForPath(pathname: string): (r: Option<Tab>)
    ensures r == Some(Plans) <==> pathname == "/plans"
    ensures r == Some(Schedule) <==> pathname == "/redeem"
    ensures r == Some(Profile) <==> pathname == "/profile"
  {
    if pathname == "/plans" then Some(Plans)
    else if pathname == "/redeem" then Some(Schedule)
    else if pathname == "/profile" then Some(Profile)
    else None
  }

  /** The route `handleTabChange` pushes; the profile tab leads admins to the
      admin profile page. */
  function RouteForTab(tab: Tab, userRole: Option<string>): (path: string)
    ensures tab == Profile && IsAdminRole(userRole) <==> path == "/admin/profile"
  {
    match tab
    case Schedule => "/redeem"
    case Profile => if IsAdminRole(userRole) then "/admin/profile" else "/profile"
    case Plans => "/" + "plans"
  }

  /** The role `user?.role` reads. */
  function UserRole(user: Option<AuthSlice.User>): (r: Option<string>)
    ensures r.Some? <==> user.Some?
    ensures user.Some? ==> r.value == user.value.role
  {
    if user.Some? then Some(user.value.role) else None
  }

  /** A tab button: the tab becomes active, then the route is pushed. */
  function HandleTabChange(nav: NavigationSlice.State, tab: Tab, user: Option<AuthSlice.User>): (r: (NavigationSlice.State, string))
    ensures r.0 == nav.(activeTab := tab)
    ensures r.1 == RouteForTab(tab, UserRole(user))
  {
    (Reduce(nav, SetActiveTab(tab)), RouteForTab(tab, UserRole(user)))
  }

  /** What one pass of the layout's effects does. */
  datatype EffectRun = EffectRun(
    checkAuth: bool,          // dispatches `checkAuthStatus`
    fetchProfile: bool,       // dispatches `fetchUserProfile`
    nav: NavigationSlice.State,
    redirectToLogin: bool,
    authChecked: bool)        // the component's `authChecked` afterwards

  /** The pages the layout lets a signed-out visitor see; the middleware
      guards none of them. */
  function IsPublic(pathname: string): (r: bool)
    ensures r ==> !Middleware.Matched(pathname)
  {
    var r := pathname == "/" || pathname == "/signup" || pathname == "/login";
    assert r ==> !Middleware.Matched(pathname) by {
      if pathname == "/signup" {
        assert pathname[..7][1] == 's' && "/admin/"[1] == 'a';
        assert |pathname| < |"/redeem/"|;
      }
    }
    r
  }

  /** The four effects on a render in which they run. React reruns an
      effect only when its dependencies change; here every effect runs. */
  function Effects(pathname: string, auth: AuthSlice.State, nav: NavigationSlice.State, authChecked: bool): (r: EffectRun)
    ensures r.checkAuth <==> auth.user.None? && !authChecked
    ensures r.authChecked <==> authChecked || auth.user.None?
    ensures r.fetchProfile <==> auth.isAuthenticated && auth.user.None?
    ensures TabForPath(pathname).Some? ==> r.nav == nav.(activeTab := TabForPath(pathname).value)
    ensures TabForPath(pathname).None? ==> r.nav == nav
    // The redirect effect sees `authChecked` as it was when the render began.
    ensures r.redirectToLogin <==> authChecked && !auth.loading && !auth.isAuthenticated && !IsPublic(pathname)
  {
    var checkAuth := auth.user.None? && !authChecked;
    var tab := TabForPath(pathname);
    EffectRun(
      checkAuth,
      auth.isAuthenticated && auth.user.None?,
      if tab.Some? then Reduce(nav, SetActiveTab(tab.value)) else nav,
      authChecked && !auth.loading && !auth.isAuthenticated
        && pathname != "/" && pathname != "/signup" && pathname != "/login",
      authChecked || checkAuth)
  }

  datatype View = PageLoader | Nothing | ChildrenWithTabs

  function Render(auth: AuthSlice.State): (v: View)
    ensures v == PageLoader <==> auth.loading
    ensures v == ChildrenWithTabs <==> !auth.loading && auth.isAuthenticated
  {
    if auth.loading then PageLoader
    else if !auth.isAuthenticated then Nothing
    else ChildrenWithTabs
  }

  // ---------------------------------------------------------------------
  // Properties

  /** The tab map and the route map agree: a tab's route selects that tab
      again, except the admin profile route, which leaves the client area;
      and every path that selects a tab is the route of that tab for a
      visitor who is not an admin. */
  lemma TabRouteRoundTrip(tab: Tab, userRole: Option<string>, pathname: string)
    ensures !(tab == Profile && IsAdminRole(userRole)) ==> TabForPath(RouteForTab(tab, userRole)) == Some(tab)
    ensures tab == Profile && IsAdminRole(userRole) ==> TabForPath(RouteForTab(tab, userRole)).None?
    ensures TabForPath(pathname) == Some(tab) && !IsAdminRole(userRole) ==> RouteForTab(tab, userRole) == pathname
  {
  }

  /** Whenever the layout sends the visitor to `/login` it renders nothing,
      and whenever it shows the pages it sends nobody anywhere. */
  lemma RedirectOnlyWhenBlank(pathname: string, auth: AuthSlice.State, nav: NavigationSlice.State, authChecked: bool)
    ensures Effects(pathname, auth, nav, authChecked).redirectToLogin ==> Render(auth) == Nothing
    ensures Render(auth) == ChildrenWithTabs ==> !Effects(pathname, auth, nav, authChecked).redirectToLogin
    ensures !authChecked ==> !Effects(pathname, auth, nav, authChecked).redirectToLogin
  {
  }

  /** The renders of one mount, as the store states the effects see, and
      the positions at which `checkAuthStatus` goes out. */
  function CheckDispatches(authChecked: bool, renders: seq<AuthSlice.State>): (r: seq<nat>)
    ensures |r| <= (if authChecked then 0 else 1)
    ensures forall k :: 0 <= k < |r| ==> r[k] < |renders| && renders[r[k]].user.None?
    decreases |renders|
  {
    if |renders| == 0 then []
    else
      var run := Effects("", renders[0], INITIAL, authChecked);
      var rest := CheckDispatches(run.authChecked, renders[1..]);
      if run.checkAuth then [0]
      else seq(|rest|, k requires 0 <= k < |rest| => rest[k] + 1)
  }

  /** `checkAuthStatus` goes out at most once per mount, only while no user
      is loaded, and it does go out, at the first render without a user,
      when there is one. */
  lemma {:induction false} CheckDispatchedOnce(renders: seq<AuthSlice.State>, i: nat)
    requires i < |renders| && renders[i].user.None?
    requires forall j :: 0 <= j < i ==> renders[j].user.Some?
    ensures CheckDispatches(false, renders) == [i]
    decreases i
  {
    if i > 0 {
      CheckDispatchedOnce(renders[1..], i - 1);
    }
  }

  lemma {:induction false} NoCheckWithUserLoaded(renders: seq<AuthSlice.State>)
    requires forall j :: 0 <= j < |renders| ==> renders[j].user.Some?
    ensures CheckDispatches(false, renders) == []
    decreases |renders|
  {
    if |renders| > 0 {
      NoCheckWithUserLoaded(renders[1..]);
    }
  }
}

=== FILE: authform.dfy ===
/** The validation of `app/components/AuthForm.tsx`, the shared sign-up and
    login form: the e-mail pattern, the password rule, the per-field error
    messages, what a valid submission hands on, and error clearing on
    edit. */
module AuthForm {
  import opened Wrappers
  import opened Text
  import opened Lists

  // ---------------------------------------------------------------------
  // The e-mail pattern `^[^\s@]+@[^\s@]+\.[^\s@]+$`

  /** A run of `[^\s@]`. */
  predicate Plain(t: string) {
    forall j :: 0 <= j < |t| ==> !IsJsWhitespace(t[j]) && t[j] != '@'
  }

  /** The pattern matches with `@` at `i` and the separating `.` at `k`:
      three non-empty plain runs around them. */
  predicate MatchesAt(s: string, i: int, k: int) {
    && 0 < i && i + 1 < k && k + 1 < |s|
    && s[i] == '@' && s[k] == '.'
    && Plain(s[..i]) && Plain(s[i + 1..k]) && Plain(s[k + 1..])
  }

  /** The language of the pattern. */
  ghost predicate EmailPattern(s: string) {
    exists i, k :: MatchesAt(s, i, k)
  }

  function IsAt(): char -> bool {
    (c: char) => c == '@'
  }

  /** `validateEmail`, stated as checks on the string: no white space,
      exactly one `@` and not in front, and a `.` in the domain that is
      neither its first nor its last character. */
  predicate ValidateEmail(s: string) {
    && !HasWhitespace(s)
    && var at := FindIndex(s, IsAt());
    && at.Some? && at.value > 0
    && (forall j :: at.value < j < |s| ==> s[j] != '@')
    && exists k :: at.value + 1 < k < |s| - 1 && s[k] == '.'
  }

  /** The checks and the pattern accept the same strings. */
  lemma ValidateEmailIsPattern(s: string)
    ensures ValidateEmail(s) <==> EmailPattern(s)
  {
    if ValidateEmail(s) {
      var i := FindIndex(s, IsAt()).value;
      var k :| i + 1 < k < |s| - 1 && s[k] == '.';
      assert MatchesAt(s, i, k);
    }
    if EmailPattern(s) {
      var i, k :| MatchesAt(s, i, k);
      assert s[..i][0] == s[0];
      forall j | 0 <= j < |s|
        ensures !IsJsWhitespace(s[j])
      {
        if j < i {
          assert s[j] == s[..i][j];
        } else if i < j < k {
          assert s[j] == s[i + 1..k][j - i - 1];
        } else if k < j {
          assert s[j] == s[k + 1..][j - k - 1];
        }
      }
      forall j | 0 <= j < i
        ensures !IsAt()(s[j])
      {
        assert s[j] == s[..i][j];
      }
      forall j | i < j < |s|
        ensures s[j] != '@'
      {
        if j < k {
          assert s[j] == s[i + 1..k][j - i - 1];
        } else if k < j {
          assert s[j] == s[k + 1..][j - k - 1];
        }
      }
      var at := FindIndex(s, IsAt());
      assert at == Some(i);
    }
  }

  /** Strings the pattern takes and refuses. */
  lemma EmailExamples(local: string, host: string, tld: string)
    requires |local| > 0 && |host| > 0 && |tld| > 0
    requires Plain(local) && Plain(host) && Plain(tld) && '.' !in host
    ensures EmailPattern(local + "@" + host + "." + tld)
    ensures !EmailPattern("@" + host + "." + tld)
    ensures !EmailPattern(local + "@" + host)
  {
    var s := local + "@" + host + "." + tld;
    var i, k := |local|, |local| + 1 + |host|;
    assert s[..i] == local;
    assert s[i + 1..k] == host;
    assert s[k + 1..] == tld;
    assert MatchesAt(s, i, k);
  }

  // ---------------------------------------------------------------------
  // The password rule

  predicate IsAsciiLetter(c: char) {
    'a' <= c <= 'z' || 'A' <= c <= 'Z'
  }

  /** `validatePassword`: at least eight characters, one of them a letter. */
  predicate ValidatePassword(password: string) {
    |password| >= 8 && exists j :: 0 <= j < |password| && IsAsciiLetter(password[j])
  }

  // ---------------------------------------------------------------------
  // The form

  datatype Mode = Signup | Login

  datatype Field = Name | Email | Password

  datatype FormData = FormData(name: string, email: string, password: string)

  datatype FormErrors = FormErrors(name: Option<string>, email: Option<string>, password: Option<string>)

  /** `Object.keys(newErrors).length === 0`: no field has an error. */
  predicate NoErrors(e: FormErrors) {
    e.name.None? && e.email.None? && e.password.None?
  }

  const NAME_REQUIRED := "Name is required"
  const EMAIL_REQUIRED := "Email is required"
  const EMAIL_INVALID := "Please enter a valid email address"
  const PASSWORD_REQUIRED := "Password is required"
  const PASSWORD_WEAK := "Password must be at least 8 characters with letters"

  /** `validateForm`: the e-mail is checked for blankness after trimming,
      but the pattern is applied to the untrimmed text. */
  function ValidateForm(mode: Mode, form: FormData): (e: FormErrors)
    ensures e.name == (if mode == Signup && Trim(form.name) == "" then Some(NAME_REQUIRED) else None)
    ensures Trim(form.email) == "" ==> e.email == Some(EMAIL_REQUIRED)
    ensures Trim(form.email) != "" ==> e.email == (if EmailPattern(form.email) then None else Some(EMAIL_INVALID))
    ensures form.password == "" ==> e.password == Some(PASSWORD_REQUIRED)
    ensures form.password != "" ==> e.password == (if ValidatePassword(form.password) then None else Some(PASSWORD_WEAK))
  {
    ValidateEmailIsPattern(form.email);
    FormErrors(
      if mode == Signup && Trim(form.name) == "" then Some(NAME_REQUIRED) else None,
      if Trim(form.email) == "" then Some(EMAIL_REQUIRED)
      else if !ValidateEmail(form.email) then Some(EMAIL_INVALID) else None,
      if form.password == "" then Some(PASSWORD_REQUIRED)
      else if !ValidatePassword(form.password) then Some(PASSWORD_WEAK) else None)
  }

  /** What `onSubmit` receives. */
  datatype Submission = Submission(name: Option<string>, email: string, password: string)

  /** `handleSubmit`: the errors found, and the submission when there are
      none. */
  function HandleSubmit(mode: Mode, form: FormData): (r: (FormErrors, Option<Submission>))
    ensures r.0 == ValidateForm(mode, form)
    ensures r.1.Some? <==> NoErrors(r.0)
    ensures r.1.Some? ==> r.1.value.email == form.email && r.1.value.password == form.password
    ensures r.1.Some? ==> r.1.value.name == (if mode == Signup then Some(form.name) else None)
  {
    var errors := ValidateForm(mode, form);
    if NoErrors(errors) then
      (errors, Some(if mode == Signup then Submission(Some(form.name), form.email, form.password)
                    else Submission(None, form.email, form.password)))
    else (errors, None)
  }

  /** `handleInputChange`: the field takes the value and loses its error;
      the other fields and errors stay. */
  function HandleInputChange(form: FormData, errors: FormErrors, field: Field, value: string): (r: (FormData, FormErrors))
    ensures field == Name ==> r.0 == form.(name := value) && r.1 == errors.(name := None)
    ensures field == Email ==> r.0 == form.(email := value) && r.1 == errors.(email := None)
    ensures field == Password ==> r.0 == form.(password := value) && r.1 == errors.(password := None)
  {
    match field
    case Name => (form.(name := value), if errors.name.Some? then errors.(name := None) else errors)
    case Email => (form.(email := value), if errors.email.Some? then errors.(email := None) else errors)
    case Password => (form.(password := value), if errors.password.Some? then errors.(password := None) else errors)
  }

  // ---------------------------------------------------------------------
  // Properties

  /** A submission goes out exactly when every field passes: a valid
      address, a strong password and, when signing up, a name. */
  lemma SubmitIffValid(mode: Mode, form: FormData)
    ensures HandleSubmit(mode, form).1.Some? <==>
      && (mode == Signup ==> Trim(form.name) != "")
      && Trim(form.email) != "" && EmailPattern(form.email)
      && ValidatePassword(form.password)
  {
  }

  /** The form's rule is stricter than the sign-up page's gate: a password
      the form accepts has at least eight characters, but eight digits pass
      the page and fail the form. */
  lemma PasswordRuleStricterThanSignupPage(p: string)
    ensures ValidatePassword(p) ==> |p| >= 8
    ensures !ValidatePassword("12345678")
  {
    var d := "12345678";
    assert forall j :: 0 <= j < |d| ==> !IsAsciiLetter(d[j]);
  }

  /** The e-mail pattern applies to the untrimmed text, so an address with
      a leading space passes the blank check and then fails the pattern. */
  lemma LeadingSpaceRejected(s: string)
    requires EmailPattern(s)
    ensures !EmailPattern(" " + s)
    ensures Trim(" " + s) != ""
  {
    var t := " " + s;
    forall i, k ensures !MatchesAt(t, i, k) {
      if 0 < i <= |t| {
        assert t[..i][0] == ' ';
      }
    }
    var i, k :| MatchesAt(s, i, k);
    assert t[i + 1] == '@' && !IsJsWhitespace('@');
    TrimEmptyIffBlank(t);
  }
}

=== FILE: authpages.dfy ===
/** The login page of `app/login/page.tsx`: where a visitor who already has
    a session is sent, and what the form submits. */
module LoginPage {
  import opened Wrappers
  import opened Values
  import opened Roles
  import opened Storage
  import AuthService
  import AuthSlice
  import Api

  /** The mount effect. The cookies decide when there is a token, and the
      store is then not consulted; otherwise a signed-in store with a user
      decides by the user's role; otherwise the visitor stays. */
  function PostAuthRedirect(b: Browser, auth: AuthSlice.State): (r: Option<string>)
    ensures TruthyStr(AuthService.GetAuthToken(b)) ==>
      r == Some(if IsAdminRole(AuthService.GetRole(b)) then "/admin/dashboard" else "/home")
    ensures !TruthyStr(AuthService.GetAuthToken(b)) && auth.isAuthenticated && auth.user.Some? ==>
      r == Some(if IsAdminRole(Some(auth.user.value.role)) then "/admin/dashboard" else "/home")
    ensures !TruthyStr(AuthService.GetAuthToken(b)) && !(auth.isAuthenticated && auth.user.Some?) ==> r.None?
  {
    var token := AuthService.GetAuthToken(b);
    var role := AuthService.GetRole(b);
    if TruthyStr(token) then
      var isAdmin := role == Some("admin") || role == Some("super_admin") || role == Some("owner");
      Some(if isAdmin then "/admin/dashboard" else "/home")
    else if auth.isAuthenticated && auth.user.Some? then
      var userRole := auth.user.value.role;
      var isAdmin := userRole == "admin" || userRole == "super_admin" || userRole == "owner";
      Some(if isAdmin then "/admin/dashboard" else "/home")
    else None
  }

  /** `handleInputChange`: the edited field takes the new value. */
  function HandleInputChange(form: map<string, string>, name: string, value: string): (r: map<string, string>)
    ensures r.Keys == form.Keys + {name} && r[name] == value
    ensures forall k :: k in form && k != name ==> r[k] == form[k]
  {
    Spread(form, map[name := value])
  }

  /** The form as the JSON object the thunk hands on. */
  function AsObject(form: map<string, string>): (r: Object)
    ensures r.Keys == form.Keys
    ensures forall k :: k in form ==> r[k] == VStr(form[k])
  {
    map k | k in form :: VStr(form[k])
  }

  /** `handleSubmit`: the `login` thunk calls the login endpoint with the
      form as it stands. */
  function Submit(form: map<string, string>): (r: (string, Api.Options))
    ensures r == AuthService.LoginRequest(AsObject(form))
    ensures r.1.body.Some? && forall k :: k in form && k != "business_id" ==> r.1.body.value[k] == VStr(form[k])
  {
    AuthService.LoginRequest(AsObject(form))
  }
}

/** The sign-up page of `app/signup/page.tsx`: the same redirect rule as
    the login page, and the password gate on the submit button. */
module SignupPage {
  import opened Wrappers
  import opened Values
  import opened Roles
  import opened Storage
  import AuthService
  import AuthSlice
  import Api
  import LoginPage
  import Middleware

  function PostAuthRedirect(b: Browser, auth: AuthSlice.State): (r: Option<string>)
    ensures TruthyStr(AuthService.GetAuthToken(b)) ==>
      r == Some(if IsAdminRole(AuthService.GetRole(b)) then "/admin/dashboard" else "/home")
    ensures !TruthyStr(AuthService.GetAuthToken(b)) && auth.isAuthenticated && auth.user.Some? ==>
      r == Some(if IsAdminRole(Some(auth.user.value.role)) then "/admin/dashboard" else "/home")
    ensures !TruthyStr(AuthService.GetAuthToken(b)) && !(auth.isAuthenticated && auth.user.Some?) ==> r.None?
  {
    var token := AuthService.GetAuthToken(b);
    var role := AuthService.GetRole(b);
    if TruthyStr(token) then
      Some(if role == Some("admin") || role == Some("super_admin") || role == Some("owner")
           then "/admin/dashboard" else "/home")
    else if auth.isAuthenticated && auth.user.Some? then
      var userRole := auth.user.value.role;
      Some(if userRole == "admin" || userRole == "super_admin" || userRole == "owner"
           then "/admin/dashboard" else "/home")
    else None
  }

  /** At least eight characters; unlike the shared auth form, no letter is
      needed. */
  predicate IsPasswordValid(password: string) {
    |password| >= 8
  }

  function SubmitDisabled(loading: bool, password: string): (r: bool)
    ensures !r <==> !loading && |password| >= 8
  {
    loading || !IsPasswordValid(password)
  }

  function HandleInputChange(form: map<string, string>, name: string, value: string): (r: map<string, string>)
    ensures r == LoginPage.HandleInputChange(form, name, value)
  {
    Spread(form, map[name := value])
  }

  /** `handleSubmit`: the `signup` thunk calls the sign-up endpoint with
      the form as it stands. */
  function Submit(form: map<string, string>): (r: (string, Api.Options))
    ensures r == AuthService.SignupRequest(LoginPage.AsObject(form))
    ensures r.1.body.Some? && forall k :: k in form && k != "business_id" ==> r.1.body.value[k] == VStr(form[k])
  {
    AuthService.SignupRequest(LoginPage.AsObject(form))
  }

  // ---------------------------------------------------------------------
  // Properties

  /** The two pages apply one rule. */
  lemma SameRuleAsLogin(b: Browser, auth: AuthSlice.State)
    ensures PostAuthRedirect(b, auth) == LoginPage.PostAuthRedirect(b, auth)
  {
  }

  /** The pages and the middleware disagree on where a signed-in visitor
      who is not an admin belongs: the middleware's rule for `/login` and
      `/signup` says `/plans`, the pages say `/home`.  Since the matcher
      does not cover those paths, the pages' rule is the one that runs. */
  lemma NonAdminLandingDiverges(b: Browser, auth: AuthSlice.State)
    requires TruthyStr(AuthService.GetAuthToken(b)) && !IsAdminRole(AuthService.GetRole(b))
    ensures PostAuthRedirect(b, auth) == Some("/home")
    ensures LoginPage.PostAuthRedirect(b, auth) == Some("/home")
    ensures Middleware.Middleware("/login", AuthService.GetAuthToken(b), AuthService.GetRole(b)) == Middleware.Redirect("/plans")
    ensures Middleware.Effective("/login", AuthService.GetAuthToken(b), AuthService.GetRole(b)) == Middleware.Next
    ensures Middleware.Effective("/signup", AuthService.GetAuthToken(b), AuthService.GetRole(b)) == Middleware.Next
  {
    Middleware.UnmatchedBranchesNeverRun(AuthService.GetAuthToken(b), AuthService.GetRole(b));
  }

  /** Admins land on the dashboard on every route. */
  lemma AdminLandingAgrees(b: Browser, auth: AuthSlice.State)
    requires TruthyStr(AuthService.GetAuthToken(b)) && IsAdminRole(AuthService.GetRole(b))
    ensures PostAuthRedirect(b, auth) == Some("/admin/dashboard")
    ensures Middleware.Middleware("/signup", AuthService.GetAuthToken(b), AuthService.GetRole(b)) == Middleware.Redirect("/admin/dashboard")
  {
  }

  /** A token cookie settles the redirect whatever the store says. */
  lemma StoreIgnoredWithToken(b: Browser, auth1: AuthSlice.State, auth2: AuthSlice.State)
    requires TruthyStr(AuthService.GetAuthToken(b))
    ensures PostAuthRedirect(b, auth1) == PostAuthRedirect(b, auth2)
    ensures LoginPage.PostAuthRedirect(b, auth1) == LoginPage.PostAuthRedirect(b, auth2)
  {
  }
}

=== FILE: authservice.dfy ===
/** `AuthService` of `app/services/authService.ts`: the session token and
    role kept in cookies, and the payloads of the sign-up and login calls. */
module AuthService {
  import opened Wrappers
  import opened Values
  import opened Storage
  import opened CookieLemmas
  import Api
  import Config

  /** The token lives for seven days. */
  const TOKEN_DAYS := 7

  /** `{ ...data, business_id: BUSINESS_ID }`. */
  function WithBusinessId(data: Object): (r: Object)
    ensures r.Keys == data.Keys + {"business_id"}
    ensures r["business_id"] == VStr(Config.BUSINESS_ID)
    ensures forall k :: k in data && k != "business_id" ==> r[k] == data[k]
  {
    Spread(data, map["business_id" := VStr(Config.BUSINESS_ID)])
  }

  /** `signup(data)`: a POST of the caller's fields and the business id. */
  function SignupRequest(data: Object): (r: (string, Api.Options))
    ensures r.0 == Config.SIGNUP_ENDPOINT
    ensures r.1.verb == Api.POST && r.1.body == Some(WithBusinessId(data))
    ensures r.1.retryAttempts.None? && r.1.headers.None?
  {
    (Config.SIGNUP_ENDPOINT, Api.ApiPost(Some(WithBusinessId(data)), Api.NO_OPTIONS))
  }

  /** `login(data)`: the same shape, to the login endpoint. */
  function LoginRequest(data: Object): (r: (string, Api.Options))
    ensures r.0 == Config.LOGIN_ENDPOINT
    ensures r.1.verb == Api.POST && r.1.body == Some(WithBusinessId(data))
    ensures r.1.retryAttempts.None? && r.1.headers.None?
  {
    (Config.LOGIN_ENDPOINT, Api.ApiPost(Some(WithBusinessId(data)), Api.NO_OPTIONS))
  }

  /** `setAuthToken(token)`: a seven-day token cookie, and the PWA prompt
      may show again. */
  function SetAuthToken(b: Browser, token: string): (r: Browser)
    ensures b.hasWindow ==> Lookup(r.jar, AUTH_TOKEN) == Some(StoredValue(token))
    ensures b.hasWindow && ValidValue(token) ==> Lookup(r.jar, AUTH_TOKEN) == Some(token)
    ensures forall n :: n != AUTH_TOKEN ==> Lookup(r.jar, n) == Lookup(b.jar, n)
    ensures b.hasWindow ==> r.local == b.local - {PWA_INSTALL_DISMISSED}
    ensures r.session == b.session
    ensures !b.hasWindow ==> r == b
    ensures r.hasWindow == b.hasWindow
    ensures WellFormed(b.jar) ==> WellFormed(r.jar)
  {
    SessionNamesValid();
    var c := SetCookie(b, AUTH_TOKEN, token, TOKEN_DAYS);
    if b.hasWindow then c.(local := c.local - {PWA_INSTALL_DISMISSED}) else c
  }

  /** `setRole(role)`: a seven-day role cookie and nothing else. */
  function SetRole(b: Browser, role: string): (r: Browser)
    ensures b.hasWindow ==> Lookup(r.jar, USER_ROLE) == Some(StoredValue(role))
    ensures b.hasWindow && ValidValue(role) ==> Lookup(r.jar, USER_ROLE) == Some(role)
    ensures forall n :: n != USER_ROLE ==> Lookup(r.jar, n) == Lookup(b.jar, n)
    ensures r.local == b.local && r.session == b.session
    ensures !b.hasWindow ==> r == b
    ensures r.hasWindow == b.hasWindow && r.clockMs == b.clockMs
    ensures WellFormed(b.jar) ==> WellFormed(r.jar)
  {
    SessionNamesValid();
    SetCookie(b, USER_ROLE, role, TOKEN_DAYS)
  }

  /** `getRole()`: nothing without a window; otherwise what `getCookie`
      parses, which for a well-formed store is the stored role. */
  function GetRole(b: Browser): (r: Option<string>)
    ensures !b.hasWindow ==> r == None
    ensures b.hasWindow && WellFormed(b.jar) ==> r == Lookup(b.jar, USER_ROLE)
  {
    assert b.hasWindow && WellFormed(b.jar) ==> ReadCookie(b, USER_ROLE) == Lookup(b.jar, USER_ROLE) by {
      if b.hasWindow && WellFormed(b.jar) {
        SessionNamesValid();
        ReadCookieIsLookup(b, USER_ROLE);
      }
    }
    ReadCookie(b, USER_ROLE)
  }

  /** `getAuthToken()`: nothing without a window; otherwise what
      `getCookie` parses, which for a well-formed store is the stored token. */
  function GetAuthToken(b: Browser): (r: Option<string>)
    ensures !b.hasWindow ==> r == None
    ensures b.hasWindow && WellFormed(b.jar) ==> r == Lookup(b.jar, AUTH_TOKEN)
  {
    assert b.hasWindow && WellFormed(b.jar) ==> ReadCookie(b, AUTH_TOKEN) == Lookup(b.jar, AUTH_TOKEN) by {
      if b.hasWindow && WellFormed(b.jar) {
        SessionNamesValid();
        ReadCookieIsLookup(b, AUTH_TOKEN);
      }
    }
    ReadCookie(b, AUTH_TOKEN)
  }

  function RemoveRole(b: Browser): (r: Browser)
    ensures b.hasWindow && b.clockMs > EPOCH_MS ==> Lookup(r.jar, USER_ROLE) == None
    ensures forall n :: n != USER_ROLE ==> Lookup(r.jar, n) == Lookup(b.jar, n)
    ensures r.local == b.local && r.session == b.session
    ensures r.hasWindow == b.hasWindow && r.clockMs == b.clockMs
    ensures WellFormed(b.jar) ==> WellFormed(r.jar)
  {
    SessionNamesValid();
    RemoveCookie(b, USER_ROLE)
  }

  /** `removeAuthToken()`: both the token and the role cookie go. */
  function RemoveAuthToken(b: Browser): (r: Browser)
    ensures b.hasWindow && b.clockMs > EPOCH_MS ==>
      Lookup(r.jar, AUTH_TOKEN) == None && Lookup(r.jar, USER_ROLE) == None
    ensures forall n :: n != AUTH_TOKEN && n != USER_ROLE ==> Lookup(r.jar, n) == Lookup(b.jar, n)
    ensures r.local == b.local && r.session == b.session
    ensures !b.hasWindow ==> r == b
    ensures r.hasWindow == b.hasWindow
    ensures WellFormed(b.jar) ==> WellFormed(r.jar)
  {
    SessionNamesValid();
    RemoveRole(RemoveCookie(b, AUTH_TOKEN))
  }

  /** `logout()`: no request, only the local session is dropped: both
      session cookies go, and every other cookie and web storage stay. */
  function Logout(b: Browser): (r: Browser)
    ensures b.hasWindow && b.clockMs > EPOCH_MS ==>
      Lookup(r.jar, AUTH_TOKEN) == None && Lookup(r.jar, USER_ROLE) == None
    ensures forall n :: n != AUTH_TOKEN && n != USER_ROLE ==> Lookup(r.jar, n) == Lookup(b.jar, n)
    ensures r.local == b.local && r.session == b.session
    ensures !b.hasWindow ==> r == b
    ensures WellFormed(b.jar) ==> WellFormed(r.jar)
  {
    RemoveAuthToken(b)
  }

  /** `!!getAuthToken()`: never without a window, and for a well-formed
      store exactly when it holds a non-empty token. */
  function IsAuthenticated(b: Browser): (r: bool)
    ensures !b.hasWindow ==> !r
    ensures WellFormed(b.jar) ==>
      (r <==> b.hasWindow && Lookup(b.jar, AUTH_TOKEN).Some? && Lookup(b.jar, AUTH_TOKEN).value != "")
  {
    TruthyStr(GetAuthToken(b))
  }

  // ---------------------------------------------------------------------
  // Properties

  /** Signed in exactly when the store holds a non-empty token. */
  lemma IsAuthenticatedIffToken(b: Browser)
    requires WellFormed(b.jar)
    ensures IsAuthenticated(b) <==>
      b.hasWindow && Lookup(b.jar, AUTH_TOKEN).Some? && Lookup(b.jar, AUTH_TOKEN).value != ""
  {
    if b.hasWindow {
      ReadCookieIsLookup(b, AUTH_TOKEN);
    }
  }

  /** Storing a token signs in exactly when what the browser keeps of it
      is non-empty (for a valid token: when the token is non-empty), and
      leaves the role that reads back unchanged. */
  lemma SetAuthTokenSignsIn(b: Browser, token: string)
    requires b.hasWindow && WellFormed(b.jar)
    ensures IsAuthenticated(SetAuthToken(b, token)) <==> StoredValue(token) != ""
    ensures ValidValue(token) ==> (IsAuthenticated(SetAuthToken(b, token)) <==> token != "")
    ensures GetRole(SetAuthToken(b, token)) == GetRole(b)
  {
    var r := SetAuthToken(b, token);
    StoredValueFixesValid(token);
    ReadCookieIsLookup(r, AUTH_TOKEN);
    ReadCookieIsLookup(r, USER_ROLE);
    ReadCookieIsLookup(b, USER_ROLE);
  }

  /** After logout (or `removeAuthToken`) neither the token nor the role
      reads back and the visitor is signed out. */
  lemma LogoutSignsOut(b: Browser)
    requires b.hasWindow && b.clockMs > EPOCH_MS && WellFormed(b.jar)
    ensures !IsAuthenticated(Logout(b))
    ensures GetAuthToken(Logout(b)) == None && GetRole(Logout(b)) == None
  {
    var r := Logout(b);
    ReadCookieIsLookup(r, AUTH_TOKEN);
    ReadCookieIsLookup(r, USER_ROLE);
  }

  /** The caller cannot choose the business: its own `business_id` is
      overridden. */
  lemma BusinessIdOverridden(data: Object, v: Value)
    ensures WithBusinessId(data["business_id" := v]) == WithBusinessId(data)
  {
  }
}

=== FILE: authslice.dfy ===
/** The reducer of `app/store/slices/authSlice.ts`, and the parts of its
    `checkAuthStatus` and `logout` thunks that decide something.  Values the
    reducer reads from outside at reduce time (the role cookie and
    `Date.now()`) travel in the action. */
module AuthSlice {
  import opened Wrappers
  import opened Values
  import opened Storage
  import AuthService

  datatype User = User(id: int, createdAt: int, name: string, email: string,
                       squareCustomerId: string, role: string)

  datatype State = State(
    isAuthenticated: bool,
    user: Option<User>,
    loading: bool,
    error: Option<string>,
    token: Option<string>)

  const INITIAL := State(false, None, false, None, None)

  /** The optional `user` object of an auth response. */
  datatype ResponseUser = ResponseUser(id: Option<int>, name: Option<string>, email: Option<string>)

  /** `AuthResponse`: the token, and name and email either nested under
      `user` or at the top level. */
  datatype AuthResponse = AuthResponse(
    authToken: Option<string>,
    user: Option<ResponseUser>,
    name: Option<string>,
    email: Option<string>)

  datatype Action =
    | ClearError
    | UpdateUser(profile: User)
    | SetToken(value: string)
    | ClearAuth
    | LoginPending
    | LoginFulfilled(response: AuthResponse, roleCookie: Option<string>, nowMs: int)
    | LoginRejected(message: string)
    | SignupPending
    | SignupFulfilled(response: AuthResponse, roleCookie: Option<string>, nowMs: int)
    | SignupRejected(message: string)
    | FetchProfilePending
    | FetchProfileFulfilled(profile: User)
    | FetchProfileRejected(message: string)
    | LogoutPending
    | LogoutFulfilled
    | LogoutRejected
    | CheckAuthPending
    | CheckAuthFulfilled
    | CheckAuthRejected

  const DEFAULT_ROLE := "customer"

  /** `x || 0` on an optional number. */
  function IdOrZero(id: Option<int>): (r: int)
    ensures id.Some? && id.value != 0 ==> r == id.value
    ensures id.None? || id.value == 0 ==> r == 0
  {
    if id.Some? && id.value != 0 then id.value else 0
  }

  /** The user a successful login or sign-up stores: id, name and email from
      `user`, then from the top level, then a default; the role from the
      role cookie, defaulting to `customer`. */
  function UserFromResponse(response: AuthResponse, roleCookie: Option<string>, nowMs: int): (u: User)
    ensures u.role == (if TruthyStr(roleCookie) then roleCookie.value else DEFAULT_ROLE)
    ensures u.name == OrElse(if response.user.Some? then response.user.value.name else None,
                             OrElse(response.name, ""))
    ensures u.email == OrElse(if response.user.Some? then response.user.value.email else None,
                              OrElse(response.email, ""))
    ensures u.id == IdOrZero(if response.user.Some? then response.user.value.id else None)
    ensures u.createdAt == nowMs && u.squareCustomerId == ""
  {
    var nested := response.user;
    User(
      IdOrZero(if nested.Some? then nested.value.id else None),
      nowMs,
      OrElse(if nested.Some? then nested.value.name else None, OrElse(response.name, "")),
      OrElse(if nested.Some? then nested.value.email else None, OrElse(response.email, "")),
      "",
      OrElse(roleCookie, DEFAULT_ROLE))
  }

  /** The state every successful logout, and every failed one, leaves. */
  function SignedOut(s: State): (r: State)
    ensures !r.isAuthenticated && r.user.None? && r.token.None? && r.error.None?
    ensures !r.loading
  {
    s.(loading := false, isAuthenticated := false, user := None, token := None, error := None)
  }

  function Reduce(s: State, a: Action): (r: State)
    // Pending: login and sign-up clear the error, the others only set loading.
    ensures a.LoginPending? || a.SignupPending? ==> r == s.(loading := true, error := None)
    ensures a.FetchProfilePending? || a.LogoutPending? || a.CheckAuthPending? ==> r == s.(loading := true)
    // Fulfilled login or sign-up: signed in with the response's token.
    ensures a.LoginFulfilled? || a.SignupFulfilled? ==>
      && !r.loading && r.isAuthenticated && r.token == a.response.authToken
      && r.user == Some(UserFromResponse(a.response, a.roleCookie, a.nowMs))
      && r.error == s.error
    // Rejected: the message is the error, the session is untouched.
    ensures a.LoginRejected? || a.SignupRejected? || a.FetchProfileRejected? ==>
      && !r.loading && r.error == Some(a.message)
      && r.isAuthenticated == s.isAuthenticated && r.token == s.token && r.user == s.user
    ensures a.FetchProfileFulfilled? ==> r == s.(loading := false, user := Some(a.profile))
    ensures a.LogoutFulfilled? || a.LogoutRejected? ==> r == SignedOut(s)
    ensures a.CheckAuthFulfilled? ==> r == s.(loading := false, isAuthenticated := true)
    ensures a.CheckAuthRejected? ==>
      !r.loading && !r.isAuthenticated && r.user.None? && r.token.None? && r.error == s.error
    ensures a.ClearAuth? ==>
      !r.isAuthenticated && r.user.None? && r.token.None? && r.error.None? && r.loading == s.loading
    ensures a.SetToken? ==> r == s.(token := Some(a.value), isAuthenticated := true)
    ensures a.ClearError? ==> r == s.(error := None)
    ensures a.UpdateUser? ==> r == s.(user := Some(a.profile))
  {
    match a
    case ClearError => s.(error := None)
    case UpdateUser(profile) => s.(user := Some(profile))
    case SetToken(value) => s.(token := Some(value), isAuthenticated := true)
    case ClearAuth => s.(isAuthenticated := false, user := None, token := None, error := None)
    case LoginPending => s.(loading := true, error := None)
    case LoginFulfilled(response, roleCookie, nowMs) =>
      s.(loading := false, isAuthenticated := true, token := response.authToken,
         user := Some(UserFromResponse(response, roleCookie, nowMs)))
    case LoginRejected(message) => s.(loading := false, error := Some(message))
    case SignupPending => s.(loading := true, error := None)
    case SignupFulfilled(response, roleCookie, nowMs) =>
      s.(loading := false, isAuthenticated := true, token := response.authToken,
         user := Some(UserFromResponse(response, roleCookie, nowMs)))
    case SignupRejected(message) => s.(loading := false, error := Some(message))
    case FetchProfilePending => s.(loading := true)
    case FetchProfileFulfilled(profile) => s.(loading := false, user := Some(profile))
    case FetchProfileRejected(message) => s.(loading := false, error := Some(message))
    case LogoutPending => s.(loading := true)
    case LogoutFulfilled => SignedOut(s)
    case LogoutRejected => SignedOut(s)
    case CheckAuthPending => s.(loading := true)
    case CheckAuthFulfilled => s.(loading := false, isAuthenticated := true)
    case CheckAuthRejected => s.(loading := false, isAuthenticated := false, user := None, token := None)
  }

  function ReduceAll(s: State, actions: seq<Action>): State
    decreases |actions|
  {
    if |actions| == 0 then s else ReduceAll(Reduce(s, actions[0]), actions[1..])
  }

  // ---------------------------------------------------------------------
  // The thunks

  /** `checkAuthStatus`: with a token, a placeholder profile carrying the
      role cookie (or `customer`); without one, a rejection. */
  function CheckAuthStatus(b: Browser, nowMs: int): (r: Result<User, string>)
    ensures r.Success? <==> TruthyStr(AuthService.GetAuthToken(b))
    ensures r.Success? ==>
      r.value == User(0, nowMs, "", "", "",
                      if TruthyStr(AuthService.GetRole(b)) then AuthService.GetRole(b).value else DEFAULT_ROLE)
    ensures r.Failure? ==> r.error == "No token found"
  {
    var token := AuthService.GetAuthToken(b);
    var role := AuthService.GetRole(b);
    if TruthyStr(token) then Success(User(0, nowMs, "", "", "", OrElse(role, DEFAULT_ROLE)))
    else Failure("No token found")
  }

  /** The actions one dispatch of `checkAuthStatus` produces: the pending
      case, then `updateUser` and the fulfilled case, or the rejection. */
  function CheckAuthActions(b: Browser, nowMs: int): (r: seq<Action>)
    ensures |r| >= 2 && r[0] == CheckAuthPending
  {
    match CheckAuthStatus(b, nowMs)
    case Success(profile) => [CheckAuthPending, UpdateUser(profile), CheckAuthFulfilled]
    case Failure(_) => [CheckAuthPending, CheckAuthRejected]
  }

  /** `logout`: the session is dropped whether or not anything fails, so
      the thunk always fulfils. */
  function LogoutThunk(b: Browser): (r: (Browser, Action))
    ensures r.1 == LogoutFulfilled
    ensures b.hasWindow && b.clockMs > EPOCH_MS && WellFormed(b.jar) ==>
      !AuthService.IsAuthenticated(r.0) && AuthService.GetRole(r.0) == None
    ensures forall n :: n != AUTH_TOKEN && n != USER_ROLE ==> Lookup(r.0.jar, n) == Lookup(b.jar, n)
    ensures !b.hasWindow ==> r.0 == b
  {
    var after := AuthService.Logout(b);
    assert b.hasWindow && b.clockMs > EPOCH_MS && WellFormed(b.jar) ==>
      !AuthService.IsAuthenticated(after) && AuthService.GetRole(after) == None
    by {
      if b.hasWindow && b.clockMs > EPOCH_MS && WellFormed(b.jar) {
        AuthService.LogoutSignsOut(b);
      }
    }
    (after, LogoutFulfilled)
  }

  // ---------------------------------------------------------------------
  // Properties

  /** A token in the store always comes with the signed-in flag: every
      action that sets a token also sets the flag, and every action that
      clears the flag also clears the token. */
  predicate TokenImpliesAuthenticated(s: State) {
    s.token.Some? ==> s.isAuthenticated
  }

  lemma {:induction false} TokenImpliesAuthenticatedInvariant(s: State, actions: seq<Action>)
    requires TokenImpliesAuthenticated(s)
    ensures TokenImpliesAuthenticated(ReduceAll(s, actions))
    decreases |actions|
  {
    if |actions| > 0 {
      TokenImpliesAuthenticatedInvariant(Reduce(s, actions[0]), actions[1..]);
    }
  }

  /** Logout ends in the same state whether the thunk fulfils or rejects. */
  lemma LogoutOutcomeIrrelevant(s: State)
    ensures Reduce(Reduce(s, LogoutPending), LogoutFulfilled) == Reduce(Reduce(s, LogoutPending), LogoutRejected)
    ensures Reduce(Reduce(s, LogoutPending), LogoutFulfilled) == SignedOut(s)
  {
  }

  /** A check with a token signs the store in with the placeholder profile;
      one without a token signs it out, whatever came before. */
  lemma CheckAuthOutcome(s: State, b: Browser, nowMs: int)
    ensures var r := ReduceAll(s, CheckAuthActions(b, nowMs));
      && !r.loading
      && (r.isAuthenticated <==> TruthyStr(AuthService.GetAuthToken(b)))
      && (r.isAuthenticated ==> r.user == Some(CheckAuthStatus(b, nowMs).value) && r.token == s.token)
      && (!r.isAuthenticated ==> r.user.None? && r.token.None?)
  {
    var acts := CheckAuthActions(b, nowMs);
    var s1 := Reduce(s, CheckAuthPending);
    if TruthyStr(AuthService.GetAuthToken(b)) {
      var p := CheckAuthStatus(b, nowMs).value;
      assert acts == [CheckAuthPending, UpdateUser(p), CheckAuthFulfilled];
      var s2 := Reduce(s1, UpdateUser(p));
      var s3 := Reduce(s2, CheckAuthFulfilled);
      assert ReduceAll(s3, []) == s3;
      assert ReduceAll(s2, [CheckAuthFulfilled]) == s3;
      assert ReduceAll(s1, [UpdateUser(p), CheckAuthFulfilled]) == s3;
    } else {
      assert acts == [CheckAuthPending, CheckAuthRejected];
      var s2 := Reduce(s1, CheckAuthRejected);
      assert ReduceAll(s2, []) == s2;
      assert ReduceAll(s1, [CheckAuthRejected]) == s2;
    }
  }

  /** The user name falls back from `user.name` to the top-level `name`
      and then to the empty string; an empty name counts as missing. */
  lemma NameFallback(token: Option<string>, nested: string, top: string, role: Option<string>, now: int)
    ensures UserFromResponse(AuthResponse(token, Some(ResponseUser(None, Some(nested), None)), Some(top), None), role, now).name
            == if nested != "" then nested else top
    ensures UserFromResponse(AuthResponse(token, None, None, None), role, now).name == ""
    ensures UserFromResponse(AuthResponse(token, None, None, None), role, now).id == 0
    ensures UserFromResponse(AuthResponse(token, None, None, None), None, now).role == DEFAULT_ROLE
  {
  }
}

=== FILE: authutils.dfy ===
/** `handleAuthError` of `app/utils/authUtils.ts`: recognise an
    authentication failure, drop the token and send the visitor to a login
    page. */
module AuthUtils {
  import opened Wrappers
  import opened Text
  import opened Storage
  import opened CookieLemmas

  /** The fields of the thrown value the check reads; `None` stands for a
      missing field, a missing error, or a value of another type. */
  datatype ErrorInfo = ErrorInfo(
    status: Option<int>,
    message: Option<string>,
    responseStatus: Option<int>,
    statusCode: Option<int>)

  /** The key both web storage areas are cleaned of. */
  const AUTH_TOKEN_KEY := "authToken"

  datatype Handling =
    | NotHandled
    | Handled(after: Browser, redirect: string)
      /** With no `window` the redirect itself throws a ReferenceError. */
    | ReferenceError

  /** The 401 test of `handleAuthError`: a 401 in any of the three status
      fields, or the text `401` at any position of the message. */
  function IsAuthError(e: ErrorInfo): (r: bool)
    ensures e.status == Some(401) || e.responseStatus == Some(401) || e.statusCode == Some(401) ==> r
    ensures forall k :: e.message.Some? && 0 <= k <= |e.message.value| - 3 && OccursAt(e.message.value, "401", k) ==> r
    ensures r && e.message.None? ==> e.status == Some(401) || e.responseStatus == Some(401) || e.statusCode == Some(401)
  {
    || e.status == Some(401)
    || (e.message.Some? && Contains(e.message.value, "401"))
    || e.responseStatus == Some(401)
    || e.statusCode == Some(401)
  }

  function HandleAuthError(b: Browser, e: ErrorInfo, isAdmin: bool := false): (r: Handling)
    ensures r.NotHandled? <==> !IsAuthError(e)
    ensures r.ReferenceError? <==> IsAuthError(e) && !b.hasWindow
    ensures r.Handled? ==> r.redirect == (if isAdmin then "/login" else "/signup")
    ensures r.Handled? ==>
      && (b.clockMs > EPOCH_MS ==> Lookup(r.after.jar, AUTH_TOKEN) == None)
      && Lookup(r.after.jar, USER_ROLE) == Lookup(b.jar, USER_ROLE)
      && (forall n :: n != AUTH_TOKEN ==> Lookup(r.after.jar, n) == Lookup(b.jar, n))
      && r.after.local == b.local - {AUTH_TOKEN_KEY}
      && r.after.session == b.session - {AUTH_TOKEN_KEY}
  {
    if !IsAuthError(e) then NotHandled
    else if !b.hasWindow then ReferenceError
    else
      var cleared := Write(b, RemoveCookieWrite(AUTH_TOKEN));
      var after := cleared.(local := cleared.local - {AUTH_TOKEN_KEY},
                            session := cleared.session - {AUTH_TOKEN_KEY});
      Handled(after, if isAdmin then "/login" else "/signup")
  }

  /** A handled 401 leaves a well-formed store in a browser. */
  lemma HandledStoreWellFormed(b: Browser, e: ErrorInfo, isAdmin: bool)
    requires b.hasWindow && WellFormed(b.jar) && IsAuthError(e)
    ensures HandleAuthError(b, e, isAdmin).Handled?
    ensures HandleAuthError(b, e, isAdmin).after.hasWindow
    ensures WellFormed(HandleAuthError(b, e, isAdmin).after.jar)
  {
    var w := RemoveCookieWrite(AUTH_TOKEN);
    assert ValidName(w.name) && ValidValue(w.value);
    assert HandleAuthError(b, e, isAdmin).after.jar == Apply(b.jar, w, b.clockMs);
  }

  /** `handleAuthError` returns true exactly for a 401, however the 401 is
      reported, and the token it removes no longer reads back. */
  lemma HandledIffUnauthorized(b: Browser, e: ErrorInfo, isAdmin: bool)
    requires b.hasWindow && b.clockMs > EPOCH_MS && WellFormed(b.jar)
    ensures HandleAuthError(b, e, isAdmin).Handled? <==> IsAuthError(e)
    ensures HandleAuthError(b, e, isAdmin).Handled? ==>
      ReadCookie(HandleAuthError(b, e, isAdmin).after, AUTH_TOKEN) == None
  {
    if IsAuthError(e) {
      HandledStoreWellFormed(b, e, isAdmin);
      ReadCookieIsLookup(HandleAuthError(b, e, isAdmin).after, AUTH_TOKEN);
    }
  }

  /** The role cookie survives: a handled 401 leaves a signed-out visitor
      whose role still reads back. */
  lemma RoleSurvivesAuthError(b: Browser, e: ErrorInfo, isAdmin: bool)
    requires b.hasWindow && WellFormed(b.jar) && IsAuthError(e)
    ensures ReadCookie(HandleAuthError(b, e, isAdmin).after, USER_ROLE) == ReadCookie(b, USER_ROLE)
  {
    HandledStoreWellFormed(b, e, isAdmin);
    ReadCookieIsLookup(HandleAuthError(b, e, isAdmin).after, USER_ROLE);
    ReadCookieIsLookup(b, USER_ROLE);
  }

  /** A 401 reported only in the message text is recognised too. */
  lemma MessageWith401Handled(b: Browser, prefix: string, suffix: string)
    requires b.hasWindow
    ensures HandleAuthError(b, ErrorInfo(None, Some(prefix + "401" + suffix), None, None)).Handled?
  {
    var m := prefix + "401" + suffix;
    assert OccursAt(m, "401", |prefix|) by {
      assert m[|prefix|..|prefix| + 3] == "401";
    }
  }
}

=== FILE: config.dfy ===
/** Constants of `app/config/api.ts` the core uses, with their built-in
    defaults (the environment overrides are not modelled). */
module Config {
  const BUSINESS_ID := "13520775-cf07-4224-8bd9-999c8ddf850b"
  /** Milliseconds before a request is aborted. */
  const TIMEOUT_MS := 10000
  /** Retries after the first attempt. */
  const RETRY_ATTEMPTS := 3

  const HTTP_UNAUTHORIZED := 401

  const SIGNUP_ENDPOINT := "/auth/signup"
  const LOGIN_ENDPOINT := "/auth/login"
  const UPDATE_PROFILE_ENDPOINT := "/auth/user/update"
  const CREATE_SUBSCRIPTION_ENDPOINT := "/subscription/user/create-a-subscription"
}

=== FILE: lists.dfy ===
/** Array operations the application leans on: `findIndex`, replacing the
    first element that matches, `filter`, counting and summing. */
module Lists {
  import opened Wrappers

  /** `findIndex`: the position of the first element that satisfies `p`. */
  function FindIndex<T>(s: seq<T>, p: T -> bool): (r: Option<nat>)
    ensures r.Some? ==> r.value < |s| && p(s[r.value])
    ensures r.Some? ==> forall j :: 0 <= j < r.value ==> !p(s[j])
    ensures r.None? ==> forall j :: 0 <= j < |s| ==> !p(s[j])
    decreases |s|
  {
    if |s| == 0 then None
    else if p(s[0]) then Some(0)
    else
      var rest := FindIndex(s[1..], p);
      if rest.Some? then Some(rest.value + 1) else None
  }

  /** The first element that `matches` is replaced by `x`; with no match
      the sequence is unchanged. */
  function ReplaceFirst<T>(s: seq<T>, matches: T -> bool, x: T): (r: seq<T>)
    ensures |r| == |s|
    // Only a matching element can change, and only into `x`.
    ensures forall j :: 0 <= j < |s| && !matches(s[j]) ==> r[j] == s[j]
    ensures forall j :: 0 <= j < |s| && r[j] != s[j] ==> r[j] == x
    // The first match is replaced ...
    ensures forall j :: 0 <= j < |s| && matches(s[j]) && (forall k :: 0 <= k < j ==> !matches(s[k])) ==> r[j] == x
    // ... and everything after it is left alone.
    ensures forall j, k :: 0 <= j < k < |s| && matches(s[j]) ==> r[k] == s[k]
    decreases |s|
  {
    if |s| == 0 then []
    else if matches(s[0]) then [x] + s[1..]
    else
      var rest := ReplaceFirst(s[1..], matches, x);
      assert forall j :: 1 <= j <= |rest| ==> ([s[0]] + rest)[j] == rest[j - 1];
      [s[0]] + rest
  }

  /** `filter`, keeping order. */
  function Filter<T>(s: seq<T>, p: T -> bool): (r: seq<T>)
    ensures |r| <= |s|
    ensures forall j :: 0 <= j < |r| ==> r[j] in s && p(r[j])
    ensures forall j :: 0 <= j < |s| && p(s[j]) ==> s[j] in r
    decreases |s|
  {
    if |s| == 0 then []
    else if p(s[0]) then [s[0]] + Filter(s[1..], p)
    else Filter(s[1..], p)
  }

  /** `filter(p).length`. */
  function Count<T>(s: seq<T>, p: T -> bool): (n: nat)
    ensures n <= |s|
  {
    |Filter(s, p)|
  }

  /** `reduce((sum, x) => sum + f(x), 0)`. */
  function Sum<T>(s: seq<T>, f: T -> int): int
    decreases |s|
  {
    if |s| == 0 then 0 else Sum(s[..|s| - 1], f) + f(s[|s| - 1])
  }

  // ---------------------------------------------------------------------
  // Properties

  /** `ReplaceFirst` is the write at the position `FindIndex` reports. */
  lemma {:induction false} ReplaceFirstAtFindIndex<T>(s: seq<T>, matches: T -> bool, x: T)
    ensures FindIndex(s, matches).None? ==> ReplaceFirst(s, matches, x) == s
    ensures FindIndex(s, matches).Some? ==> ReplaceFirst(s, matches, x) == s[FindIndex(s, matches).value := x]
  {
    var r := ReplaceFirst(s, matches, x);
    var i := FindIndex(s, matches);
    if i.None? {
      assert forall j :: 0 <= j < |s| ==> r[j] == s[j];
    } else {
      var t := s[i.value := x];
      forall j | 0 <= j < |s| ensures r[j] == t[j] {
        if j > i.value {
          assert matches(s[i.value]);
        }
      }
    }
  }

  /** Writing the same element again changes nothing, when it still
      matches. */
  lemma ReplaceFirstIdempotent<T>(s: seq<T>, matches: T -> bool, x: T)
    requires matches(x)
    ensures ReplaceFirst(ReplaceFirst(s, matches, x), matches, x) == ReplaceFirst(s, matches, x)
  {
    var r := ReplaceFirst(s, matches, x);
    var rr := ReplaceFirst(r, matches, x);
    ReplaceFirstAtFindIndex(s, matches, x);
    ReplaceFirstAtFindIndex(r, matches, x);
    var i := FindIndex(s, matches);
    if i.Some? {
      assert r == s[i.value := x];
      var i' := FindIndex(r, matches);
      assert r[i.value] == x;
      assert i'.Some? && i'.value <= i.value;
      assert i'.value == i.value by {
        assert forall j :: 0 <= j < i.value ==> r[j] == s[j];
      }
      assert rr == r[i.value := x];
    } else {
      assert r == s;
    }
  }

  lemma {:induction false} FilterAppend<T>(a: seq<T>, b: seq<T>, p: T -> bool)
    ensures Filter(a + b, p) == Filter(a, p) + Filter(b, p)
    decreases |a|
  {
    if |a| > 0 {
      assert (a + b)[1..] == a[1..] + b;
      FilterAppend(a[1..], b, p);
    } else {
      assert a + b == b;
    }
  }

  /** Filtering with a test everything passes keeps the whole list. */
  lemma {:induction false} FilterAll<T>(s: seq<T>, p: T -> bool)
    requires forall j :: 0 <= j < |s| ==> p(s[j])
    ensures Filter(s, p) == s
    decreases |s|
  {
    if |s| > 0 {
      FilterAll(s[1..], p);
    }
  }

  /** Two tests no element passes together count at most the whole list. */
  lemma {:induction false} CountDisjoint<T>(s: seq<T>, p: T -> bool, q: T -> bool)
    requires forall j :: 0 <= j < |s| ==> !(p(s[j]) && q(s[j]))
    ensures Count(s, p) + Count(s, q) <= |s|
    decreases |s|
  {
    if |s| > 0 {
      CountDisjoint(s[1..], p, q);
    }
  }

  lemma {:induction false} SumAppend<T>(a: seq<T>, b: seq<T>, f: T -> int)
    ensures Sum(a + b, f) == Sum(a, f) + Sum(b, f)
    decreases |b|
  {
    if |b| > 0 {
      assert (a + b)[..|a + b| - 1] == a + b[..|b| - 1];
      SumAppend(a, b[..|b| - 1], f);
    } else {
      assert a + b == a;
    }
  }

  lemma {:induction false} SumNonNegative<T>(s: seq<T>, f: T -> int)
    requires forall j :: 0 <= j < |s| ==> f(s[j]) >= 0
    ensures Sum(s, f) >= 0
    decreases |s|
  {
    if |s| > 0 {
      SumNonNegative(s[..|s| - 1], f);
    }
  }
}

=== FILE: middleware.dfy ===
/** The edge `middleware` of `middleware.ts` and the paths its `matcher`
    runs it on.  The two cookies are what the request carried. */
module Middleware {
  import opened Wrappers
  import opened Text
  import opened Values
  import opened Roles

  datatype Response = Next | Redirect(target: string)

  predicate IsAuthPage(pathname: string) {
    pathname == "/login" || pathname == "/signup"
  }

  /** The client paths that need a token. */
  predicate IsClientProtected(pathname: string) {
    StartsWith(pathname, "/redeem") || pathname == "/profile" || pathname == "/plans"
    || pathname == "/home" || pathname == "/schedule"
  }

  function Middleware(pathname: string, authToken: Option<string>, role: Option<string>): (r: Response)
    ensures IsAuthPage(pathname) && TruthyStr(authToken) ==>
      r == Redirect(if IsAdminRole(role) then "/admin/dashboard" else "/plans")
    ensures IsAuthPage(pathname) && !TruthyStr(authToken) ==> r == Next
    ensures !IsAuthPage(pathname) && StartsWith(pathname, "/admin") ==>
      r == if TruthyStr(authToken) && IsAdminRole(role) then Next else Redirect("/login")
    ensures !IsAuthPage(pathname) && !StartsWith(pathname, "/admin") && IsClientProtected(pathname) ==>
      r == if TruthyStr(authToken) then Next else Redirect("/login")
    ensures !IsAuthPage(pathname) && !StartsWith(pathname, "/admin") && !IsClientProtected(pathname) ==>
      r == Next
  {
    var hasAdminRole := role == Some("admin") || role == Some("super_admin") || role == Some("owner");
    if (pathname == "/login" || pathname == "/signup") && TruthyStr(authToken) then
      if hasAdminRole then Redirect("/admin/dashboard") else Redirect("/plans")
    else if pathname == "/login" || pathname == "/signup" then Next
    else if StartsWith(pathname, "/admin") && !TruthyStr(authToken) then Redirect("/login")
    else if StartsWith(pathname, "/admin") && !hasAdminRole then Redirect("/login")
    else if (StartsWith(pathname, "/redeem") || pathname == "/profile" || pathname == "/plans"
             || pathname == "/home" || pathname == "/schedule") && !TruthyStr(authToken) then
      Redirect("/login")
    else Next
  }

  /** `config.matcher`: `/admin`, `/admin/:path*`, `/redeem`,
      `/redeem/:path*`, `/profile` and `/plans`. */
  predicate Matched(pathname: string) {
    || pathname == "/admin" || StartsWith(pathname, "/admin/")
    || pathname == "/redeem" || StartsWith(pathname, "/redeem/")
    || pathname == "/profile" || pathname == "/plans"
  }

  /** What a request actually meets: the middleware on matched paths, and
      nothing on the others. */
  function Effective(pathname: string, authToken: Option<string>, role: Option<string>): (r: Response)
    ensures !Matched(pathname) ==> r == Next
    ensures Matched(pathname) ==> r == Middleware(pathname, authToken, role)
    // Over every path: a redirect only ever comes from a matched path, and
    // only to one of three pages.
    ensures r.Redirect? ==> Matched(pathname)
    ensures r.Redirect? ==> r.target == "/login" || r.target == "/admin/dashboard" || r.target == "/plans"
    // The sign-in pages, `/home` and `/schedule` always pass.
    ensures IsAuthPage(pathname) || pathname == "/home" || pathname == "/schedule" ==> r == Next
  {
    RedirectTargets(pathname, authToken, role);
    assert IsAuthPage(pathname) || pathname == "/home" || pathname == "/schedule" ==> !Matched(pathname) by {
      if IsAuthPage(pathname) || pathname == "/home" || pathname == "/schedule" {
        NotAdminNorRedeem(pathname);
      }
    }
    if Matched(pathname) then Middleware(pathname, authToken, role) else Next
  }

  // ---------------------------------------------------------------------
  // Properties

  /** The middleware only ever passes or redirects to one of three pages. */
  lemma RedirectTargets(pathname: string, authToken: Option<string>, role: Option<string>)
    ensures var r := Middleware(pathname, authToken, role);
      r.Redirect? ==> r.target == "/login" || r.target == "/admin/dashboard" || r.target == "/plans"
  {
  }

  /** Without a token every protected path is redirected to `/login`. */
  lemma NoTokenNoAccess(pathname: string, role: Option<string>)
    requires StartsWith(pathname, "/admin") || IsClientProtected(pathname)
    ensures Middleware(pathname, None, role) == Redirect("/login")
    ensures Middleware(pathname, Some(""), role) == Redirect("/login")
  {
    if IsAuthPage(pathname) {
      NotPrefixAt(pathname, "/admin", 1);
      NotPrefixAt(pathname, "/redeem", 1);
    }
  }

  /** The matcher never covers the login, sign-up, home and schedule pages,
      so their branches of the middleware never run: a signed-in visitor
      on `/login` is not redirected, and `/home` is open without a token. */
  lemma UnmatchedBranchesNeverRun(authToken: Option<string>, role: Option<string>)
    ensures Effective("/login", authToken, role) == Next
    ensures Effective("/signup", authToken, role) == Next
    ensures Effective("/home", authToken, role) == Next
    ensures Effective("/schedule", authToken, role) == Next
    ensures TruthyStr(authToken) ==> Middleware("/login", authToken, role) != Next
    ensures Middleware("/home", None, role) == Redirect("/login")
  {
    NotAdminNorRedeem("/login");
    NotAdminNorRedeem("/signup");
    NotAdminNorRedeem("/home");
    NotAdminNorRedeem("/schedule");
  }

  /** A path whose second character is neither `a` nor `r` is outside both
      prefixes. */
  lemma NotAdminNorRedeem(p: string)
    requires |p| >= 2 && p[1] != 'a' && p[1] != 'r'
    ensures !StartsWith(p, "/admin/") && !StartsWith(p, "/redeem/")
    ensures !StartsWith(p, "/admin") && !StartsWith(p, "/redeem")
  {
    NotPrefixAt(p, "/admin/", 1);
    NotPrefixAt(p, "/redeem/", 1);
    NotPrefixAt(p, "/admin", 1);
    NotPrefixAt(p, "/redeem", 1);
  }

  /** `pathname.startsWith('/admin')` is looser than the matcher: a path
      such as `/administrator` is guarded by the code but never reaches it. */
  lemma AdminPrefixLooserThanMatcher(authToken: Option<string>, role: Option<string>)
    ensures StartsWith("/administrator", "/admin") && !Matched("/administrator")
    ensures Effective("/administrator", None, role) == Next
    ensures Middleware("/administrator", None, role) == Redirect("/login")
  {
    assert "/administrator"[..6] == "/admin";
    NotPrefixAt("/administrator", "/admin/", 6);
    NotPrefixAt("/administrator", "/redeem/", 1);
    NotPrefixAt("/administrator", "/redeem", 1);
  }
}

=== FILE: navigationslice.dfy ===
/** The reducer of `app/store/slices/navigationSlice.ts`. */
module NavigationSlice {

  datatype Tab = Plans | Schedule | Profile

  datatype State = State(currentPage: string, sidebarOpen: bool, activeTab: Tab)

  const INITIAL := State("/", false, Plans)

  datatype Action =
    | SetCurrentPage(page: string)
    | SetActiveTab(tab: Tab)
    | ToggleSidebar
    | OpenSidebar
    | CloseSidebar
    | ResetNavigation

  function Reduce(s: State, a: Action): (r: State)
    ensures a.SetCurrentPage? ==> r.currentPage == a.page && r.sidebarOpen == s.sidebarOpen && r.activeTab == s.activeTab
    ensures a.SetActiveTab? ==> r.activeTab == a.tab && r.sidebarOpen == s.sidebarOpen && r.currentPage == s.currentPage
    ensures a.ToggleSidebar? ==> r.sidebarOpen != s.sidebarOpen && r.currentPage == s.currentPage && r.activeTab == s.activeTab
    ensures a.OpenSidebar? ==> r == s.(sidebarOpen := true)
    ensures a.CloseSidebar? ==> r == s.(sidebarOpen := false)
    ensures a.ResetNavigation? ==> r == INITIAL
  {
    match a
    case SetCurrentPage(page) => s.(currentPage := page)
    case SetActiveTab(tab) => s.(activeTab := tab)
    case ToggleSidebar => s.(sidebarOpen := !s.sidebarOpen)
    case OpenSidebar => s.(sidebarOpen := true)
    case CloseSidebar => s.(sidebarOpen := false)
    case ResetNavigation => State("/", false, Plans)
  }

  /** Toggling twice changes nothing. */
  lemma ToggleInvolution(s: State)
    ensures Reduce(Reduce(s, ToggleSidebar), ToggleSidebar) == s
  {
  }

  /** Opening and closing are idempotent, and each undoes a toggle from the
      other side. */
  lemma OpenCloseIdempotent(s: State)
    ensures Reduce(Reduce(s, OpenSidebar), OpenSidebar) == Reduce(s, OpenSidebar)
    ensures Reduce(Reduce(s, CloseSidebar), CloseSidebar) == Reduce(s, CloseSidebar)
    ensures !s.sidebarOpen ==> Reduce(s, ToggleSidebar) == Reduce(s, OpenSidebar)
    ensures s.sidebarOpen ==> Reduce(s, ToggleSidebar) == Reduce(s, CloseSidebar)
  {
  }

  /** The state after a run of actions. */
  function ReduceAll(s: State, actions: seq<Action>): State
    decreases |actions|
  {
    if |actions| == 0 then s else ReduceAll(Reduce(s, actions[0]), actions[1..])
  }

  /** A reset forgets everything before it: whatever came first, the state
      after a reset and some later actions depends only on those later
      actions. */
  lemma {:induction false} ResetForgetsHistory(s1: State, s2: State, before1: seq<Action>,
                                               before2: seq<Action>, after: seq<Action>)
    ensures ReduceAll(s1, before1 + [ResetNavigation] + after) == ReduceAll(s2, before2 + [ResetNavigation] + after)
  {
    ReduceAllAppend(s1, before1, [ResetNavigation] + after);
    ReduceAllAppend(s2, before2, [ResetNavigation] + after);
    assert before1 + [ResetNavigation] + after == before1 + ([ResetNavigation] + after);
    assert before2 + [ResetNavigation] + after == before2 + ([ResetNavigation] + after);
    assert ([ResetNavigation] + after)[1..] == after;
  }

  lemma {:induction false} ReduceAllAppend(s: State, xs: seq<Action>, ys: seq<Action>)
    ensures ReduceAll(s, xs + ys) == ReduceAll(ReduceAll(s, xs), ys)
    decreases |xs|
  {
    if |xs| > 0 {
      assert (xs + ys)[0] == xs[0];
      assert (xs + ys)[1..] == xs[1..] + ys;
      ReduceAllAppend(Reduce(s, xs[0]), xs[1..], ys);
    } else {
      assert xs + ys == ys;
    }
  }

  /** Only the sidebar actions touch the sidebar: a run without them leaves
      it as it was. */
  lemma {:induction false} SidebarOnlyBySidebarActions(s: State, actions: seq<Action>)
    requires forall i :: 0 <= i < |actions| ==>
      actions[i].SetCurrentPage? || actions[i].SetActiveTab?
    ensures ReduceAll(s, actions).sidebarOpen == s.sidebarOpen
    decreases |actions|
  {
    if |actions| > 0 {
      SidebarOnlyBySidebarActions(Reduce(s, actions[0]), actions[1..]);
    }
  }
}

=== FILE: plansservice.dfy ===
/** `PlansService` of `app/services/plansService.ts`: looking plans and
    their variations up in the plans response, and the subscribe call.
    The response is a parameter; fetching it is not modelled. */
module PlansService {
  import opened Wrappers
  import opened Values
  import opened Lists
  import Api
  import Config

  datatype SubscriptionPlan = SubscriptionPlan(id: int, objectId: string, name: string, businessId: string, status: string)

  /** `PlanVariation`; `amount` is in cents. */
  datatype PlanVariation = PlanVariation(id: int, objectId: string, planId: string, name: string, amount: int, credit: int)

  datatype PlansResponse = PlansResponse(subscriptionPlans: seq<SubscriptionPlan>, planVariations: seq<PlanVariation>)

  const PLAN_NOT_FOUND := "Plan not found"

  function HasObjectId(planId: string): SubscriptionPlan -> bool {
    (p: SubscriptionPlan) => p.objectId == planId
  }

  function OfPlan(planId: string): PlanVariation -> bool {
    (v: PlanVariation) => v.planId == planId
  }

  /** Position `i` holds the first plan with this object id. */
  predicate FirstWithObjectId(plans: seq<SubscriptionPlan>, i: int, planId: string) {
    0 <= i < |plans| && plans[i].objectId == planId && forall j :: 0 <= j < i ==> plans[j].objectId != planId
  }

  /** `getPlanById`: the first plan with that object id, or the
      `Plan not found` error. */
  function GetPlanById(response: PlansResponse, planId: string): (r: Result<SubscriptionPlan, string>)
    ensures r.Success? ==> r.value.objectId == planId
    ensures r.Success? ==> exists i :: FirstWithObjectId(response.subscriptionPlans, i, planId) && response.subscriptionPlans[i] == r.value
    ensures r.Failure? <==> forall j :: 0 <= j < |response.subscriptionPlans| ==> response.subscriptionPlans[j].objectId != planId
    ensures r.Failure? ==> r.error == PLAN_NOT_FOUND
  {
    var i := FindIndex(response.subscriptionPlans, HasObjectId(planId));
    if i.Some? then Success(response.subscriptionPlans[i.value]) else Failure(PLAN_NOT_FOUND)
  }

  /** `getPlanVariations`: the variations of one plan, in order. */
  function GetPlanVariations(response: PlansResponse, planId: string): (r: seq<PlanVariation>)
    ensures forall j :: 0 <= j < |r| ==> r[j].planId == planId && r[j] in response.planVariations
    ensures forall j :: 0 <= j < |response.planVariations| && response.planVariations[j].planId == planId ==>
      response.planVariations[j] in r
  {
    Filter(response.planVariations, OfPlan(planId))
  }

  /** `subscribeToPlan`: a POST of exactly the variation, the card and the
      business id, with a success toast. */
  function SubscribeToPlan(planVariationId: string, cardId: string): (r: (string, Api.Options))
    ensures r.0 == Config.CREATE_SUBSCRIPTION_ENDPOINT && r.1.verb == Api.POST
    ensures r.1.body.Some? && r.1.body.value.Keys == {"plan_variation_id", "card_id", "business_id"}
    ensures r.1.body.value["plan_variation_id"] == VStr(planVariationId)
    ensures r.1.body.value["card_id"] == VStr(cardId)
    ensures r.1.body.value["business_id"] == VStr(Config.BUSINESS_ID)
    ensures r.1.showSuccessToast && r.1.successMessage == Some("Successfully subscribed to plan!")
  {
    var body := map["plan_variation_id" := VStr(planVariationId), "card_id" := VStr(cardId),
                    "business_id" := VStr(Config.BUSINESS_ID)];
    (Config.CREATE_SUBSCRIPTION_ENDPOINT,
     Api.ApiPost(Some(body), Api.NO_OPTIONS.(showSuccessToast := true, successMessage := Some("Successfully subscribed to plan!"))))
  }

  // ---------------------------------------------------------------------
  // Properties

  /** The variations of a plan split the list: splitting the response in
      two and looking up each half gives the two halves of the answer. */
  lemma VariationsOfConcatenation(a: seq<PlanVariation>, b: seq<PlanVariation>, plans: seq<SubscriptionPlan>, planId: string)
    ensures GetPlanVariations(PlansResponse(plans, a + b), planId)
         == GetPlanVariations(PlansResponse(plans, a), planId) + GetPlanVariations(PlansResponse(plans, b), planId)
  {
    FilterAppend(a, b, OfPlan(planId));
  }

  /** A response whose variations all belong to one plan returns them all. */
  lemma VariationsOfSinglePlan(response: PlansResponse, planId: string)
    requires forall j :: 0 <= j < |response.planVariations| ==> response.planVariations[j].planId == planId
    ensures GetPlanVariations(response, planId) == response.planVariations
  {
    FilterAll(response.planVariations, OfPlan(planId));
  }

  /** The plan found is the first one with the id, so a later duplicate
      is never returned in its place. */
  lemma PlanLookupFirstWins(p: SubscriptionPlan, q: SubscriptionPlan, rest: seq<SubscriptionPlan>, vs: seq<PlanVariation>)
    ensures GetPlanById(PlansResponse([p, q] + rest, vs), p.objectId) == Success(p)
  {
  }
}

=== FILE: plansslice.dfy ===
/** The reducer of `app/store/slices/plansSlice.ts`. */
module PlansSlice {
  import opened Wrappers
  import opened PlansService

  datatype State = State(
    plans: seq<SubscriptionPlan>,
    currentPlan: Option<SubscriptionPlan>,
    planVariations: seq<PlanVariation>,
    loading: bool,
    error: Option<string>)

  const INITIAL := State([], None, [], false, None)

  datatype Op = FetchPlans | FetchPlanById | FetchPlanVariations | SubscribeToPlan

  datatype Action =
    | ClearPlans
    | ClearPlansError
    | SetCurrentPlan(plan: SubscriptionPlan)
    | ClearCurrentPlan
    | Pending(op: Op)
    | Rejected(op: Op, message: string)
    | FetchedPlans(response: PlansResponse)
    | FetchedPlan(plan: SubscriptionPlan)
    | FetchedVariations(variations: seq<PlanVariation>)
    | Subscribed

  predicate SameData(a: State, b: State) {
    a.plans == b.plans && a.currentPlan == b.currentPlan && a.planVariations == b.planVariations
  }

  function Reduce(s: State, a: Action): (r: State)
    ensures a.ClearPlans? ==> r == INITIAL.(loading := s.loading)
    ensures a.ClearPlansError? ==> r == s.(error := None)
    ensures a.SetCurrentPlan? ==> r == s.(currentPlan := Some(a.plan))
    ensures a.ClearCurrentPlan? ==> r == s.(currentPlan := None)
    ensures a.Pending? ==> r.loading && r.error.None? && SameData(r, s)
    ensures a.Rejected? ==> !r.loading && r.error == Some(a.message) && SameData(r, s)
    // Both lists come from the same response.
    ensures a.FetchedPlans? ==>
      && r.plans == a.response.subscriptionPlans && r.planVariations == a.response.planVariations
      && r.currentPlan == s.currentPlan && !r.loading && r.error == s.error
    ensures a.FetchedPlan? ==> r == s.(loading := false, currentPlan := Some(a.plan))
    ensures a.FetchedVariations? ==> r == s.(loading := false, planVariations := a.variations)
    ensures a.Subscribed? ==> r == s.(loading := false)
  {
    match a
    case ClearPlans => s.(plans := [], currentPlan := None, planVariations := [], error := None)
    case ClearPlansError => s.(error := None)
    case SetCurrentPlan(plan) => s.(currentPlan := Some(plan))
    case ClearCurrentPlan => s.(currentPlan := None)
    case Pending(_) => s.(loading := true, error := None)
    case Rejected(_, message) => s.(loading := false, error := Some(message))
    case FetchedPlans(response) =>
      s.(loading := false, plans := response.subscriptionPlans, planVariations := response.planVariations)
    case FetchedPlan(plan) => s.(loading := false, currentPlan := Some(plan))
    case FetchedVariations(variations) => s.(loading := false, planVariations := variations)
    case Subscribed => s.(loading := false)
  }

  /** The three thunks' fulfilled payloads, computed from one plans
      response by the service. */
  function FetchPlanByIdOutcome(response: PlansResponse, planId: string): (a: Action)
    ensures GetPlanById(response, planId).Success? ==> a == FetchedPlan(GetPlanById(response, planId).value)
    ensures GetPlanById(response, planId).Failure? ==> a == Rejected(FetchPlanById, PLAN_NOT_FOUND)
  {
    match GetPlanById(response, planId)
    case Success(plan) => FetchedPlan(plan)
    case Failure(message) => Rejected(FetchPlanById, message)
  }

  // ---------------------------------------------------------------------
  // Properties

  /** Fetching the plan by id after fetching the plans agrees with the
      cached list: the current plan is the first cached plan with that id. */
  lemma PlanByIdAgreesWithCache(s: State, response: PlansResponse, planId: string)
    ensures var s1 := Reduce(Reduce(s, Pending(FetchPlans)), FetchedPlans(response));
      var s2 := Reduce(Reduce(s1, Pending(FetchPlanById)), FetchPlanByIdOutcome(response, planId));
      && s2.plans == response.subscriptionPlans
      && (s2.currentPlan.Some? && s2.error.None? ==> s2.currentPlan.value.objectId == planId && s2.currentPlan.value in s2.plans)
      && (GetPlanById(response, planId).Failure? ==> s2.error == Some(PLAN_NOT_FOUND) && s2.currentPlan == s.currentPlan)
  {
    var g := GetPlanById(response, planId);
    if g.Success? {
      var i :| FirstWithObjectId(response.subscriptionPlans, i, planId) && response.subscriptionPlans[i] == g.value;
    }
  }

  /** Clearing the current plan touches nothing else, and clearing the
      plans forgets every list. */
  lemma ClearsForget(s: State)
    ensures SameData(Reduce(s, ClearCurrentPlan), s.(currentPlan := None))
    ensures Reduce(Reduce(s, ClearCurrentPlan), ClearPlans) == Reduce(s, ClearPlans)
  {
  }
}

=== FILE: roles.dfy ===
/** The roles that open the admin area, as every guard of the application
    spells them out: `role === 'admin' || role === 'super_admin' || role === 'owner'`. */
module Roles {
  import opened Wrappers

  const ADMIN_ROLES: set<string> := {"admin", "super_admin", "owner"}

  /** The test on a role that may be missing (a cookie that is not set, or
      no user loaded). */
  predicate IsAdminRole(role: Option<string>) {
    role.Some? && role.value in ADMIN_ROLES
  }
}

=== FILE: storage.dfy ===
/** Cookie helpers of `app/utils/storage.ts`: the ad-hoc `document.cookie`
    parser `getCookie`, the writers `setCookie` / `removeCookie`, and the
    cookie names in `STORAGE_KEYS`.  The browser's cookie store is modelled
    as an ordered list of name/value pairs; `document.cookie` is its
    rendering `name1=value1; name2=value2` (section 5.4 of RFC 6265). */
module Storage {
  import opened Wrappers
  import opened Text

  // STORAGE_KEYS
  const AUTH_TOKEN := "side-quest"
  const USER_ROLE := "side-quest_role"
  const PWA_INSTALL_DISMISSED := "pwa-install-dismissed"
  const USER_PREFERENCES := "user-preferences"
  const THEME := "theme"

  /** `24 * 60 * 60 * 1000`, the milliseconds in a day. */
  const MS_PER_DAY := 86400000
  /** `Thu, 01 Jan 1970 00:00:00 UTC` as a millisecond timestamp. */
  const EPOCH_MS := 0
  /** Default lifetime of `setCookie`, in days. */
  const DEFAULT_DAYS := 7

  datatype Cookie = Cookie(name: string, value: string)

  /** The cookies visible at path `/`, in the order the browser lists them. */
  type Jar = seq<Cookie>

  /** What one `document.cookie = "name=value;expires=..."` assignment asks of
      the browser: `value` is the text between `name=` and the `;` the page
      puts before `expires`, before the browser parses it. */
  datatype CookieWrite = CookieWrite(name: string, value: string, expiresMs: int)

  /** The parts of the browser the core touches: whether `window` exists
      (it does not during server rendering), the cookie store, the two web
      storage areas and the current time. */
  datatype Browser = Browser(
    hasWindow: bool,
    jar: Jar,
    local: map<string, string>,
    session: map<string, string>,
    clockMs: int)

  // ---------------------------------------------------------------------
  // Reading: getCookie

  /** `while (c.charAt(0) === ' ') c = c.substring(1)`: strips leading
      spaces, and nothing else. */
  function StripLeadingSpaces(c: string): (r: string)
    ensures |r| <= |c|
    ensures |r| > 0 ==> r[0] != ' '
  {
    if |c| > 0 && c[0] == ' ' then StripLeadingSpaces(c[1..]) else c
  }

  /** Stripping only removes a prefix. */
  lemma {:induction false} StripIsSuffix(c: string)
    ensures StripLeadingSpaces(c) == c[|c| - |StripLeadingSpaces(c)|..]
    decreases |c|
  {
    if |c| > 0 && c[0] == ' ' {
      StripIsSuffix(c[1..]);
    }
  }

  /** `c.indexOf(nameEQ) === 0` once leading spaces are gone. */
  predicate Matches(segment: string, nameEQ: string) {
    StartsWith(StripLeadingSpaces(segment), nameEQ)
  }

  /** The loop of `getCookie` from segment `i` on: the index of the first
      segment that starts with `nameEQ` once its leading spaces are gone, or
      `|segs|` when none does. */
  function FindFrom(segs: seq<string>, nameEQ: string, i: nat): (k: nat)
    requires i <= |segs|
    ensures i <= k <= |segs|
    ensures k < |segs| ==> Matches(segs[k], nameEQ)
    ensures forall j :: i <= j < k ==> !Matches(segs[j], nameEQ)
    decreases |segs| - i
  {
    if i == |segs| || Matches(segs[i], nameEQ) then i else FindFrom(segs, nameEQ, i + 1)
  }

  /** `getCookie(name)` over the text of `document.cookie`: the text after
      `name=` in the first `;`-separated segment that starts with `name=`
      once its leading spaces are stripped. */
  function GetCookie(hasWindow: bool, documentCookie: string, name: string): (r: Option<string>)
    ensures !hasWindow ==> r == None
    ensures r.Some? ==> ';' !in r.value
    ensures hasWindow ==>
      (r.None? <==> forall k :: 0 <= k < |Split(documentCookie, ';')| ==>
                      !Matches(Split(documentCookie, ';')[k], name + "="))
    ensures r.Some? ==>
      exists k ::
        && 0 <= k < |Split(documentCookie, ';')|
        && StripLeadingSpaces(Split(documentCookie, ';')[k]) == name + "=" + r.value
        && forall j :: 0 <= j < k ==> !Matches(Split(documentCookie, ';')[j], name + "=")
  {
    if !hasWindow then None
    else
      var segs := Split(documentCookie, ';');
      var k := FindFrom(segs, name + "=", 0);
      if k == |segs| then None
      else
        var v := StripLeadingSpaces(segs[k])[|name| + 1..];
        FoundValueShape(segs[k], name, v);
        Some(v)
  }

  lemma FoundValueShape(seg: string, name: string, v: string)
    requires ';' !in seg
    requires Matches(seg, name + "=")
    requires v == StripLeadingSpaces(seg)[|name| + 1..]
    ensures ';' !in v
    ensures StripLeadingSpaces(seg) == name + "=" + v
  {
    var c := StripLeadingSpaces(seg);
    StripIsSuffix(seg);
    assert c == c[..|name| + 1] + v;
    assert forall x :: x in v ==> x in c;
    assert forall x :: x in c ==> x in seg;
  }

  // ---------------------------------------------------------------------
  // The cookie store

  /** The value stored under `name`, if any. */
  function LookupFrom(jar: Jar, name: string, i: nat): (r: Option<string>)
    requires i <= |jar|
    ensures r.None? <==> forall k :: i <= k < |jar| ==> jar[k].name != name
    ensures r.Some? ==>
      exists k ::
        && i <= k < |jar| && jar[k] == Cookie(name, r.value)
        && forall j :: i <= j < k ==> jar[j].name != name
    decreases |jar| - i
  {
    if i == |jar| then None
    else if jar[i].name == name then Some(jar[i].value)
    else LookupFrom(jar, name, i + 1)
  }

  function Lookup(jar: Jar, name: string): Option<string> {
    LookupFrom(jar, name, 0)
  }

  predicate ValidName(name: string) {
    |name| > 0 && name[0] != ' ' && '=' !in name && ';' !in name
  }

  /** A value the browser keeps exactly as written: it holds no `;` and
      neither starts nor ends with a space or a tab. */
  predicate ValidValue(value: string) {
    && ';' !in value
    && (|value| > 0 ==> !IsWsp(value[0]) && !IsWsp(value[|value| - 1]))
  }

  /** Spaces and tabs, the white space section 5.2 of RFC 6265 strips from
      a cookie's name and value. */
  predicate IsWsp(c: char) {
    c == ' ' || c == '\t'
  }

  /** Removes the leading and trailing spaces and tabs of `s`. */
  function TrimWsp(s: string): (r: string)
    ensures |r| <= |s|
    ensures |r| > 0 ==> !IsWsp(r[0]) && !IsWsp(r[|r| - 1])
    ensures forall c :: c in r ==> c in s
    decreases |s|
  {
    if |s| > 0 && IsWsp(s[0]) then TrimWsp(s[1..])
    else if |s| > 0 && IsWsp(s[|s| - 1]) then TrimWsp(s[..|s| - 1])
    else s
  }

  /** The value the browser keeps from the write `name=value;expires=...`
      (section 5.2 of RFC 6265): the name-value pair ends at the first `;`,
      and the value loses its leading and trailing spaces and tabs. */
  function StoredValue(value: string): (v: string)
    ensures ValidValue(v)
  {
    TrimWsp(Split(value, ';')[0])
  }

  /** The write keeps a value exactly when it is valid. */
  lemma StoredValueFixesValid(value: string)
    ensures StoredValue(value) == value <==> ValidValue(value)
  {
    if ValidValue(value) {
      SplitNoSep(value, ';');
    }
  }

  /** The pair ends at the first `;`: what follows it never reaches the
      value. */
  lemma StoredValueCutsAtSemicolon(pair: string, rest: string)
    requires ';' !in pair
    ensures StoredValue(pair + ";" + rest) == StoredValue(pair)
  {
    SplitAtFirst(pair, rest, ';');
    SplitNoSep(pair, ';');
  }

  /** Spaces and tabs around a valid value are dropped. */
  lemma StoredValueTrims(pre: string, value: string, post: string)
    requires forall i :: 0 <= i < |pre| ==> IsWsp(pre[i])
    requires forall i :: 0 <= i < |post| ==> IsWsp(post[i])
    requires ValidValue(value)
    ensures StoredValue(pre + value + post) == value
  {
    var s := pre + value + post;
    assert forall i :: 0 <= i < |s| ==> s[i] != ';' by {
      forall i | 0 <= i < |s| ensures s[i] != ';' {
        if i < |pre| { assert IsWsp(pre[i]); }
        else if i < |pre| + |value| { assert s[i] == value[i - |pre|]; }
        else { assert IsWsp(post[i - |pre| - |value|]); }
      }
    }
    SplitNoSep(s, ';');
    assert s == pre + (value + post);
    TrimLeadingPadding(pre, value + post);
    TrimTrailingPadding(value, post);
  }

  lemma {:induction false} TrimLeadingPadding(pre: string, x: string)
    requires forall i :: 0 <= i < |pre| ==> IsWsp(pre[i])
    ensures TrimWsp(pre + x) == TrimWsp(x)
    decreases |pre|
  {
    if |pre| > 0 {
      var s := pre + x;
      assert s[0] == pre[0];
      assert s[1..] == pre[1..] + x;
      TrimLeadingPadding(pre[1..], x);
    } else {
      assert pre + x == x;
    }
  }

  lemma {:induction false} TrimTrailingPadding(value: string, post: string)
    requires forall i :: 0 <= i < |post| ==> IsWsp(post[i])
    requires |value| > 0 ==> !IsWsp(value[0]) && !IsWsp(value[|value| - 1])
    ensures TrimWsp(value + post) == value
    decreases |post|
  {
    var s := value + post;
    if |post| == 0 {
      assert s == value;
    } else if |value| == 0 {
      assert s == post;
      assert s[1..] == value + post[1..];
      TrimTrailingPadding(value, post[1..]);
    } else {
      assert s[0] == value[0];
      assert s[|s| - 1] == post[|post| - 1];
      assert s[..|s| - 1] == value + post[..|post| - 1];
      TrimTrailingPadding(value, post[..|post| - 1]);
    }
  }

  /** The two writes the parse changes: `a;b` keeps `a`, and ` abc` keeps
      `abc`, which is what `getCookie` then reads. */
  lemma StoredValueExamples()
    ensures StoredValue("a;b") == "a"
    ensures StoredValue(" abc") == "abc"
    ensures StoredValue("\tx y ;expires=0") == "x y"
  {
    StoredValueCutsAtSemicolon("a", "b");
    StoredValueFixesValid("a");
    StoredValueTrims(" ", "abc", "");
    assert " abc" == " " + "abc" + "";
    StoredValueCutsAtSemicolon("\tx y ", "expires=0");
    assert "\tx y ;expires=0" == "\tx y " + ";" + "expires=0";
    StoredValueTrims("\t", "x y", " ");
    assert "\tx y " == "\t" + "x y" + " ";
  }

  /** The two session cookie names survive the round trip. */
  lemma SessionNamesValid()
    ensures ValidName(AUTH_TOKEN) && ValidName(USER_ROLE)
  {
    assert forall i :: 0 <= i < |USER_ROLE| ==> USER_ROLE[i] != '=' && USER_ROLE[i] != ';';
  }

  /** The store the browser keeps: one cookie per name, names that survive
      the round trip through `document.cookie`, and values as the browser's
      parse of a write leaves them. */
  predicate WellFormed(jar: Jar) {
    && (forall k :: 0 <= k < |jar| ==> ValidName(jar[k].name) && ValidValue(jar[k].value))
    && (forall j, k :: 0 <= j < k < |jar| ==> jar[j].name != jar[k].name)
  }

  /** Index of the cookie called `name`, or `|jar|` when there is none. */
  function IndexOf(jar: Jar, name: string, i: nat): (k: nat)
    requires i <= |jar|
    ensures i <= k <= |jar|
    ensures k < |jar| ==> jar[k].name == name
    ensures forall j :: i <= j < k ==> jar[j].name != name
    decreases |jar| - i
  {
    if i == |jar| || jar[i].name == name then i else IndexOf(jar, name, i + 1)
  }

  /** Storing a cookie replaces one of the same name in place (keeping its
      position, as section 5.3 of RFC 6265 keeps its creation time) and
      otherwise appends it. */
  function Put(jar: Jar, name: string, value: string): (r: Jar)
    ensures WellFormed(jar) && ValidName(name) && ValidValue(value) ==> WellFormed(r)
    ensures Lookup(r, name) == Some(value)
    ensures forall n :: n != name ==> Lookup(r, n) == Lookup(jar, n)
  {
    var k := IndexOf(jar, name, 0);
    var r := if k < |jar| then jar[k := Cookie(name, value)] else jar + [Cookie(name, value)];
    assert r[k] == Cookie(name, value);
    LookupPut(jar, name, value, k, r);
    r
  }

  lemma LookupPut(jar: Jar, name: string, value: string, k: nat, r: Jar)
    requires k <= |jar| && k == IndexOf(jar, name, 0)
    requires r == if k < |jar| then jar[k := Cookie(name, value)] else jar + [Cookie(name, value)]
    ensures Lookup(r, name) == Some(value)
    ensures forall n :: n != name ==> Lookup(r, n) == Lookup(jar, n)
  {
    assert r[k] == Cookie(name, value);
    var x := Lookup(r, name);
    assert x.Some?;
    var j :| 0 <= j < |r| && r[j] == Cookie(name, x.value)
      && forall i :: 0 <= i < j ==> r[i].name != name;
    assert j == k;
    forall n | n != name ensures Lookup(r, n) == Lookup(jar, n) {
      LookupAgree(jar, r, n, 0);
    }
  }

  /** Two stores that hold the same entries wherever either names `n` give
      the same answer for `n`. */
  lemma {:induction false} LookupAgree(a: Jar, b: Jar, n: string, i: nat)
    requires i <= |a| <= |b|
    requires forall j :: i <= j < |a| && (a[j].name == n || b[j].name == n) ==> a[j] == b[j]
    requires forall j :: |a| <= j < |b| ==> b[j].name != n
    ensures LookupFrom(a, n, i) == LookupFrom(b, n, i)
    decreases |a| - i
  {
    if i < |a| {
      LookupAgree(a, b, n, i + 1);
    }
  }

  /** The store without the cookie called `name`. */
  function Delete(jar: Jar, name: string): (r: Jar)
    ensures |r| <= |jar|
    ensures forall c :: c in r ==> c in jar
    ensures WellFormed(jar) ==> WellFormed(r)
    ensures Lookup(r, name) == None
    ensures forall n :: n != name ==> Lookup(r, n) == Lookup(jar, n)
  {
    if |jar| == 0 then []
    else
      var rest := Delete(jar[1..], name);
      var r := if jar[0].name == name then rest else [jar[0]] + rest;
      DeleteStep(jar, name, rest, r);
      r
  }

  lemma DeleteStep(jar: Jar, name: string, rest: Jar, r: Jar)
    requires |jar| > 0
    requires |rest| <= |jar| - 1
    requires WellFormed(jar[1..]) ==> WellFormed(rest)
    requires Lookup(rest, name) == None
    requires forall n :: n != name ==> Lookup(rest, n) == Lookup(jar[1..], n)
    requires forall c :: c in rest ==> c in jar[1..]
    requires r == if jar[0].name == name then rest else [jar[0]] + rest
    ensures |r| <= |jar|
    ensures WellFormed(jar) ==> WellFormed(r)
    ensures Lookup(r, name) == None
    ensures forall c :: c in r ==> c in jar
    ensures forall n :: n != name ==> Lookup(r, n) == Lookup(jar, n)
  {
    LookupCons(jar);
    if jar[0].name != name {
      LookupCons(r);
      assert r[1..] == rest;
    }
    if WellFormed(jar) {
      assert WellFormed(jar[1..]);
      if jar[0].name != name {
        forall k | 1 <= k < |r| ensures r[k].name != jar[0].name {
          assert r[k] in rest;
        }
      }
    }
  }

  lemma LookupCons(jar: Jar)
    requires |jar| > 0
    ensures forall n :: Lookup(jar, n) == if jar[0].name == n then Some(jar[0].value) else Lookup(jar[1..], n)
  {
    forall n ensures Lookup(jar, n) == if jar[0].name == n then Some(jar[0].value) else Lookup(jar[1..], n) {
      if jar[0].name != n {
        LookupShift(jar, n, 1);
      }
    }
  }

  /** Looking up from position `i` of `jar` is looking up in `jar[1..]` from
      position `i - 1`. */
  lemma {:induction false} LookupShift(jar: Jar, n: string, i: nat)
    requires 1 <= i <= |jar|
    ensures LookupFrom(jar, n, i) == LookupFrom(jar[1..], n, i - 1)
    decreases |jar| - i
  {
    if i < |jar| {
      LookupShift(jar, n, i + 1);
    }
  }

  // ---------------------------------------------------------------------
  // Writing: setCookie and removeCookie

  /** The write `setCookie(name, value, days)` issues: it expires `days`
      days after `nowMs`. */
  function SetCookieWrite(name: string, value: string, days: int, nowMs: int): (w: CookieWrite)
    ensures w.name == name && w.value == value
    ensures w.expiresMs > nowMs <==> days > 0
    ensures days == DEFAULT_DAYS ==> w.expiresMs == nowMs + 604800000
  {
    CookieWrite(name, value, nowMs + days * MS_PER_DAY)
  }

  /** The write `removeCookie(name)` issues: an empty value that expired at
      the epoch. */
  function RemoveCookieWrite(name: string): (w: CookieWrite)
    ensures w.value == "" && w.expiresMs == EPOCH_MS
  {
    CookieWrite(name, "", EPOCH_MS)
  }

  /** How the browser applies a write: an expiry not in the future deletes
      the cookie, any other stores the value as the browser parses it. */
  function Apply(jar: Jar, w: CookieWrite, nowMs: int): (r: Jar)
    ensures w.expiresMs > nowMs ==> Lookup(r, w.name) == Some(StoredValue(w.value))
    ensures w.expiresMs > nowMs && ValidValue(w.value) ==> Lookup(r, w.name) == Some(w.value)
    ensures w.expiresMs <= nowMs ==> Lookup(r, w.name) == None
    ensures forall n :: n != w.name ==> Lookup(r, n) == Lookup(jar, n)
    ensures WellFormed(jar) && ValidName(w.name) ==> WellFormed(r)
  {
    StoredValueFixesValid(w.value);
    if w.expiresMs > nowMs then Put(jar, w.name, StoredValue(w.value)) else Delete(jar, w.name)
  }

  /** Issues `w` from the page, which does nothing where there is no window. */
  function Write(b: Browser, w: CookieWrite): (r: Browser)
    ensures r.hasWindow == b.hasWindow && r.local == b.local && r.session == b.session
    ensures r.clockMs == b.clockMs
    ensures !b.hasWindow ==> r == b
  {
    if b.hasWindow then b.(jar := Apply(b.jar, w, b.clockMs)) else b
  }

  /** `setCookie(name, value, days = 7)`. */
  function SetCookie(b: Browser, name: string, value: string, days: int := DEFAULT_DAYS): (r: Browser)
    ensures b.hasWindow && days > 0 ==> Lookup(r.jar, name) == Some(StoredValue(value))
    ensures b.hasWindow && days > 0 && ValidValue(value) ==> Lookup(r.jar, name) == Some(value)
    ensures b.hasWindow && days <= 0 ==> Lookup(r.jar, name) == None
    ensures forall n :: n != name ==> Lookup(r.jar, n) == Lookup(b.jar, n)
    ensures !b.hasWindow ==> r == b
    ensures r.local == b.local && r.session == b.session
    ensures r.hasWindow == b.hasWindow && r.clockMs == b.clockMs
    ensures WellFormed(b.jar) && ValidName(name) ==> WellFormed(r.jar)
  {
    Write(b, SetCookieWrite(name, value, days, b.clockMs))
  }

  /** `removeCookie(name)`: once the clock is past the epoch the cookie is
      gone and every other cookie is kept. */
  function RemoveCookie(b: Browser, name: string): (r: Browser)
    ensures b.hasWindow && b.clockMs > EPOCH_MS ==> Lookup(r.jar, name) == None
    ensures forall n :: n != name ==> Lookup(r.jar, n) == Lookup(b.jar, n)
    ensures !b.hasWindow ==> r == b
    ensures r.local == b.local && r.session == b.session
    ensures r.hasWindow == b.hasWindow && r.clockMs == b.clockMs
    ensures WellFormed(b.jar) && ValidName(name) ==> WellFormed(r.jar)
  {
    Write(b, RemoveCookieWrite(name))
  }

  // ---------------------------------------------------------------------
  // document.cookie

  /** The `i`-th entry of `document.cookie`: `name=value`, preceded by the
      space of the `"; "` separator except for the first. */
  function Segment(c: Cookie, i: nat): string {
    (if i == 0 then "" else " ") + c.name + "=" + c.value
  }

  function Segments(jar: Jar): (segs: seq<string>)
    ensures |segs| == |jar|
    ensures forall i :: 0 <= i < |jar| ==> segs[i] == Segment(jar[i], i)
  {
    seq(|jar|, i requires 0 <= i < |jar| => Segment(jar[i], i))
  }

  /** The text `document.cookie` reads back. */
  function Render(jar: Jar): string {
    Join(Segments(jar), ';')
  }

  /** `getCookie` as the page calls it: on the live `document.cookie`. */
  function ReadCookie(b: Browser, name: string): Option<string> {
    GetCookie(b.hasWindow, Render(b.jar), name)
  }
}

/** Properties of the cookie parser and of the store it reads. */
module CookieLemmas {
  import opened Wrappers
  import opened Text
  import opened Storage

  /** A segment `k=v` starts with `name=` exactly when `k` is `name`, as
      long as neither contains `=`: a key that is a proper prefix of another
      key does not match it. */
  lemma {:induction false} KeyMatchesExactly(k: string, v: string, name: string)
    requires '=' !in k && '=' !in name
    ensures StartsWith(k + "=" + v, name + "=") <==> k == name
  {
    var s := k + "=" + v;
    if StartsWith(s, name + "=") {
      assert s == name + "=" + s[|name| + 1..];
      FirstEquals(name, s[|name| + 1..]);
      FirstEquals(k, v);
      assert k == s[..|k|] == name;
    }
  }

  /** Position of the first `=` in `s`, or `|s|`. */
  function FirstEqualsAt(s: string): (i: nat)
    ensures i <= |s|
    ensures i < |s| ==> s[i] == '='
  {
    if |s| == 0 || s[0] == '=' then 0 else 1 + FirstEqualsAt(s[1..])
  }

  lemma {:induction false} FirstEquals(a: string, rest: string)
    requires '=' !in a
    ensures FirstEqualsAt(a + "=" + rest) == |a|
    decreases |a|
  {
    var s := a + "=" + rest;
    if |a| > 0 {
      assert s[0] == a[0];
      assert s[1..] == a[1..] + "=" + rest;
      FirstEquals(a[1..], rest);
    }
  }

  /** A `document.cookie` text of a single segment. */
  lemma {:induction false} GetCookieOneSegment(seg: string, name: string)
    requires ';' !in seg
    ensures GetCookie(true, seg, name) ==
      if Matches(seg, name + "=") then Some(StripLeadingSpaces(seg)[|name| + 1..]) else None
  {
    SplitNoSep(seg, ';');
  }

  /** A `document.cookie` text of two segments. */
  lemma {:induction false} GetCookieTwoSegments(s1: string, s2: string, name: string)
    requires ';' !in s1 && ';' !in s2
    ensures GetCookie(true, s1 + ";" + s2, name) ==
      if Matches(s1, name + "=") then Some(StripLeadingSpaces(s1)[|name| + 1..])
      else if Matches(s2, name + "=") then Some(StripLeadingSpaces(s2)[|name| + 1..])
      else None
  {
    SplitAtFirst(s1, s2, ';');
    SplitNoSep(s2, ';');
    var segs := Split(s1 + ";" + s2, ';');
    assert segs == [s1, s2];
    var k := FindFrom(segs, name + "=", 0);
    if !Matches(s1, name + "=") {
      assert k == FindFrom(segs, name + "=", 1);
    }
  }

  /** The case the two cookie names of the application produce: looking
      up the token skips the role cookie, whose name has the token's name as
      a proper prefix... */
  lemma TokenLookupSkipsRoleCookie(role: string)
    requires ';' !in role
    ensures GetCookie(true, USER_ROLE + "=" + role, AUTH_TOKEN) == None
  {
    var c1 := USER_ROLE + "=" + role;
    assert c1[0] != ' ';
    assert StripLeadingSpaces(c1) == c1;
    KeyMatchesExactly(USER_ROLE, role, AUTH_TOKEN);
    assert ';' !in c1;
    GetCookieOneSegment(c1, AUTH_TOKEN);
  }

  /** The role cookie's segment holds no `;` and does not match the token's name. */
  lemma RoleSegmentSkipped(role: string)
    requires ';' !in role
    ensures ';' !in USER_ROLE + "=" + role
    ensures !Matches(USER_ROLE + "=" + role, AUTH_TOKEN + "=")
  {
    var c1 := USER_ROLE + "=" + role;
    assert c1[0] != ' ';
    assert StripLeadingSpaces(c1) == c1;
    KeyMatchesExactly(USER_ROLE, role, AUTH_TOKEN);
  }

  /** The token's segment after `; ` holds no `;`, matches the token's
      name, and carries the token after the `=`. */
  lemma TokenSegmentFound(token: string)
    requires ';' !in token
    ensures ';' !in " " + AUTH_TOKEN + "=" + token
    ensures Matches(" " + AUTH_TOKEN + "=" + token, AUTH_TOKEN + "=")
    ensures StripLeadingSpaces(" " + AUTH_TOKEN + "=" + token)[|AUTH_TOKEN| + 1..] == token
  {
    var body := AUTH_TOKEN + "=" + token;
    assert " " + AUTH_TOKEN + "=" + token == " " + body;
    StripSpaces(" ", body);
    assert body[0] != ' ';
    assert StripLeadingSpaces(body) == body;
    assert body[..|AUTH_TOKEN| + 1] == AUTH_TOKEN + "=";
    assert body[|AUTH_TOKEN| + 1..] == token;
  }

  /** ... and finds the token listed after it. */
  lemma TokenFoundAfterRoleCookie(role: string, token: string)
    requires ';' !in role && ';' !in token
    ensures GetCookie(true, USER_ROLE + "=" + role + "; " + AUTH_TOKEN + "=" + token, AUTH_TOKEN)
            == Some(token)
  {
    var c1 := USER_ROLE + "=" + role;
    var c2 := " " + AUTH_TOKEN + "=" + token;
    RoleSegmentSkipped(role);
    TokenSegmentFound(token);
    GetCookieTwoSegments(c1, c2, AUTH_TOKEN);
    assert c1 + ";" + c2 == USER_ROLE + "=" + role + "; " + AUTH_TOKEN + "=" + token;
  }

  /** Only spaces are stripped, and only before the name: a space before
      the `=` hides the cookie... */
  lemma SpaceBeforeEqualsHides(name: string, v: string)
    requires ValidName(name) && ';' !in v
    ensures GetCookie(true, name + " =" + v, name) == None
  {
    var a := name + " =" + v;
    assert a[0] == name[0];
    assert StripLeadingSpaces(a) == a;
    assert a[|name|] == ' ';
    assert ';' !in a;
    GetCookieOneSegment(a, name);
  }

  /** ... so does a tab before the name... */
  lemma TabBeforeNameHides(name: string, v: string)
    requires ValidName(name) && name[0] != '\t' && ';' !in v
    ensures GetCookie(true, "\t" + name + "=" + v, name) == None
  {
    var b := "\t" + name + "=" + v;
    assert StripLeadingSpaces(b) == b;
    assert b[1] == name[0];
    assert ';' !in b;
    GetCookieOneSegment(b, name);
  }

  /** ... while any number of spaces before the name is skipped. */
  lemma LeadingSpacesSkipped(spaces: string, name: string, v: string)
    requires forall i :: 0 <= i < |spaces| ==> spaces[i] == ' '
    requires ValidName(name) && ';' !in v
    ensures GetCookie(true, spaces + name + "=" + v, name) == Some(v)
  {
    var body := name + "=" + v;
    assert body[0] == name[0];
    StripSpaces(spaces, body);
    assert spaces + name + "=" + v == spaces + body;
    assert body[..|name| + 1] == name + "=";
    GetCookieOneSegment(spaces + body, name);
  }

  lemma {:induction false} StripSpaces(spaces: string, x: string)
    requires forall i :: 0 <= i < |spaces| ==> spaces[i] == ' '
    ensures StripLeadingSpaces(spaces + x) == StripLeadingSpaces(x)
    decreases |spaces|
  {
    if |spaces| > 0 {
      assert (spaces + x)[1..] == spaces[1..] + x;
      StripSpaces(spaces[1..], x);
    } else {
      assert spaces + x == x;
    }
  }

  /** Stripping the separator's space restores `name=value` when the name
      does not itself start with a space. */
  lemma SegmentStripped(c: Cookie, i: nat)
    requires ValidName(c.name)
    ensures StripLeadingSpaces(Segment(c, i)) == c.name + "=" + c.value
  {
    var body := c.name + "=" + c.value;
    assert body[0] == c.name[0];
    if i > 0 {
      assert Segment(c, i) == " " + body;
      assert (" " + body)[1..] == body;
    } else {
      assert Segment(c, i) == body;
    }
  }

  lemma SegmentFacts(c: Cookie, i: nat, name: string)
    requires ValidName(c.name) && ValidValue(c.value) && '=' !in name
    ensures ';' !in Segment(c, i)
    ensures Matches(Segment(c, i), name + "=") <==> c.name == name
    ensures c.name == name ==> StripLeadingSpaces(Segment(c, i))[|name| + 1..] == c.value
  {
    SegmentStripped(c, i);
    KeyMatchesExactly(c.name, c.value, name);
    var s := Segment(c, i);
    assert s == (if i == 0 then "" else " ") + c.name + "=" + c.value;
    assert forall x :: x in s ==> x == ' ' || x in c.name || x == '=' || x in c.value;
  }

  /** The parser's loop and the store's lookup visit the same positions. */
  lemma {:induction false} FindMatchesLookup(jar: Jar, name: string, i: nat)
    requires WellFormed(jar) && '=' !in name
    requires i <= |jar|
    ensures var k := FindFrom(Segments(jar), name + "=", i);
      LookupFrom(jar, name, i) == if k < |jar| then Some(jar[k].value) else None
    ensures FindFrom(Segments(jar), name + "=", i) < |jar| ==>
      var k := FindFrom(Segments(jar), name + "=", i);
      StripLeadingSpaces(Segments(jar)[k])[|name| + 1..] == jar[k].value
    decreases |jar| - i
  {
    if i < |jar| {
      SegmentFacts(jar[i], i, name);
      if jar[i].name != name {
        FindMatchesLookup(jar, name, i + 1);
      }
    }
  }

  /** Round trip: for a store whose names contain neither `=` nor `;` and do
      not start with a space, and whose values contain no `;`, parsing its
      `document.cookie` text finds exactly the stored value of each name. */
  lemma RenderRoundTrip(jar: Jar, name: string)
    requires WellFormed(jar)
    requires '=' !in name
    ensures GetCookie(true, Render(jar), name) == Lookup(jar, name)
  {
    var segs := Segments(jar);
    if |jar| == 0 {
      assert Render(jar) == "";
      assert Split("", ';') == [""];
      assert !StartsWith("", name + "=");
    } else {
      forall i | 0 <= i < |segs| ensures ';' !in segs[i] {
        SegmentFacts(jar[i], i, name);
      }
      SplitJoin(segs, ';');
      FindMatchesLookup(jar, name, 0);
    }
  }

  /** What the page reads through `getCookie` is what the store holds. */
  lemma ReadCookieIsLookup(b: Browser, name: string)
    requires b.hasWindow && WellFormed(b.jar) && '=' !in name
    ensures ReadCookie(b, name) == Lookup(b.jar, name)
  {
    RenderRoundTrip(b.jar, name);
  }

  /** A cookie the page sets reads back through `getCookie` while it lives,
      as the browser parsed it on the write: unchanged exactly when the
      value holds no `;` and is not padded with spaces or tabs. */
  lemma SetThenRead(b: Browser, name: string, value: string, days: int)
    requires b.hasWindow && WellFormed(b.jar)
    requires ValidName(name) && days > 0
    ensures ReadCookie(SetCookie(b, name, value, days), name) == Some(StoredValue(value))
    ensures ReadCookie(SetCookie(b, name, value, days), name) == Some(value) <==> ValidValue(value)
    ensures WellFormed(SetCookie(b, name, value, days).jar)
  {
    RenderRoundTrip(SetCookie(b, name, value, days).jar, name);
    StoredValueFixesValid(value);
  }

  /** A removed cookie no longer reads back, and the others still do. */
  lemma RemoveThenRead(b: Browser, name: string, other: string)
    requires b.hasWindow && b.clockMs > EPOCH_MS && WellFormed(b.jar)
    requires ValidName(name) && '=' !in other
    ensures ReadCookie(RemoveCookie(b, name), name) == None
    ensures other != name ==> ReadCookie(RemoveCookie(b, name), other) == ReadCookie(b, other)
  {
    var r := RemoveCookie(b, name);
    RenderRoundTrip(r.jar, name);
    RenderRoundTrip(r.jar, other);
    RenderRoundTrip(b.jar, other);
  }
}

=== FILE: subscriptionslice.dfy ===
/** The reducer of `app/store/slices/subscriptionSlice.ts`: the signed-in
    user's subscriptions and the one currently shown. */
module SubscriptionSlice {
  import opened Wrappers
  import opened Text
  import opened Lists

  /** `UserSubscription`, with the fields the reducer reads or writes. */
  datatype Subscription = Subscription(id: int, status: string, planVariationId: string, availableCredit: int)

  datatype State = State(
    userSubscriptions: seq<Subscription>,
    currentSubscription: Option<Subscription>,
    loading: bool,
    error: Option<string>)

  const INITIAL := State([], None, false, None)

  const CANCELLED := "CANCELLED"

  datatype Op = FetchUserSubscriptions | FetchSubscriptionById | CancelSubscription | UpdateSubscription

  datatype Action =
    | ClearSubscriptions
    | ClearSubscriptionError
    | SetCurrentSubscription(subscription: Subscription)
    | Pending(op: Op)
    | Rejected(op: Op, message: string)
    | FetchedList(subscriptions: seq<Subscription>)
    | FetchedById(subscription: Subscription)
    | Cancelled(subscriptionId: string)      // the id the thunk was called with
    | Updated(subscription: Subscription)

  /** `sub.id.toString() === subscriptionId`. */
  function IdIs(subscriptionId: string): Subscription -> bool {
    (x: Subscription) => IntToString(x.id) == subscriptionId
  }

  /** The cancelled copy of one subscription. */
  function MarkCancelled(x: Subscription): (r: Subscription)
    ensures r.status == CANCELLED && r.id == x.id && r.planVariationId == x.planVariationId
    ensures r.availableCredit == x.availableCredit
  {
    x.(status := CANCELLED)
  }

  /** The list after a cancellation: the first entry whose id prints as
      `subscriptionId` is marked cancelled, and nothing else changes. */
  function CancelInList(xs: seq<Subscription>, subscriptionId: string): (r: seq<Subscription>)
    ensures |r| == |xs|
    ensures forall j :: 0 <= j < |xs| && IntToString(xs[j].id) != subscriptionId ==> r[j] == xs[j]
    ensures forall j :: 0 <= j < |xs| && r[j] != xs[j] ==> r[j] == MarkCancelled(xs[j])
    ensures FindIndex(xs, IdIs(subscriptionId)).Some? ==>
      var i := FindIndex(xs, IdIs(subscriptionId)).value;
      r == xs[i := MarkCancelled(xs[i])]
    ensures FindIndex(xs, IdIs(subscriptionId)).None? ==> r == xs
  {
    var i := FindIndex(xs, IdIs(subscriptionId));
    if i.Some? then xs[i.value := MarkCancelled(xs[i.value])] else xs
  }

  function Reduce(s: State, a: Action): (r: State)
    ensures a.ClearSubscriptions? ==> r == s.(userSubscriptions := [], currentSubscription := None, error := None)
    ensures a.ClearSubscriptionError? ==> r == s.(error := None)
    ensures a.SetCurrentSubscription? ==> r == s.(currentSubscription := Some(a.subscription))
    ensures a.Pending? ==> r == s.(loading := true, error := None)
    ensures a.Rejected? ==> r == s.(loading := false, error := Some(a.message))
    // A fetched list replaces the cached one; the first entry becomes the
    // current subscription only when there was none.
    ensures a.FetchedList? ==>
      && r.userSubscriptions == a.subscriptions && !r.loading && r.error == s.error
      && r.currentSubscription == (if s.currentSubscription.None? && |a.subscriptions| > 0
                                   then Some(a.subscriptions[0]) else s.currentSubscription)
    ensures a.FetchedById? ==> r == s.(loading := false, currentSubscription := Some(a.subscription))
    ensures a.Cancelled? ==>
      && r.userSubscriptions == CancelInList(s.userSubscriptions, a.subscriptionId)
      && !r.loading && r.error == s.error
      && (s.currentSubscription.Some? && IntToString(s.currentSubscription.value.id) == a.subscriptionId ==>
            r.currentSubscription == Some(MarkCancelled(s.currentSubscription.value)))
      && (s.currentSubscription.None? || IntToString(s.currentSubscription.value.id) != a.subscriptionId ==>
            r.currentSubscription == s.currentSubscription)
    ensures a.Updated? ==>
      && r.userSubscriptions == ReplaceFirst(s.userSubscriptions, (y: Subscription) => y.id == a.subscription.id, a.subscription)
      && !r.loading && r.error == s.error
      && r.currentSubscription == (if s.currentSubscription.Some? && s.currentSubscription.value.id == a.subscription.id
                                   then Some(a.subscription) else s.currentSubscription)
  {
    match a
    case ClearSubscriptions => s.(userSubscriptions := [], currentSubscription := None, error := None)
    case ClearSubscriptionError => s.(error := None)
    case SetCurrentSubscription(x) => s.(currentSubscription := Some(x))
    case Pending(_) => s.(loading := true, error := None)
    case Rejected(_, message) => s.(loading := false, error := Some(message))
    case FetchedList(xs) =>
      var current := if |xs| > 0 && s.currentSubscription.None? then Some(xs[0]) else s.currentSubscription;
      s.(loading := false, userSubscriptions := xs, currentSubscription := current)
    case FetchedById(x) => s.(loading := false, currentSubscription := Some(x))
    case Cancelled(subscriptionId) =>
      var current :=
        if s.currentSubscription.Some? && IntToString(s.currentSubscription.value.id) == subscriptionId
        then Some(MarkCancelled(s.currentSubscription.value)) else s.currentSubscription;
      s.(loading := false, userSubscriptions := CancelInList(s.userSubscriptions, subscriptionId),
         currentSubscription := current)
    case Updated(x) =>
      var current := if s.currentSubscription.Some? && s.currentSubscription.value.id == x.id
                     then Some(x) else s.currentSubscription;
      s.(loading := false,
         userSubscriptions := ReplaceFirst(s.userSubscriptions, (y: Subscription) => y.id == x.id, x),
         currentSubscription := current)
  }

  // ---------------------------------------------------------------------
  // Properties

  /** Cancelling by the printed form of an id marks exactly the first
      subscription with that id: ids print injectively, so no other id
      can match. */
  lemma {:induction false} CancelMarksFirstWithId(xs: seq<Subscription>, id: int)
    ensures var r := CancelInList(xs, IntToString(id));
      && |r| == |xs|
      && (forall j :: 0 <= j < |xs| && xs[j].id != id ==> r[j] == xs[j])
      && (forall j :: 0 <= j < |xs| && xs[j].id == id && (forall k :: 0 <= k < j ==> xs[k].id != id) ==>
            r[j].status == CANCELLED && r[j].id == id)
  {
    var r := CancelInList(xs, IntToString(id));
    forall j | 0 <= j < |xs|
      ensures IdIs(IntToString(id))(xs[j]) <==> xs[j].id == id
    {
      IntToStringInjective(xs[j].id, id);
    }
    forall j | 0 <= j < |xs| && xs[j].id == id && (forall k :: 0 <= k < j ==> xs[k].id != id)
      ensures r[j].status == CANCELLED && r[j].id == id
    {
      var i := FindIndex(xs, IdIs(IntToString(id)));
      assert i.Some? && i.value == j by {
        assert IdIs(IntToString(id))(xs[j]);
      }
    }
  }

  /** A payload that is not the printed form of any listed id, such as
      one with a leading zero, cancels nothing in the list. */
  lemma CancelUnknownIdIsNoOp(s: State, subscriptionId: string)
    requires forall j :: 0 <= j < |s.userSubscriptions| ==> IntToString(s.userSubscriptions[j].id) != subscriptionId
    ensures Reduce(s, Cancelled(subscriptionId)).userSubscriptions == s.userSubscriptions
  {
  }

  /** A fetched list never displaces a current subscription that was
      already chosen. */
  lemma FetchKeepsChosenCurrent(s: State, xs: seq<Subscription>)
    requires s.currentSubscription.Some?
    ensures Reduce(s, FetchedList(xs)).currentSubscription == s.currentSubscription
    ensures Reduce(s, FetchedList(xs)).userSubscriptions == xs
  {
  }

  /** Cancelling twice is the same as cancelling once. */
  lemma CancelIdempotent(s: State, subscriptionId: string)
    ensures Reduce(Reduce(s, Cancelled(subscriptionId)), Cancelled(subscriptionId)) == Reduce(s, Cancelled(subscriptionId))
  {
    var xs := s.userSubscriptions;
    var r := CancelInList(xs, subscriptionId);
    var i := FindIndex(xs, IdIs(subscriptionId));
    if i.Some? {
      assert FindIndex(r, IdIs(subscriptionId)) == i by {
        assert IdIs(subscriptionId)(r[i.value]);
      }
    }
  }
}

=== FILE: text.dfy ===
/** String helpers with JavaScript's semantics, on `seq<char>`. */
module Text {

  /** `s.startsWith(p)`, equivalently `s.indexOf(p) === 0`. */
  predicate StartsWith(s: string, p: string) {
    |p| <= |s| && s[..|p|] == p
  }

  /** A string does not start with a pattern it differs from at some
      position both share, nor with one longer than itself. */
  lemma NotPrefixAt(s: string, p: string, i: nat)
    requires i < |p| && (i >= |s| || s[i] != p[i])
    ensures !StartsWith(s, p)
  {
  }

  /** `s.includes(sub)`: `sub` occurs at some position of `s`. */
  predicate Contains(s: string, sub: string) {
    exists i :: 0 <= i <= |s| - |sub| && OccursAt(s, sub, i)
  }

  predicate OccursAt(s: string, sub: string, i: int)
    requires 0 <= i <= |s| - |sub|
  {
    s[i..i + |sub|] == sub
  }

  /** The characters JavaScript's `\s` and `String.prototype.trim` treat as
      white space: the WhiteSpace and LineTerminator productions of
      ECMAScript (section 12.2 and 12.3 of ECMA-262). */
  predicate IsJsWhitespace(c: char) {
    || c == '\t' || c == '\n' || c == '\U{000B}' || c == '\U{000C}' || c == '\r'
    || c == ' ' || c == '\U{00A0}' || c == '\U{1680}'
    || ('\U{2000}' <= c <= '\U{200A}')
    || c == '\U{2028}' || c == '\U{2029}' || c == '\U{202F}' || c == '\U{205F}'
    || c == '\U{3000}' || c == '\U{FEFF}'
  }

  predicate HasWhitespace(s: string) {
    exists i :: 0 <= i < |s| && IsJsWhitespace(s[i])
  }

  /** `s.trimStart()`. */
  function TrimStart(s: string): (r: string)
    ensures |r| <= |s| && r == s[|s| - |r|..]
    ensures |r| > 0 ==> !IsJsWhitespace(r[0])
    ensures forall i :: 0 <= i < |s| - |r| ==> IsJsWhitespace(s[i])
  {
    if |s| > 0 && IsJsWhitespace(s[0]) then TrimStart(s[1..]) else s
  }

  /** `s.trimEnd()`. */
  function TrimEnd(s: string): (r: string)
    ensures |r| <= |s| && r == s[..|r|]
    ensures |r| > 0 ==> !IsJsWhitespace(r[|r| - 1])
    ensures forall i :: |r| <= i < |s| ==> IsJsWhitespace(s[i])
  {
    if |s| > 0 && IsJsWhitespace(s[|s| - 1]) then TrimEnd(s[..|s| - 1]) else s
  }

  /** `s.trim()`. */
  function Trim(s: string): string {
    TrimEnd(TrimStart(s))
  }

  /** `s.trim()` is empty exactly when `s` consists of white space only. */
  lemma TrimEmptyIffBlank(s: string)
    ensures Trim(s) == "" <==> !exists i :: 0 <= i < |s| && !IsJsWhitespace(s[i])
  {
    var t := TrimStart(s);
    if Trim(s) == "" {
      assert t == "";
    } else {
      var r := Trim(s);
      assert r == t[..|r|];
      assert !IsJsWhitespace(t[0]);
      assert s[|s| - |t|] == t[0];
    }
  }

  /** ASCII case mapping, the part of `toLowerCase` the model keeps. */
  function LowerChar(c: char): char {
    if 'A' <= c <= 'Z' then (c as int + 32) as char else c
  }

  function UpperChar(c: char): char {
    if 'a' <= c <= 'z' then (c as int - 32) as char else c
  }

  /** `s.toLowerCase()` restricted to ASCII letters. */
  function ToLower(s: string): (r: string)
    ensures |r| == |s|
    ensures forall i :: 0 <= i < |s| ==> r[i] == LowerChar(s[i])
  {
    if |s| == 0 then "" else [LowerChar(s[0])] + ToLower(s[1..])
  }

  /** `s.split(sep)` for a one-character separator: never empty, and the
      pieces are the maximal separator-free runs of `s`. */
  function Split(s: string, sep: char): (r: seq<string>)
    ensures |r| >= 1
    ensures forall i :: 0 <= i < |r| ==> sep !in r[i]
  {
    if |s| == 0 then [""]
    else
      var rest := Split(s[1..], sep);
      if s[0] == sep then [""] + rest
      else [[s[0]] + rest[0]] + rest[1..]
  }

  /** `pieces.join(sep)`. */
  function Join(pieces: seq<string>, sep: char): string {
    if |pieces| == 0 then ""
    else if |pieces| == 1 then pieces[0]
    else pieces[0] + [sep] + Join(pieces[1..], sep)
  }

  /** Joining the pieces of a split gives the original string back. */
  lemma {:induction false} JoinSplit(s: string, sep: char)
    ensures Join(Split(s, sep), sep) == s
    decreases |s|
  {
    if |s| > 0 {
      JoinSplit(s[1..], sep);
      var rest := Split(s[1..], sep);
      if s[0] == sep {
        assert Split(s, sep) == [""] + rest;
        assert ([""] + rest)[1..] == rest;
      } else {
        var r := Split(s, sep);
        assert r == [[s[0]] + rest[0]] + rest[1..];
        if |rest| == 1 {
          assert r == [[s[0]] + rest[0]];
        } else {
          assert r[1..] == rest[1..];
          assert Join(rest, sep) == rest[0] + [sep] + Join(rest[1..], sep);
        }
      }
    }
  }

  /** Splitting at a separator that only occurs between the pieces recovers
      the pieces: the other half of the round trip. */
  lemma {:induction false} SplitJoin(pieces: seq<string>, sep: char)
    requires |pieces| >= 1
    requires forall i :: 0 <= i < |pieces| ==> sep !in pieces[i]
    ensures Split(Join(pieces, sep), sep) == pieces
    decreases |pieces|
  {
    if |pieces| == 1 {
      SplitNoSep(pieces[0], sep);
    } else {
      SplitJoin(pieces[1..], sep);
      SplitAtFirst(pieces[0], Join(pieces[1..], sep), sep);
      assert [pieces[0]] + pieces[1..] == pieces;
    }
  }

  lemma {:induction false} SplitNoSep(a: string, sep: char)
    requires sep !in a
    ensures Split(a, sep) == [a]
    decreases |a|
  {
    if |a| > 0 {
      SplitNoSep(a[1..], sep);
      assert [a[0]] + a[1..] == a;
    }
  }

  lemma {:induction false} SplitAtFirst(a: string, b: string, sep: char)
    requires sep !in a
    ensures Split(a + [sep] + b, sep) == [a] + Split(b, sep)
    decreases |a|
  {
    var s := a + [sep] + b;
    if |a| == 0 {
      assert s[0] == sep && s[1..] == b;
    } else {
      assert s[1..] == a[1..] + [sep] + b;
      SplitAtFirst(a[1..], b, sep);
      assert [a[0]] + a[1..] == a;
    }
  }

  // ---------------------------------------------------------------------
  // Decimal numerals: `String(n)` / `n.toString()` on integers

  predicate IsDigit(c: char) {
    '0' <= c <= '9'
  }

  function DigitChar(d: nat): (c: char)
    requires d < 10
    ensures IsDigit(c) && c as int - '0' as int == d
  {
    ('0' as int + d) as char
  }

  /** The decimal numeral of `n`, without leading zeros. */
  function NatToString(n: nat): (s: string)
    ensures |s| >= 1
    ensures forall i :: 0 <= i < |s| ==> IsDigit(s[i])
    ensures |s| > 1 ==> s[0] != '0'
    decreases n
  {
    if n < 10 then [DigitChar(n)] else NatToString(n / 10) + [DigitChar(n % 10)]
  }

  /** `i.toString()` for an integer: a minus sign before the numeral of a
      negative number. */
  function IntToString(i: int): (s: string)
    ensures i >= 0 ==> s == NatToString(i)
    ensures i < 0 ==> s == "-" + NatToString(-i)
  {
    if i >= 0 then NatToString(i) else "-" + NatToString(-i)
  }

  /** The value of a string of decimal digits. */
  function DigitsValue(s: string): (n: nat)
    requires forall i :: 0 <= i < |s| ==> IsDigit(s[i])
  {
    if |s| == 0 then 0
    else
      assert IsDigit(s[|s| - 1]);
      DigitsValue(s[..|s| - 1]) * 10 + (s[|s| - 1] as int - '0' as int)
  }

  /** Reading the numeral back gives the number: `NatToString` is a decimal
      rendering, and therefore injective. */
  lemma {:induction false} NatToStringValue(n: nat)
    ensures DigitsValue(NatToString(n)) == n
    decreases n
  {
    var s := NatToString(n);
    if n >= 10 {
      NatToStringValue(n / 10);
      assert s[..|s| - 1] == NatToString(n / 10);
    }
  }

  lemma NatToStringInjective(m: nat, n: nat)
    ensures NatToString(m) == NatToString(n) <==> m == n
  {
    NatToStringValue(m);
    NatToStringValue(n);
  }

  lemma IntToStringInjective(i: int, j: int)
    ensures IntToString(i) == IntToString(j) <==> i == j
  {
    if IntToString(i) == IntToString(j) {
      if i >= 0 && j >= 0 {
        NatToStringInjective(i, j);
      } else if i < 0 && j < 0 {
        assert IntToString(i)[1..] == NatToString(-i);
        assert IntToString(j)[1..] == NatToString(-j);
        NatToStringInjective(-i, -j);
      }
    }
  }
}

=== FILE: userslice.dfy ===
/** The reducer of `app/store/slices/userSlice.ts`: display preferences and
    placeholder quest statistics. */
module UserSlice {
  import opened Wrappers

  datatype Theme = Light | Dark

  datatype Preferences = Preferences(theme: Theme, notifications: bool)

  datatype Stats = Stats(totalQuests: int, completedQuests: int, successRate: int)

  /** `Partial<UserStats>` and `Partial<UserPreferences>`: a missing field
      is `None`. */
  datatype StatsPatch = StatsPatch(totalQuests: Option<int>, completedQuests: Option<int>, successRate: Option<int>)
  datatype PreferencesPatch = PreferencesPatch(theme: Option<Theme>, notifications: Option<bool>)

  datatype State = State(preferences: Preferences, stats: Stats, loading: bool, error: Option<string>)

  const INITIAL := State(Preferences(Light, true), Stats(0, 0, 0), false, None)

  /** What `fetchUserStats` always resolves to. */
  const FIXED_STATS := Stats(12, 10, 85)

  datatype Op = UpdateProfile | FetchStats

  datatype Action =
    | SetTheme(theme: Theme)
    | ToggleNotifications
    | UpdateStats(patch: StatsPatch)
    | SetPreferences(prefsPatch: PreferencesPatch)
    | ClearUserError
    | Pending(op: Op)
    | Rejected(op: Op, message: string)
    | ProfileUpdated
    | StatsFetched(stats: Stats)

  /** `{ ...stats, ...patch }`. */
  function MergeStats(s: Stats, p: StatsPatch): (r: Stats)
    ensures r.totalQuests == p.totalQuests.GetOr(s.totalQuests)
    ensures r.completedQuests == p.completedQuests.GetOr(s.completedQuests)
    ensures r.successRate == p.successRate.GetOr(s.successRate)
  {
    Stats(
      if p.totalQuests.Some? then p.totalQuests.value else s.totalQuests,
      if p.completedQuests.Some? then p.completedQuests.value else s.completedQuests,
      if p.successRate.Some? then p.successRate.value else s.successRate)
  }

  /** `{ ...preferences, ...patch }`. */
  function MergePreferences(s: Preferences, p: PreferencesPatch): (r: Preferences)
    ensures r.theme == p.theme.GetOr(s.theme)
    ensures r.notifications == p.notifications.GetOr(s.notifications)
  {
    Preferences(
      if p.theme.Some? then p.theme.value else s.theme,
      if p.notifications.Some? then p.notifications.value else s.notifications)
  }

  function Reduce(s: State, a: Action): (r: State)
    ensures a.SetTheme? ==> r == s.(preferences := s.preferences.(theme := a.theme))
    ensures a.ToggleNotifications? ==>
      r.preferences.notifications != s.preferences.notifications && r.preferences.theme == s.preferences.theme
      && r.stats == s.stats && r.loading == s.loading && r.error == s.error
    ensures a.UpdateStats? ==> r == s.(stats := MergeStats(s.stats, a.patch))
    ensures a.SetPreferences? ==> r == s.(preferences := MergePreferences(s.preferences, a.prefsPatch))
    ensures a.ClearUserError? ==> r == s.(error := None)
    ensures a.Pending? ==> r == s.(loading := true, error := None)
    ensures a.Rejected? ==> r == s.(loading := false, error := Some(a.message))
    ensures a.ProfileUpdated? ==> r == s.(loading := false)
    ensures a.StatsFetched? ==> r == s.(loading := false, stats := a.stats)
  {
    match a
    case SetTheme(theme) => s.(preferences := s.preferences.(theme := theme))
    case ToggleNotifications => s.(preferences := s.preferences.(notifications := !s.preferences.notifications))
    case UpdateStats(p) => s.(stats := MergeStats(s.stats, p))
    case SetPreferences(p) => s.(preferences := MergePreferences(s.preferences, p))
    case ClearUserError => s.(error := None)
    case Pending(_) => s.(loading := true, error := None)
    case Rejected(_, message) => s.(loading := false, error := Some(message))
    case ProfileUpdated => s.(loading := false)
    case StatsFetched(stats) => s.(loading := false, stats := stats)
  }

  /** The `fetchUserStats` thunk: no request, always the same numbers. */
  function FetchUserStats(): (a: Action)
    ensures a.StatsFetched? && a.stats.totalQuests == 12 && a.stats.completedQuests == 10 && a.stats.successRate == 85
  {
    StatsFetched(FIXED_STATS)
  }

  // ---------------------------------------------------------------------
  // Properties

  lemma ToggleNotificationsInvolution(s: State)
    ensures Reduce(Reduce(s, ToggleNotifications), ToggleNotifications) == s
  {
  }

  /** An empty patch changes nothing, a full patch replaces everything,
      and patching twice is patching with the later value winning. */
  lemma MergeLaws(s: Stats, p: StatsPatch, q: StatsPatch, t: Preferences, u: PreferencesPatch)
    ensures MergeStats(s, StatsPatch(None, None, None)) == s
    ensures MergeStats(s, StatsPatch(Some(s.totalQuests), Some(s.completedQuests), Some(s.successRate))) == s
    ensures MergeStats(MergeStats(s, p), q) == MergeStats(s, StatsPatch(
      if q.totalQuests.Some? then q.totalQuests else p.totalQuests,
      if q.completedQuests.Some? then q.completedQuests else p.completedQuests,
      if q.successRate.Some? then q.successRate else p.successRate))
    ensures MergePreferences(t, PreferencesPatch(None, None)) == t
    ensures MergePreferences(MergePreferences(t, u), u) == MergePreferences(t, u)
  {
  }

  /** Fetching the stats always lands on the same numbers, whatever was
      there, and a profile update leaves preferences and stats alone. */
  lemma StatsAreFixed(s: State, t: State)
    ensures Reduce(Reduce(s, Pending(FetchStats)), FetchUserStats()).stats == FIXED_STATS
    ensures Reduce(Reduce(s, Pending(FetchStats)), FetchUserStats()).stats
         == Reduce(Reduce(t, Pending(FetchStats)), FetchUserStats()).stats
    ensures var r := Reduce(Reduce(s, Pending(UpdateProfile)), ProfileUpdated);
      r.preferences == s.preferences && r.stats == s.stats && !r.loading && r.error.None?
  {
  }
}

=== FILE: values.dfy ===
/** JSON-like values of request and response bodies, as far as the core
    looks inside them, and JavaScript truthiness on them. */
module Values {
  import opened Wrappers

  datatype Value = VNull | VBool(b: bool) | VInt(i: int) | VStr(s: string) | VObj

  /** A flat JSON object; nested objects are kept opaque (`VObj`). */
  type Object = map<string, Value>

  /** HTTP headers as a plain record of strings. */
  type Headers = map<string, string>

  /** `!!v`: `null`, `false`, `0` and `''` are falsy, anything else truthy. */
  predicate Truthy(v: Value) {
    match v
    case VNull => false
    case VBool(b) => b
    case VInt(i) => i != 0
    case VStr(s) => s != ""
    case VObj => true
  }

  /** `!!x` on a value that is a string or `null`/`undefined`. */
  predicate TruthyStr(o: Option<string>) {
    o.Some? && o.value != ""
  }

  /** `x || fallback` on a string that may be absent. */
  function OrElse(o: Option<string>, fallback: string): (r: string)
    ensures TruthyStr(o) ==> r == o.value
    ensures !TruthyStr(o) ==> r == fallback
  {
    if TruthyStr(o) then o.value else fallback
  }

  /** `{ ...a, ...b }`: the keys of both, `b` winning on a conflict. */
  function Spread<V>(a: map<string, V>, b: map<string, V>): (r: map<string, V>)
    ensures r.Keys == a.Keys + b.Keys
    ensures forall k :: k in b ==> r[k] == b[k]
    ensures forall k :: k in a && k !in b ==> r[k] == a[k]
  {
    a + b
  }
}

=== FILE: wrappers.dfy ===
/** Optional values and results shared by every module of the model.
    `Option` stands for the source's `T | null` / `T | undefined`, and
    `Result` for an operation that either returns or throws. */
module Wrappers {

  datatype Option<+T> = None | Some(value: T) {

    /** The value, or `default` when absent (`x ?? default`). */
    function GetOr(default: T): T {
      match this
      case Some(v) => v
      case None => default
    }
  }

  datatype Result<+R, +E> = Success(value: R) | Failure(error: E)
}
